=== FILE: README.md ===
# Period aggregation of the QA unified dashboard, in Dafny

This project models the aggregation engine of the dashboard's Express server
(`server.js`). The server stores per-month ticket analyses
(`analysis_records`, whose `analysis_data` column holds one JSON entry per
month) and monthly performance values (`performance_statistics`). It folds
them into year / quarter / month buckets with summed counters, success rates
and averages.

The model follows the handlers' code, including the lookups on object
literals that reach an inherited `Object.prototype` member: the handlers of
`/api/statistics/compare`, `/api/project-statistics/:projectId/compare` and
`/api/portfolio-statistics` throw or lose a month bucket exactly where the
code does. `/api/records/aggregated` also throws where the code does, but
its bogus quarter keys are listed under "Left out". Each handler becomes a pure function
from the rows its SQL query returns to the JSON body it sends, or to the
error it answers with. The modules follow the structure of the program:

- `Wrappers`: `Option` and `Result`.
- `JsValues`: the JavaScript semantics the handlers rely on: `trim`,
  `split(/\s+/)[0]`, `toLowerCase`, `parseInt`, `x || d`, and property lookup
  on an object literal (own key, inherited `Object.prototype` member, or
  absent). It also holds `safeJsonParse`.
- `Months`: `getMonthQuarter`, `getMonthNumber`, the `getQuarterMonths`
  closures, `Math.ceil(m / 3)`, the `Q${k}` labels and `monthOrder`.
- `Facts`: how each handler reads one `analysis_data` entry, counter sums, and
  the success rate.
- `Sorting`, `Grouping` and `Lists`: `Array.prototype.sort` (stable), the
  `if (!obj[k]) obj[k] = …` grouping fold, `filter`, `findIndex` and `reduce`.
- `Rollup`: `/api/project-statistics/:projectId`.
- `Compare`: `/api/statistics/compare` and
  `/api/project-statistics/:projectId/compare`.
- `Performance`: `/api/performance-statistics/dashboard` and
  `/api/projects/:id/performance-statistics`.
- `Portfolio`: `/api/portfolio-statistics`.
- `Aggregated`: `/api/records/aggregated`.
- `DeleteScope`: the scoped deletes of `/api/performance-statistics/delete`
  and `/api/project-availability/delete`.

A JSON object the server builds with string keys becomes a sequence of
entries in first-insertion order. A rate `(a / b) * 100` is an exact real.

Where the code behaves differently from what its names suggest, the model
follows the code:

- `getMonthNumber` returns any number unchanged. It does not clamp it to 1..12.
- `safeJsonParse` answers `[]` on unparseable text. No single fallback entry is produced.
- The latest quarter of a project is chosen by the number `parseInt` reads
  after the `Q`. Labels are not compared as text.
- A percentage change is 0 whenever its base is 0 or negative.
- Rates are kept exact instead of rounded by `toFixed(2)`.

## Model

| member | source | states |
|---|---|---|
| JsValues.SafeJsonParse | server.js:200-209 | Unparseable text and a decoded scalar both give `[]`. Text that parses gives its parse, and a decoded array, object or null comes back unchanged. |
| JsValues.Get | server.js:228-229 | A lookup on an object literal finds an own key exactly when the literal lists it, and otherwise an inherited member exactly for the `Object.prototype` names. |
| JsValues.TakeWord | server.js:225 | The first word is the longest whitespace-free prefix, stopped only by whitespace. |
| JsValues.TakeWordOfWord | server.js:225 | The first word of `w + rest` is `w` when `w` has no whitespace and `rest` starts with some. |
| JsValues.LowerTrim | server.js:1006 | Lower-casing and trimming commute. |
| JsValues.ParseIntShowNat | server.js:1015 | `parseInt` reads back every decimal numeral of a natural number. |
| Months.QuarterOf | server.js:1049 | `Math.ceil(m / 3)` is the `q` with `3(q-1) < m <= 3q`. |
| Months.QuarterLabelReadsBack | server.js:1168-1170 | `parseInt(label.substring(1))` reads every `Q${k}` label back as `k`. |
| Months.MonthQuarterAsWritten | server.js:212-230 | The lookup as written yields a quarter 1..4 from the table, or an inherited member exactly when the key is not in the table but is a prototype name. |
| Months.ConstructorLeaksThroughQuarterLookup | server.js:228-229 | "constructor 2025" gets the inherited `constructor` member instead of no quarter. |
| Months.PrototypeLeakOnlyForTwoWords | server.js:228-229 | Since the key is lower-cased, only "constructor" and "__proto__" can leak. |
| Months.MonthQuarter | server.js:212-230 | The corrected lookup gives a quarter exactly when the lower-cased first word is an own key, and then the table's quarter. It agrees with the code whenever the code finds a quarter. |
| Months.QuarterKeyOfWord | server.js:225-228 | The key looked up for `w + rest` is `w` lower-cased. |
| Months.MonthNumber | server.js:988-1016 | A number comes back unchanged. Text starting with a month key (lower-cased, trimmed) gives a month 1..12. Any other text gives what `parseInt` reads, or 0. |
| Months.MonthNumberByKey | server.js:1006-1012 | Any text whose normal form starts with a key of the table gets that key's month, whichever matching key comes first. |
| Months.NumeralMonth | server.js:1015 | A decimal numeral that is no month name gives its own value. |
| Months.MissingMonth | server.js:1006-1015 | A missing month is read as "undefined" and resolves to 0. |
| Months.UnknownWord | server.js:1006-1015 | A lower-case word that starts no month key gives month 0. If it is also no quarter key, it gives no quarter. |
| Months.PrefixMatchIsLooserThanWordMatch | server.js:1009-1012 | A word that merely starts with a month key ("marchy") has a month number but no quarter. |
| Months.TablesHaveSameKeys | server.js:991-1004 | The `getMonthNumber` literal and the `getMonthQuarter` literal have the same keys. |
| Months.QuarterTableAgreesWithMonthTable | server.js:213-222 | For every key, the quarter in the quarter literal is `ceil(month / 3)` of the number in the month literal. |
| Months.ResolversAgree | server.js:1048-1049 | Whenever `getMonthQuarter` finds a quarter, `Math.ceil(getMonthNumber(s) / 3)` finds the same one. |
| Months.QuarterFollowsMonth | server.js:212-230 | A text whose key is in the quarter literal gets the quarter of its month number. |
| Months.QuarterMonthsAsWritten | server.js:780-788 | The lookup as written finds an inherited member exactly for the prototype names. |
| Months.ToStringLeaksThroughQuarterMonths | server.js:787 | The quarter "toString" reaches the inherited method. |
| Months.QuarterMonthsAsWrittenOwn | server.js:780-788 | An own list is the intended one. An absent or inherited lookup is the intended `[]`. |
| Months.QuarterMonths | server.js:780-788 | The months listed for a label are exactly the months 1..12 whose quarter label it is. |
| Months.QuarterMonthsMembership | server.js:781-786 | The literal lists `m` under `q` exactly when `m` is in 1..12 and `q` is `Q${ceil(m/3)}`. |
| Months.IndexOf | server.js:1494 | `indexOf` gives the first position of the element, or -1 exactly when it is absent. |
| Months.MonthOrderAgreesWithMonthNumber | server.js:1491-1494 | A full month name's position in `monthOrder`, plus one, is its `getMonthNumber`. |
| Facts.Rate | server.js:1133-1135 | The rate times the tickets is 100 times the tickets resolved in two days. With no tickets the rate is 0. |
| Facts.RateIsPercentage | server.js:811 | When no more tickets were resolved than received, the rate lies in 0..100. |
| Facts.StatisticsFact | server.js:1046-1071 | The statistics reading: the month comes from the display name or else the month field, missing counts become 0, and a missing or zero after-two-days count is the tickets minus the two-day count. |
| Facts.CompareAndPeriodReadings | server.js:840-854 | The compare reading carries the same counters as the period reading, whose month is `getMonthNumber` of the compare reading's raw month. It shares the first two counters with the statistics reading, and the third exactly when `resolvedAfter2Days` is set and non-zero; otherwise its third counter is 0. |
| Facts.StatisticsAndPeriodAgreeOnCounts | server.js:1053-1055 | The two readings agree on the ticket counts. Without a display name they also agree on the month. |
| Facts.UnparseableRowHasNoEntries | server.js:837-839 | A row whose `analysis_data` does not parse contributes no entries. |
| Facts.RowFacts | server.js:1043-1046 | A row yields one fact per entry, in array order, with the row's year, the entry's display name and the month of the handler's reading. The facts' ticket and two-day sums are the sums of the entries' counts, a missing count adding 0. |
| Facts.FlattenCount | server.js:1041-1129 | All rows together yield as many facts as they have entries. |
| Facts.FlattenYears | server.js:1051 | Every fact carries the year of some row. |
| Facts.CompareFactsCount | server.js:835-860 | The compare handler also yields exactly one fact per entry. |
| Facts.SumOfAppend | server.js:808-810 | Summing the counters distributes over concatenation. |
| Sorting.SortBySorted | server.js:1493-1495 | The sort's result is ordered by the comparator's key. |
| Sorting.SortByPermutes | server.js:1493-1495 | The sort keeps every element with its multiplicity. |
| Sorting.SortByStable | server.js:1493-1495 | Elements with equal keys keep their input order. |
| Sorting.SortBySortedInput | server.js:1162 | Input already in order comes back unchanged. |
| Sorting.SortByDistinct | server.js:1627-1631 | Distinct keys going in give a strictly increasing result. |
| Grouping.GroupBy | server.js:1447-1466 | The fold makes one group per key, in first-seen order. Each group holds exactly the elements of its key, in order, and no group is empty. |
| Grouping.GroupByPartitions | server.js:1444-1453 | Every element lies in the group of its key and in no other. |
| Grouping.GroupOf | server.js:1444-1453 | Every key some element has gets a group, holding exactly its elements. |
| Grouping.GroupBySizes | server.js:1444-1476 | The group sizes add up to the number of elements. |
| Grouping.GroupBySums | server.js:614-626 | Summing per group and then over the groups equals summing over the elements. |
| Grouping.HavingLast | server.js:1545-1554 | The last element of a group is the input's last element with that key. |
| Lists.Select | server.js:1640 | `filter` keeps exactly the accepted elements, with their multiplicities. |
| Lists.SelectSubsequence | server.js:792 | `filter` keeps the input order. |
| Lists.FirstWhere | server.js:1468-1469 | The first record whose quarter makes the dashboard fold throw, or -1 when no record does; no record before it throws. |
| Lists.SumByPermutation | server.js:1502 | A sum does not depend on the order of its terms. |
| Rollup.Group | server.js:1076-1123 | Each bucket holds exactly the facts of its key in fold order. It has their summed counters, the rate of those sums, and the display name of its first fact. Keys are distinct. |
| Rollup.FactInOneBucket | server.js:1076-1123 | Every fact lands in exactly one bucket of each level. |
| Rollup.UpsertSummarises | server.js:1085-1087 | Filing one more fact keeps every bucket equal to the summary of its key. |
| Rollup.GroupRegion | server.js:1085-1105 | The buckets of a level inside a year (or a quarter) add up to the facts of that region. |
| Rollup.YearTotalsAddUp | server.js:1085-1123 | A year's totals are the sum of its quarter buckets and also the sum of its month buckets. |
| Rollup.QuarterTotalsAddUp | server.js:1103-1123 | A quarter's totals are the sum of its month buckets. |
| Rollup.MembersAreWithin | server.js:1090-1106 | A year bucket holds the facts of its year, and a quarter bucket those of its quarter. |
| Rollup.SelectedYearReadsNumerals | server.js:1022 | Without a `year` parameter the report is for today's year. A numeral is read as its value. |
| Rollup.CurrentYearIsYearSum | server.js:1151-1157 | The current-year row is the sum of that year's facts, and zero when the year has none. |
| Rollup.OfYear | server.js:1160-1161 | The buckets of the selected year, and only those. |
| Rollup.SortedYearRows | server.js:1160-1171 | The current year's rows ascend strictly by month (or quarter). |
| Rollup.CurrentRows | server.js:1160-1166 | The current rows are exactly the selected year's buckets, strictly ascending by slot. |
| Rollup.NoRowsForNaN | server.js:1160-1161 | A `NaN` year selects no rows. |
| Rollup.Newest | server.js:1215-1223 | `allYears`, `allQuarters` and `allMonths` hold every bucket exactly once, newest year first and then descending slot. |
| Rollup.FindPut | server.js:1179 | After `obj[name] = b` the name holds `b` and every other name is unchanged, except that `__proto__` creates no entry. |
| Rollup.NestContents | server.js:1172-1188 | Each name of a quarter's nested `months` object holds the last current month of that quarter with that display name. |
| Rollup.Views | server.js:1165-1193 | The views keep the quarters in order. In each quarter's `months` object, a display name holds the last given month of that quarter with that name, `__proto__` holds nothing, and every entry is such a month. |
| Rollup.CurrentViews | server.js:1165-1193 | The views' quarters are exactly the selected year's quarter buckets, ascending. Under each, a display name holds the last of that year's months of the quarter with that name. |
| Rollup.ProjectStatistics | server.js:1019-1224 | The report is for the selected year. Its row is the sum of that year's facts. Its months and quarters are exactly that year's buckets, in ascending order. Each quarter nests that year's months of the quarter, the last month of a display name winning. The `all*` lists hold every bucket of their level exactly once, newest year first and then descending slot. |
| Compare.FilterByPeriod | server.js:791-804 | The result is the order-preserving subsequence of the facts of the period, with their multiplicities. With no period parts set, every fact is kept. |
| Compare.QuarterFilterSelectsQuarter | server.js:795-798 | A filter `Qk` keeps exactly the facts whose month is a number 1..12 of quarter `k`. |
| Compare.TextMonthsNeverMatch | server.js:797-800 | A month stored as text survives no quarter or month filter. |
| Compare.StepThrows | server.js:796-797 | A prototype-name quarter makes the filter throw on any fact that passes the year test. |
| Compare.InheritedQuarterThrows | server.js:795-798 | With such a quarter the filter as written fails as soon as one fact passes the year test. |
| Compare.FilterAsWrittenAgrees | server.js:791-804 | Away from the prototype names, the filter as written is the intended filter. |
| Compare.InheritedQuarterSelectsNothing | server.js:787 | The intended filter selects nothing for a prototype-name quarter. |
| Compare.Percent | server.js:882-884 | The percent times the base is 100 times the change. With a base of at most 0 it is 0. |
| Compare.ChangesBetween | server.js:874-891 | Each change plus the compared value gives the primary value. Each percent is relative to the compared value and is 0 for a non-positive base. |
| Compare.FilterAsWrittenMeaning | server.js:791-804 | The filter as written throws exactly when the quarter is a prototype name and some fact passes the year test, with the `includes` message. Otherwise it keeps what the intended filter keeps. |
| Compare.NoFactOfTheYear | server.js:793-797 | With a prototype-name quarter and no fact of the year, the filter as written keeps nothing and does not throw. |
| Compare.StatisticsCompare | server.js:775-898 | A 400 exactly without a project id. A 500 with the `includes` message exactly when a period's quarter is a prototype name and some fact passes that period's year test. Otherwise each period's records are the intended filter's facts, its totals their sums and its rate theirs. The second period and the changes exist exactly when a comparison is asked for, and the changes are those between the two periods. |
| Compare.QuarterComparisonSelectsQuarter | server.js:1300-1309 | A quarter comparison keeps exactly the facts of the year whose month lies in the quarter. |
| Compare.PeriodStats | server.js:1323-1338 | The period's totals are the sums of its facts, with their rate. Its records are a stable permutation sorted by month. |
| Compare.DifferenceOf | server.js:1344-1355 | The difference plus period 2 gives period 1, with percents relative to period 2 (0 for a non-positive base). |
| Compare.DifferenceSwaps | server.js:1344-1348 | Swapping the periods negates every count difference and the rate difference. |
| Compare.ProjectCompare | server.js:1246-1372 | A 400 exactly without a comparison type. For a quarter comparison, a 500 naming `quarter1Months` or `quarter2Months` exactly when a period's quarter is a prototype name and some fact is of that period's year. Otherwise each period holds the facts its type selects (Compare.Summarises): sorted by month, facts of one month in their original order, with their sums and rate. The difference is that of the two periods. An unknown type selects nothing. |
| Compare.QuarterPeriodAgrees | server.js:1300-1309 | Away from the prototype names, the quarter selection as written is the quarter comparison. |
| Compare.InheritedQuarterPeriod | server.js:1268 | With a prototype-name quarter, the selection as written throws exactly when some fact is of the period's year, and otherwise keeps nothing. |
| Compare.InheritedQuarterPeriodSelectsNothing | server.js:1268 | The intended quarter comparison selects nothing for a prototype-name quarter. |
| Compare.QuarterPeriodMeaning | server.js:1300-1309 | The quarter selection as written throws exactly in that case, naming its months list, and otherwise keeps what the quarter comparison keeps. |
| Performance.TotalPermutation | server.js:1502 | The sum of values does not depend on their order. |
| Performance.MeanBounds | server.js:1502-1503 | An average lies between the least and the greatest value averaged. |
| Performance.MeanPermutation | server.js:1493-1503 | Sorting before averaging does not change the average. |
| Performance.QuarterAverageMeaning | server.js:1482-1505 | A quarter without records stays empty with average 0 and no count. Otherwise it holds one month and one value per record in stable calendar order, their average and their count. |
| Performance.Dashboard | server.js:1444-1476 | The dashboard fails exactly when some record names a quarter outside Q1..Q4. The error names the quarter of the first such record. Otherwise it has one entry per project. |
| Performance.DashboardEntries | server.js:1444-1453 | Project entries have distinct keys. |
| Performance.DashboardEntry | server.js:1447-1466 | A project entry is built from exactly that project's records, named after the first of them. |
| Performance.DashboardYearEntry | server.js:1455-1466 | A year entry is built from exactly that year's records, and no other entry has the same year. |
| Performance.DashboardProjects | server.js:1444-1453 | Every record shows up under its project. Every project shown has records, with the id and name of the first of them. |
| Performance.DashboardCell | server.js:1455-1475 | The years of a project are distinct. A year's `allMonths` lists the project's records of that year in order. Quarter slot `k` averages exactly the records of that project, year and quarter. |
| Performance.DashboardCounts | server.js:1456-1504 | A year's quarter counts add up to the number of its months, so no record is lost. |
| Performance.QuarterCount | server.js:1504 | A quarter's count is its number of records. |
| Performance.LatestYear | server.js:1676 | The latest year is some record's year and no record's year is larger. |
| Performance.LatestByIsFirstHighest | server.js:1677-1682 | The reduce gives `null` exactly when no label carries a positive number. Otherwise it gives the first label carrying the largest number. |
| Performance.LatestQuarterIsFirstHighest | server.js:1677-1682 | The same for `parseInt(label.replace('Q', ''))`. |
| Performance.ProjectSummary | server.js:1664-1740 | No statistics exactly when there are no records. A 500 exactly when a quarter label is a prototype name. Otherwise every record counts once, the overall average is theirs, the latest year is the largest, and years are distinct. |
| Performance.SummaryOf | server.js:1672-1739 | The summary counts every record, averages all of them, and takes the largest year as the latest. |
| Performance.SummaryYears | server.js:1684-1692 | The summary lists each year once. |
| Performance.SummaryQuarters | server.js:1684-1719 | Each quarter of a year appears once and holds the months and values of exactly that year's and quarter's records in input order, with their count and average. |
| Performance.SummaryLatestQuarter | server.js:1676-1682 | The latest quarter is read among the latest year's records. |
| Performance.SummaryLatestAverage | server.js:1722-1724 | The latest average is the average of the latest year's entry under the latest label ("null" when none), and 0 when that entry does not exist. |
| Performance.CellListed | server.js:1684-1719 | Every year and quarter some record has is listed, with the mean of exactly those records. |
| Portfolio.PortfolioStatistics | server.js:1545-1640 | The request fails exactly when a record of a known portfolio names a quarter outside Q1..Q4. The error is built from the first such record. Otherwise portfolios come in ascending id order, each with data. Quarters are built as written (see Portfolio.PortfolioYears). |
| Portfolio.Entries | server.js:1545-1554 | One entry per portfolio id. |
| Portfolio.Shown | server.js:1640 | The listed entries are exactly those with data, in ascending id order. |
| Portfolio.FirstMisfiled | server.js:1557-1580 | The first record of a known portfolio with a quarter outside the slots, or -1 when there is none. |
| Portfolio.PortfolioRecordsMeaning | server.js:1557-1562 | A portfolio's records are exactly the records tagged with its id. |
| Portfolio.PortfolioListed | server.js:1557-1640 | Every known portfolio that has a record is listed. |
| Portfolio.EntryOfRecord | server.js:1560-1562 | A record of a known portfolio gives that portfolio's entry a data point. |
| Portfolio.PortfolioEntryFields | server.js:1545-1562 | A listed portfolio carries the fields of the last row with its id. Its data-point count is its number of records. |
| Portfolio.PortfolioYears | server.js:1564-1597 | Each year of a listed portfolio appears once and is built from that portfolio's records of the year. Quarter `k` is the quarter as written of the records of slot `k`, and the four counts add up to the year's records. |
| Portfolio.FiledInSlot | server.js:1580 | Once no record is misfiled, every record of a known portfolio sits in one of the four slots. |
| Portfolio.EntryYears | server.js:1564-1597 | The four quarters of a year count exactly that year's records of each quarter. |
| Portfolio.QuarterMeaning | server.js:1596-1631 | A quarter's count and sum are those of all its records, and its average is theirs. Its months are the month buckets in stable calendar order. |
| Portfolio.MonthBucketsMeaning | server.js:1582-1616 | One bucket per lower-cased month name, with the count and average of exactly its records. Every record's name has a bucket. |
| Portfolio.MonthCountsAddUp | server.js:1583-1597 | In the corrected quarter, the month counts add up to the quarter's count. |
| Portfolio.MonthCountsAsWritten | server.js:1583-1597 | As written, the month counts fall short of the quarter count by the records whose month is a prototype name. |
| Portfolio.PrototypeMonthsVanish | server.js:1583-1593 | A quarter whose months are all prototype names counts its records but lists no month. |
| Portfolio.QuarterAsWrittenAgrees | server.js:1580-1597 | The quarter as written equals the corrected one exactly when no month is a prototype name. |
| Portfolio.QuarterAsWrittenMeaning | server.js:1580-1631 | The quarter as written counts, sums and averages all of its records, and lists the month buckets of the records whose month is not a prototype name. |
| Aggregated.NamedQuarters | server.js:559-567 | The quarters of a row are distinct and in 1..4, and are exactly those some month text names. |
| Aggregated.NamedQuartersWalk | server.js:559-583 | A row that names a quarter label runs the quarter walk. A row whose walk runs without naming a label names a month whose first word is "constructor" or "__proto__". |
| Aggregated.FirstFailing | server.js:554-568 | The first row whose walk throws, or -1 when none does. |
| Aggregated.RowsNaming | server.js:583 | The rows filed under quarter `q` are exactly those whose months name it. |
| Aggregated.Aggregate | server.js:552-662 | The result is a 500 exactly when some row's walk throws, carrying the first such row's message. Otherwise project entries have distinct keys. |
| Aggregated.Projects | server.js:569-575 | One entry per project key. |
| Aggregated.VisitsOfQuarter | server.js:583-637 | The visits filed under quarter `q` are, in order, the rows whose months name `q`. |
| Aggregated.YearQuarter | server.js:583-660 | A quarter of a year is some 1..4, appears once, and holds exactly the year's rows naming it, their summed cached totals, and the rate of those sums. |
| Aggregated.YearQuarterListed | server.js:583-591 | Every quarter some row of the year names has its entry. |
| Aggregated.QuarterMonth | server.js:599-621 | A month bucket holds the quarter's entries with its display name, in order, and sums their counters. Display names are distinct. |
| Aggregated.QuarterMonthListed | server.js:599-612 | Every display name among a quarter's entries has a bucket. |
| Aggregated.MonthsAddUp | server.js:599-615 | A quarter's month buckets share out its entries' counters, losing and repeating none. |
| Aggregated.CachedSums | server.js:625-626 | When every row's cached totals are the sums of its entries, the quarter sums are the entry sums. |
| Aggregated.QuarterMatchesMonths | server.js:599-626 | Under that consistency, a quarter's totals are the sums of its month buckets. |
| Aggregated.YearRows | server.js:554-581 | The rows of one project and year, and only those. |
| Aggregated.AggregatedProject | server.js:569-581 | A project entry is named after its first row. Its years are distinct, each built from the project's rows of that year. |
| Aggregated.ProjectYear | server.js:577-581 | A year entry is built from exactly the project's rows of that year. |
| Aggregated.ProjectYearKeys | server.js:577-581 | The years of a project entry are the row years in first-seen order. |
| Aggregated.AggregatedQuarter | server.js:583-637 | Each quarter of a year entry is a distinct 1..4 label holding exactly the project's and year's rows naming it. |
| Aggregated.AggregatedRow | server.js:554-637 | Every row is filed under its project, under its year, and under each quarter its months name. |
| DeleteScope.Narrowed | server.js:1806-1815 | A narrowed filter keeps the project id and year and answers to the scope it was asked for. |
| DeleteScope.NarrowedWhenComplete | server.js:1806-1816 | A scope narrows exactly when it is year, quarter or month with every parameter it needs. |
| DeleteScope.PerformanceDelete | server.js:1795-1821 | A request without scope or project id is refused. Otherwise it is accepted exactly when its scope is complete or "all". Months compare without case. |
| DeleteScope.PerformanceDeleteRemoves | server.js:1802-1815 | An accepted delete removes exactly the project's rows of the named year, quarter and month. |
| DeleteScope.AvailabilityDeleteAsWritten | server.js:2034-2050 | As written, the availability delete accepts every request with scope and project id. It deletes the whole project exactly when the scope is not a complete narrow scope. |
| DeleteScope.MisspeltScopeDeletesProject | server.js:2041-2050 | The scope "yaer" with a year deletes every row of the project, where the performance delete refuses. |
| DeleteScope.AvailabilityDelete | server.js:2034-2050 | The corrected availability delete is accepted exactly when the scope is complete. |
| DeleteScope.AvailabilityDeleteAgrees | server.js:2041-2050 | The corrected delete removes the whole project only for "all". Otherwise it does what the code does. |
| DeleteScope.DeletesAgree | server.js:2041-2050 | For the same complete query the two handlers pick the same rows, apart from the case of month names. |

## Left out

- The database and HTTP: SQL queries, their `ORDER BY`, joins and `WHERE` clauses are inputs. Each handler starts from the rows its query returns, as a sequence. The `DELETE` statements are represented by the filter they apply. `res.status`/`res.json` become a `Result`.
- JSON parsing itself is a parameter (`string -> Option<Json>`). `safeJsonParse` is modelled around it.
- SQL `NULL` is modelled only where the handlers test for it (`project_id || 'unassigned'`, `project_name || 'Unassigned'`, cached totals that add nothing). Other columns are taken as present.
- Database collation and type coercion in `WHERE` clauses: the deletes compare strings exactly, except `LOWER(month) = LOWER(?)`.
- `toFixed(2)` with `parseFloat`: rates, percentages and averages are exact reals, not rounded to two decimals.
- Key order of JavaScript objects: `Object.values` lists integer-like keys first, in ascending order. The model lists buckets in first-insertion order, except for the portfolio list, whose ascending id order is modelled.
- Prototype pollution across requests: when a handler writes through an inherited member (a month named "__proto__" in the portfolio statistics), the write to `Object.prototype` persists. Later requests are not modelled.
- The items of `months` are taken to be strings and the items of `analysis_data` to be objects. A `null` item or a non-string month (`toLowerCase` on it) would throw, and that is not modelled. Performance records' `month` and `quarter` are strings.
- JsValues.Lower: `toLowerCase` is modelled as folding only the ASCII letters A-Z, because Unicode case mapping tables are not part of the model. JavaScript folds all of Unicode, so "MÄRZ" and "märz" share one portfolio bucket in the code and get two in the model. The same holds for the keys of `getMonthQuarter` and `getMonthNumber` and for the month in the error text of Portfolio.PortfolioSlotError.
- Months.MonthNumber: a numeric `month` field is taken to be an integer (`MonthValue.MonthNum` holds an `int`). The code returns any JSON number unchanged, so a fractional month such as 2.5 is filed under month 2.5 and quarter "Q1" (`Math.ceil(2.5 / 3)`); the model cannot express it, because months are integers throughout.
- Aggregated.NamedQuarters: the quarter buckets of `/api/records/aggregated` are built with the corrected `getMonthQuarter` (Months.MonthQuarter). In the code a month text whose first word lower-cases to "constructor" or "__proto__" also yields a truthy quarter: the `Object` constructor or `Object.prototype`. These file the row under the bogus keys "function Object() { [native code] }" and "[object Object]", which the model does not list. The 500 such a quarter can cause (an entry whose display name an object literal inherits) is modelled: Aggregated.RowError tests Aggregated.NamesSomeQuarter, which uses Months.MonthQuarterAsWritten.
- The `quarters` object of the project statistics (server.js:1195-1199) re-keys the current year's quarters by label. It is not modelled separately from Rollup.ProjectStatistics's ordered quarter list, which it copies.
- Passthrough fields are not modelled: ids, file names, `created_at`, `success_rate`, `analysis_data` echoed in records, `ref` fields, `project_description`, `project` info and each row's own `success_rate`. Rows carry only what the folds read. Record lists carry row ids.
- Labels of the typed comparison (`"${year} ${quarter}"`) are not modelled.
- The current year (`new Date().getFullYear()`) is a parameter of Rollup.ProjectStatistics.
- `Number` arithmetic on very large counters, and `NaN` from adding `undefined`, are not modelled. Counters are integers and performance values are reals.
- The `try/catch` around each row in the statistics handlers: the modelled readings never throw there, so the catch branch is unreachable in the model.

## Findings

| source | as written | input that shows it | evidently intended | confidence | as-written member | corrected member |
|---|---|---|---|---|---|---|
| server.js:228-229 | the lookup `monthToQuarter[monthName]` also finds members inherited from `Object.prototype` | a month text "constructor 2025" gets the `Object` constructor as its quarter | only the table's own keys name a quarter | not executed | Months.ConstructorLeaksThroughQuarterLookup | Months.MonthQuarter |
| server.js:787 | the lookup `quarters[quarter]` returns an inherited method for a quarter such as "toString", and `.includes` on it throws | `/api/statistics/compare?projectId=1&primaryQuarter=toString` with any entry: a 500 | an unknown quarter selects no records | not executed | Compare.InheritedQuarterThrows | Compare.InheritedQuarterSelectsNothing |
| server.js:1268 | the same lookup in the typed comparison returns an inherited member for a quarter such as "toString", and `quarter1Months.includes` throws | `/api/project-statistics/1/compare?type=quarter&period1Quarter=toString&period1Year=2024` with an entry of 2024: a 500 | an unknown quarter selects no records | not executed | Compare.InheritedQuarterPeriod | Compare.InheritedQuarterPeriodSelectsNothing |
| server.js:2041-2050 | no branch refuses an unknown scope or a scope missing its parameters, so the delete falls back to the whole project | `scope=yaer&projectId=7&year=2024` deletes every availability row of project 7 | refuse with 400, as server.js:1816-1820 does | not executed | DeleteScope.MisspeltScopeDeletesProject | DeleteScope.AvailabilityDeleteAgrees |
| server.js:1583-1593 | `!quarterData.months[month]` finds an inherited member for a month named like a prototype property, so no bucket is made | a record with month "Constructor" counts in its quarter but appears in no month bucket | every month name gets its bucket | not executed | Portfolio.MonthCountsAsWritten | Portfolio.MonthCountsAddUp |

=== FILE: aggregated.dfy ===
/**
 * `/api/records/aggregated`: every analysis row filed under its project and
 * its year, and under each quarter its `months` list names. A quarter sums
 * the cached totals of the rows that name it, and breaks them down by the
 * display names of those rows' monthly entries; every bucket gets the rate
 * of its own sums.
 */
module Aggregated {
  import opened Wrappers
  import opened JsValues
  import opened Months
  import opened Facts
  import opened Lists
  import opened Grouping
  import Performance

  /** The JSON parser applied to the `months` column. */
  type MonthsParser = string -> Option<Json<string>>

  // ---------------------------------------------------------------------
  // Reading one row
  // ---------------------------------------------------------------------

  /** `record.project_id || 'unassigned'`: a missing id and the id 0 share
      the unassigned bucket. */
  function RowKey(row: AnalysisRow): Performance.ProjectKey {
    if row.projectId.Some? && row.projectId.value != 0 then Performance.ProjectNo(row.projectId.value)
    else Performance.Unassigned
  }

  function RowYear(row: AnalysisRow): int {
    row.year
  }

  /** The quarters a list of month texts names, each once, in the order
      first named: the `Set` of the truthy `getMonthQuarter` results. */
  function NamedQuarters(names: seq<string>): (qs: seq<int>)
    ensures forall i, j :: 0 <= i < j < |qs| ==> qs[i] != qs[j]
    ensures forall q :: q in qs ==> 1 <= q <= 4
    ensures forall q :: q in qs <==> exists m :: m in names && MonthQuarter(m) == Some(q)
  {
    if |names| == 0 then []
    else
      var init := names[..|names| - 1];
      var m := names[|names| - 1];
      assert names == init + [m];
      var qs := NamedQuarters(init);
      NamedStep(init, m, qs, MonthQuarter);
      match MonthQuarter(m)
      case Some(q) => if q in qs then qs else qs + [q]
      case None => qs
  }

  /** Filing one more month text keeps the quarter list distinct and
      exact. */
  lemma NamedStep(init: seq<string>, m: string, qs: seq<int>, quarter: string -> Option<int>)
    requires forall i, j :: 0 <= i < j < |qs| ==> qs[i] != qs[j]
    requires forall q :: q in qs ==> 1 <= q <= 4
    requires forall m' :: quarter(m').Some? ==> 1 <= quarter(m').value <= 4
    requires forall q :: q in qs <==> exists m :: m in init && quarter(m) == Some(q)
    ensures var r := match quarter(m) case Some(q) => if q in qs then qs else qs + [q] case None => qs;
      && (forall i, j :: 0 <= i < j < |r| ==> r[i] != r[j])
      && (forall q :: q in r ==> 1 <= q <= 4)
      && (forall q :: q in r <==> exists m' :: m' in init + [m] && quarter(m') == Some(q))
  {
    var r := match quarter(m) case Some(q) => if q in qs then qs else qs + [q] case None => qs;
    forall q | q in r
      ensures exists m' :: m' in init + [m] && quarter(m') == Some(q)
    {
      if q in qs {
        var m' :| m' in init && quarter(m') == Some(q);
        assert m' in init + [m];
      } else {
        assert m in init + [m];
      }
    }
    forall q, m' | m' in init + [m] && quarter(m') == Some(q)
      ensures q in r
    {
      if m' in init {
        assert q in qs;
      }
    }
  }

  /** The quarters a row is filed under. */
  function RowQuarters(row: AnalysisRow, pm: MonthsParser): seq<int> {
    NamedQuarters(Elements(SafeJsonParse(row.months, pm)))
  }

  /** `monthInfo.displayName || ''`: the key of an entry's month bucket. */
  function DisplayKey(e: MonthEntry): string {
    TextOr(e.displayName, "")
  }

  /** Some month text gets a truthy `getMonthQuarter` result: a quarter
      label, or the member an object literal inherits for "constructor"
      or "__proto__". Either way the row's quarter walk runs. */
  predicate NamesSomeQuarter(names: seq<string>) {
    exists m :: m in names && !MonthQuarterAsWritten(m).NoQuarter?
  }

  /** A row naming a quarter label walks its entries; the converse fails
      only for a list naming nothing but "constructor" or "__proto__". */
  lemma NamedQuartersWalk(names: seq<string>)
    ensures |NamedQuarters(names)| > 0 ==> NamesSomeQuarter(names)
    ensures NamesSomeQuarter(names) && |NamedQuarters(names)| == 0 ==>
      exists m :: m in names && QuarterKey(m) in {"constructor", "__proto__"}
  {
    if |NamedQuarters(names)| > 0 {
      var q := NamedQuarters(names)[0];
      assert q in NamedQuarters(names);
      var m :| m in names && MonthQuarter(m) == Some(q);
      assert MonthQuarterAsWritten(m).Quarter?;
    }
    if NamesSomeQuarter(names) {
      var m :| m in names && !MonthQuarterAsWritten(m).NoQuarter?;
      PrototypeLeakOnlyForTwoWords(m);
      if MonthQuarterAsWritten(m).Quarter? {
        assert MonthQuarter(m) == Some(MonthQuarterAsWritten(m).k);
        assert MonthQuarterAsWritten(m).k in NamedQuarters(names);
      }
    }
  }

  /** What walking one row throws, if anything: `months.forEach` on `null`
      or on a value that is not an array, or, once the row's quarter walk
      runs (`NamesSomeQuarter`), a display name that an empty object literal inherits (the inherited
      member is truthy, so no bucket is made and `records.push` fails). */
  function RowError(row: AnalysisRow, pm: MonthsParser, pe: EntryParser): Option<string> {
    match SafeJsonParse(row.months, pm)
    case JNull => Some("Cannot read properties of null (reading 'forEach')")
    case JObject => Some("months.forEach is not a function")
    case JScalar => Some("months.forEach is not a function")
    case JArray(names) =>
      if NamesSomeQuarter(names) && exists e :: e in RowEntries(row, pe) && DisplayKey(e) in PrototypeNames
      then Some("Cannot read properties of undefined (reading 'push')")
      else None
  }

  /** The first row whose walk throws, or -1. */
  function FirstFailing(rows: seq<AnalysisRow>, pm: MonthsParser, pe: EntryParser): (i: int)
    ensures -1 <= i < |rows|
    ensures i >= 0 ==> RowError(rows[i], pm, pe).Some?
    ensures forall j :: 0 <= j < |rows| && (i < 0 || j < i) ==> RowError(rows[j], pm, pe).None?
  {
    FirstWhere(rows, (row: AnalysisRow) => RowError(row, pm, pe).Some?)
  }

  // ---------------------------------------------------------------------
  // Visits and entries
  // ---------------------------------------------------------------------

  /** One row filed under one of its quarters. */
  datatype Visit = Visit(row: AnalysisRow, quarter: int)

  function VisitQuarter(v: Visit): int {
    v.quarter
  }

  function Visits(row: AnalysisRow, qs: seq<int>): seq<Visit> {
    seq(|qs|, i requires 0 <= i < |qs| => Visit(row, qs[i]))
  }

  /** Every visit of `rows`, in the order the handler makes them. */
  function AllVisits(rows: seq<AnalysisRow>, pm: MonthsParser): seq<Visit> {
    if |rows| == 0 then []
    else AllVisits(rows[..|rows| - 1], pm) + Visits(rows[|rows| - 1], RowQuarters(rows[|rows| - 1], pm))
  }

  function Rows(vs: seq<Visit>): seq<AnalysisRow> {
    seq(|vs|, i requires 0 <= i < |vs| => vs[i].row)
  }

  /** The rows whose `months` name quarter `q`, in order. */
  function RowsNaming(rows: seq<AnalysisRow>, pm: MonthsParser, q: int): (r: seq<AnalysisRow>)
    ensures forall x :: x in r <==> x in rows && q in RowQuarters(x, pm)
  {
    if |rows| == 0 then []
    else
      var init := rows[..|rows| - 1];
      var last := rows[|rows| - 1];
      assert rows == init + [last];
      RowsNaming(init, pm, q) + (if q in RowQuarters(last, pm) then [last] else [])
  }

  /** One entry of a row's `analysis_data`, with the id of its row. */
  datatype Item = Item(rowId: int, entry: MonthEntry)

  function ItemKey(it: Item): string {
    DisplayKey(it.entry)
  }

  function ItemTickets(it: Item): int {
    EntryTickets(it.entry)
  }

  function ItemResolved(it: Item): int {
    EntryResolved(it.entry)
  }

  function Tagged(id: int, es: seq<MonthEntry>): seq<Item> {
    seq(|es|, i requires 0 <= i < |es| => Item(id, es[i]))
  }

  /** The entries of `rows`, row after row. */
  function Items(rows: seq<AnalysisRow>, pe: EntryParser): seq<Item> {
    if |rows| == 0 then []
    else Items(rows[..|rows| - 1], pe) + Tagged(rows[|rows| - 1].id, RowEntries(rows[|rows| - 1], pe))
  }

  /** A row's cached totals as `+=` adds them: SQL `NULL` adds nothing. */
  function CachedTickets(row: AnalysisRow): int {
    row.totalTickets.GetOr(0)
  }

  function CachedResolved(row: AnalysisRow): int {
    row.resolvedIn2Days.GetOr(0)
  }

  function RowIds(rows: seq<AnalysisRow>): seq<int> {
    seq(|rows|, i requires 0 <= i < |rows| => rows[i].id)
  }

  function ItemIds(items: seq<Item>): seq<int> {
    seq(|items|, i requires 0 <= i < |items| => items[i].rowId)
  }

  // ---------------------------------------------------------------------
  // The nested result
  // ---------------------------------------------------------------------

  /** `quarters[q].months[name]`: the entries filed under one display name. */
  datatype AggMonth = AggMonth(name: string, totals: Totals, successRate: real, rowIds: seq<int>)

  /** `years[y].quarters[q]`. */
  datatype AggQuarter = AggQuarter(quarter: string, totals: Totals, successRate: real, rowIds: seq<int>, months: seq<AggMonth>)

  datatype AggYear = AggYear(year: int, quarters: seq<AggQuarter>)

  /** `aggregated[projectKey]`. */
  datatype AggProject = AggProject(key: Performance.ProjectKey, projectId: Option<int>, projectName: string, years: seq<AggYear>)

  function MonthOf(name: string, items: seq<Item>): AggMonth {
    var t := Totals(SumBy(items, ItemTickets), SumBy(items, ItemResolved), 0);
    AggMonth(name, t, Rate(t), ItemIds(items))
  }

  function MonthsOf(gs: seq<(string, seq<Item>)>): (ms: seq<AggMonth>)
    ensures |ms| == |gs|
  {
    seq(|gs|, i requires 0 <= i < |gs| => MonthOf(gs[i].0, gs[i].1))
  }

  /** One quarter, from the rows filed under it. */
  function QuarterEntryOf(q: int, rows: seq<AnalysisRow>, pe: EntryParser): AggQuarter {
    var t := Totals(SumBy(rows, CachedTickets), SumBy(rows, CachedResolved), 0);
    AggQuarter(QuarterLabel(q), t, Rate(t), RowIds(rows), MonthsOf(GroupBy(Items(rows, pe), ItemKey)))
  }

  /** One year of one project: its rows' visits grouped by quarter. */
  function YearOf(y: int, rows: seq<AnalysisRow>, pm: MonthsParser, pe: EntryParser): AggYear {
    var gs := GroupBy(AllVisits(rows, pm), VisitQuarter);
    AggYear(y, seq(|gs|, i requires 0 <= i < |gs| => QuarterEntryOf(gs[i].0, Rows(gs[i].1), pe)))
  }

  /** One project: named after its first row, its rows grouped by year. */
  function ProjectOf(key: Performance.ProjectKey, rows: seq<AnalysisRow>, pm: MonthsParser, pe: EntryParser): (p: AggProject)
    requires |rows| > 0
    ensures p.key == key
  {
    var gs := GroupBy(rows, RowYear);
    AggProject(key, rows[0].projectId, TextOr(rows[0].projectName, "Unassigned"),
      seq(|gs|, i requires 0 <= i < |gs| => YearOf(gs[i].0, gs[i].1, pm, pe)))
  }

  /** The handler: the first row whose walk throws makes the answer a 500
      with that error's message; otherwise one entry per project, in the
      order projects are first met. */
  function Aggregate(rows: seq<AnalysisRow>, pm: MonthsParser, pe: EntryParser): (r: Result<seq<AggProject>, Refusal>)
    ensures r.Failure? <==> exists i :: 0 <= i < |rows| && RowError(rows[i], pm, pe).Some?
    ensures r.Failure? ==> exists i :: FailsFirst(rows, pm, pe, i) && r.error == ServerError(RowError(rows[i], pm, pe).value)
    ensures r.Success? ==> forall j, k :: 0 <= j < k < |r.value| ==> r.value[j].key != r.value[k].key
  {
    var i := FirstFailing(rows, pm, pe);
    if i >= 0 then
      assert FailsFirst(rows, pm, pe, i);
      Failure(ServerError(RowError(rows[i], pm, pe).value))
    else Success(Projects(rows, pm, pe))
  }

  /** One entry per project, in the order projects are first met. */
  function Projects(rows: seq<AnalysisRow>, pm: MonthsParser, pe: EntryParser): (ps: seq<AggProject>)
    ensures forall j, k :: 0 <= j < k < |ps| ==> ps[j].key != ps[k].key
  {
    var gs := GroupBy(rows, RowKey);
    seq(|gs|, j requires 0 <= j < |gs| => ProjectOf(gs[j].0, gs[j].1, pm, pe))
  }

  /** Row `i` throws and no row before it does. */
  ghost predicate FailsFirst(rows: seq<AnalysisRow>, pm: MonthsParser, pe: EntryParser, i: int) {
    0 <= i < |rows| && RowError(rows[i], pm, pe).Some? && forall j :: 0 <= j < i ==> RowError(rows[j], pm, pe).None?
  }

  // ---------------------------------------------------------------------
  // Quarters hold the rows that name them
  // ---------------------------------------------------------------------

  /** A row visits each of its quarters once. */
  lemma {:induction false} VisitsHaving(row: AnalysisRow, qs: seq<int>, q: int)
    requires forall i, j :: 0 <= i < j < |qs| ==> qs[i] != qs[j]
    ensures Having(Visits(row, qs), VisitQuarter, q) == if q in qs then [Visit(row, q)] else []
    decreases |qs|
  {
    if |qs| > 0 {
      var init := qs[..|qs| - 1];
      var x := qs[|qs| - 1];
      assert qs == init + [x];
      assert Visits(row, qs) == Visits(row, init) + [Visit(row, x)];
      VisitsHaving(row, init, q);
      HavingSnoc(Visits(row, init), Visit(row, x), VisitQuarter, q);
      assert x !in init by {
        forall i | 0 <= i < |init|
          ensures init[i] != x
        {
          assert init[i] == qs[i];
        }
      }
    } else {
      assert Visits(row, qs) == [];
    }
  }

  lemma RowsAppend(a: seq<Visit>, b: seq<Visit>)
    ensures Rows(a + b) == Rows(a) + Rows(b)
  {
  }

  /** The visits of quarter `q` are those of the rows naming `q`, in row
      order, one per row. */
  lemma {:induction false} VisitsOfQuarter(rows: seq<AnalysisRow>, pm: MonthsParser, q: int)
    ensures Rows(Having(AllVisits(rows, pm), VisitQuarter, q)) == RowsNaming(rows, pm, q)
    decreases |rows|
  {
    if |rows| > 0 {
      var init := rows[..|rows| - 1];
      var last := rows[|rows| - 1];
      var a := AllVisits(init, pm);
      var b := Visits(last, RowQuarters(last, pm));
      assert AllVisits(rows, pm) == a + b;
      assert RowsNaming(rows, pm, q) == RowsNaming(init, pm, q) + (if q in RowQuarters(last, pm) then [last] else []);
      VisitsOfQuarter(init, pm, q);
      HavingAppend(a, b, VisitQuarter, q);
      VisitsHaving(last, RowQuarters(last, pm), q);
      RowsAppend(Having(a, VisitQuarter, q), Having(b, VisitQuarter, q));
      assert Rows([Visit(last, q)]) == [last];
    }
  }

  /** Quarter `t` of a year: a quarter 1..4, holding exactly the year's rows
      whose months name it, summing their cached totals, with the rate of
      those sums. */
  lemma YearQuarter(y: int, rows: seq<AnalysisRow>, pm: MonthsParser, pe: EntryParser, t: int) returns (q: int)
    requires 0 <= t < |YearOf(y, rows, pm, pe).quarters|
    ensures 1 <= q <= 4
    ensures YearOf(y, rows, pm, pe).quarters[t] == QuarterEntryOf(q, RowsNaming(rows, pm, q), pe)
    ensures |RowsNaming(rows, pm, q)| > 0
    ensures forall t' :: 0 <= t' < |YearOf(y, rows, pm, pe).quarters| && t' != t ==>
      YearOf(y, rows, pm, pe).quarters[t'].quarter != QuarterLabel(q)
  {
    var gs := GroupBy(AllVisits(rows, pm), VisitQuarter);
    q := gs[t].0;
    VisitsOfQuarter(rows, pm, q);
    assert |Rows(gs[t].1)| == |gs[t].1| > 0;
    var x := RowsNaming(rows, pm, q)[0];
    assert 1 <= q <= 4 by {
      assert x in RowsNaming(rows, pm, q);
    }
    forall t' | 0 <= t' < |gs| && t' != t
      ensures YearOf(y, rows, pm, pe).quarters[t'].quarter != QuarterLabel(q)
    {
      var q' := gs[t'].0;
      VisitsOfQuarter(rows, pm, q');
      assert |Rows(gs[t'].1)| == |gs[t'].1| > 0;
      var x' := RowsNaming(rows, pm, q')[0];
      assert x' in RowsNaming(rows, pm, q');
      QuarterLabelReadsBack(q);
      QuarterLabelReadsBack(q');
    }
  }

  /** Every quarter some row of the year names has its entry. */
  lemma YearQuarterListed(y: int, rows: seq<AnalysisRow>, pm: MonthsParser, pe: EntryParser, q: int)
    requires |RowsNaming(rows, pm, q)| > 0
    ensures exists t :: 0 <= t < |YearOf(y, rows, pm, pe).quarters| && YearOf(y, rows, pm, pe).quarters[t].quarter == QuarterLabel(q)
  {
    var gs := GroupBy(AllVisits(rows, pm), VisitQuarter);
    VisitsOfQuarter(rows, pm, q);
    assert Having(AllVisits(rows, pm), VisitQuarter, q) != [];
    var t := GroupIndex(gs, q);
    assert YearOf(y, rows, pm, pe).quarters[t].quarter == QuarterLabel(q);
  }

  // ---------------------------------------------------------------------
  // Month buckets
  // ---------------------------------------------------------------------

  function MonthTickets(m: AggMonth): int {
    m.totals.tickets
  }

  function MonthResolved(m: AggMonth): int {
    m.totals.inTwoDays
  }

  /** Month bucket `m` of a quarter holds the entries of the quarter's rows
      with its display name, in order, and sums their counters; display
      names are distinct. */
  lemma QuarterMonth(q: int, rows: seq<AnalysisRow>, pe: EntryParser, m: int)
    requires 0 <= m < |QuarterEntryOf(q, rows, pe).months|
    ensures var ms := QuarterEntryOf(q, rows, pe).months;
      && |Having(Items(rows, pe), ItemKey, ms[m].name)| > 0
      && ms[m] == MonthOf(ms[m].name, Having(Items(rows, pe), ItemKey, ms[m].name))
      && forall m' :: 0 <= m' < |ms| && m' != m ==> ms[m'].name != ms[m].name
  {
  }

  /** Every display name among the quarter's entries has its bucket. */
  lemma QuarterMonthListed(q: int, rows: seq<AnalysisRow>, pe: EntryParser, it: Item)
    requires it in Items(rows, pe)
    ensures exists m :: 0 <= m < |QuarterEntryOf(q, rows, pe).months| && QuarterEntryOf(q, rows, pe).months[m].name == ItemKey(it)
  {
    var gs := GroupBy(Items(rows, pe), ItemKey);
    GroupByPartitions(Items(rows, pe), ItemKey, it);
    var m := GroupIndex(gs, ItemKey(it));
    assert QuarterEntryOf(q, rows, pe).months[m].name == ItemKey(it);
  }

  lemma {:induction false} MonthsOfSums(gs: seq<(string, seq<Item>)>)
    ensures SumBy(MonthsOf(gs), MonthTickets) == GroupSum(gs, ItemTickets)
    ensures SumBy(MonthsOf(gs), MonthResolved) == GroupSum(gs, ItemResolved)
    decreases |gs|
  {
    if |gs| > 0 {
      assert MonthsOf(gs)[..|gs| - 1] == MonthsOf(gs[..|gs| - 1]);
      MonthsOfSums(gs[..|gs| - 1]);
    }
  }

  /** The month buckets of a quarter share out its entries' counters: none
      is lost and none counted twice. */
  lemma MonthsAddUp(q: int, rows: seq<AnalysisRow>, pe: EntryParser)
    ensures SumBy(QuarterEntryOf(q, rows, pe).months, MonthTickets) == SumBy(Items(rows, pe), ItemTickets)
    ensures SumBy(QuarterEntryOf(q, rows, pe).months, MonthResolved) == SumBy(Items(rows, pe), ItemResolved)
  {
    var gs := GroupBy(Items(rows, pe), ItemKey);
    MonthsOfSums(gs);
    GroupBySums(Items(rows, pe), ItemKey, ItemTickets);
    GroupBySums(Items(rows, pe), ItemKey, ItemResolved);
  }

  lemma {:induction false} TaggedSums(id: int, es: seq<MonthEntry>)
    ensures SumBy(Tagged(id, es), ItemTickets) == SumBy(es, EntryTickets)
    ensures SumBy(Tagged(id, es), ItemResolved) == SumBy(es, EntryResolved)
    decreases |es|
  {
    if |es| > 0 {
      assert Tagged(id, es)[..|es| - 1] == Tagged(id, es[..|es| - 1]);
      TaggedSums(id, es[..|es| - 1]);
    }
  }

  /** A row whose cached totals are the sums of its own entries. */
  predicate Consistent(row: AnalysisRow, pe: EntryParser) {
    && CachedTickets(row) == SumBy(RowEntries(row, pe), EntryTickets)
    && CachedResolved(row) == SumBy(RowEntries(row, pe), EntryResolved)
  }

  lemma {:induction false} CachedSums(rows: seq<AnalysisRow>, pe: EntryParser)
    requires forall row :: row in rows ==> Consistent(row, pe)
    ensures SumBy(rows, CachedTickets) == SumBy(Items(rows, pe), ItemTickets)
    ensures SumBy(rows, CachedResolved) == SumBy(Items(rows, pe), ItemResolved)
    decreases |rows|
  {
    if |rows| > 0 {
      var init := rows[..|rows| - 1];
      var last := rows[|rows| - 1];
      assert last in rows;
      assert forall row :: row in init ==> row in rows;
      CachedSums(init, pe);
      var t := Tagged(last.id, RowEntries(last, pe));
      SumByAppend(Items(init, pe), t, ItemTickets);
      SumByAppend(Items(init, pe), t, ItemResolved);
      TaggedSums(last.id, RowEntries(last, pe));
    }
  }

  /** When every row's cached totals are the sums of its entries, a
      quarter's totals are the sums of its month buckets. */
  lemma QuarterMatchesMonths(q: int, rows: seq<AnalysisRow>, pe: EntryParser)
    requires forall row :: row in rows ==> Consistent(row, pe)
    ensures QuarterEntryOf(q, rows, pe).totals.tickets == SumBy(QuarterEntryOf(q, rows, pe).months, MonthTickets)
    ensures QuarterEntryOf(q, rows, pe).totals.inTwoDays == SumBy(QuarterEntryOf(q, rows, pe).months, MonthResolved)
  {
    CachedSums(rows, pe);
    MonthsAddUp(q, rows, pe);
  }

  // ---------------------------------------------------------------------
  // The whole answer
  // ---------------------------------------------------------------------

  /** The rows of one project and year, in order. */
  function YearRows(rows: seq<AnalysisRow>, key: Performance.ProjectKey, y: int): (rs: seq<AnalysisRow>)
    ensures forall x :: x in rs <==> x in rows && RowKey(x) == key && x.year == y
  {
    Having(Having(rows, RowKey, key), RowYear, y)
  }

  /** Project `j` of the answer: its rows are those of its key, its id and
      name come from the first of them, and its years are distinct, each
      holding the project's rows of that year. */
  lemma AggregatedProject(rows: seq<AnalysisRow>, pm: MonthsParser, pe: EntryParser, j: int)
    requires Aggregate(rows, pm, pe).Success?
    requires 0 <= j < |Aggregate(rows, pm, pe).value|
    ensures var p := Aggregate(rows, pm, pe).value[j];
      && |Having(rows, RowKey, p.key)| > 0
      && p.projectId == Having(rows, RowKey, p.key)[0].projectId
      && p.projectName == TextOr(Having(rows, RowKey, p.key)[0].projectName, "Unassigned")
      && (forall k :: 0 <= k < |p.years| ==>
            |YearRows(rows, p.key, p.years[k].year)| > 0
            && p.years[k] == YearOf(p.years[k].year, YearRows(rows, p.key, p.years[k].year), pm, pe))
      && (forall k, k' :: 0 <= k < k' < |p.years| ==> p.years[k].year != p.years[k'].year)
  {
    var gs := GroupBy(rows, RowKey);
    var p := Aggregate(rows, pm, pe).value[j];
    assert gs[j].1 == Having(rows, RowKey, gs[j].0) && |gs[j].1| > 0;
    assert p == ProjectOf(gs[j].0, gs[j].1, pm, pe);
    forall k | 0 <= k < |p.years|
      ensures |YearRows(rows, p.key, p.years[k].year)| > 0
      ensures p.years[k] == YearOf(p.years[k].year, YearRows(rows, p.key, p.years[k].year), pm, pe)
    {
      ProjectYear(p.key, gs[j].1, pm, pe, k);
    }
    ProjectYearsDistinct(p.key, gs[j].1, pm, pe);
  }

  /** Year `k` of a project entry is built from the project's rows of that
      year. */
  lemma ProjectYear(key: Performance.ProjectKey, rs: seq<AnalysisRow>, pm: MonthsParser, pe: EntryParser, k: int)
    requires |rs| > 0
    requires 0 <= k < |ProjectOf(key, rs, pm, pe).years|
    ensures var y := ProjectOf(key, rs, pm, pe).years[k];
      |Having(rs, RowYear, y.year)| > 0 && y == YearOf(y.year, Having(rs, RowYear, y.year), pm, pe)
  {
    var gs := GroupBy(rs, RowYear);
    assert gs[k].1 == Having(rs, RowYear, gs[k].0) && |gs[k].1| > 0;
  }

  /** The years of a project entry are distinct. */
  lemma ProjectYearsDistinct(key: Performance.ProjectKey, rs: seq<AnalysisRow>, pm: MonthsParser, pe: EntryParser)
    requires |rs| > 0
    ensures var p := ProjectOf(key, rs, pm, pe);
      forall k, k' :: 0 <= k < k' < |p.years| ==> p.years[k].year != p.years[k'].year
  {
    ProjectYearKeys(key, rs, pm, pe);
  }

  /** The years of a project entry, in order, are the keys of its rows
      grouped by year. */
  lemma ProjectYearKeys(key: Performance.ProjectKey, rs: seq<AnalysisRow>, pm: MonthsParser, pe: EntryParser)
    requires |rs| > 0
    ensures var p := ProjectOf(key, rs, pm, pe);
      && p.key == key
      && |p.years| == |GroupBy(rs, RowYear)|
      && forall k :: 0 <= k < |p.years| ==> p.years[k].year == GroupBy(rs, RowYear)[k].0
  {
  }

  /** Quarter `t` of year `k` of project `j`: a quarter 1..4 whose label is
      not repeated in that year, holding exactly the rows of that project
      and year whose months name it. */
  lemma AggregatedQuarter(rows: seq<AnalysisRow>, pm: MonthsParser, pe: EntryParser, j: int, k: int, t: int) returns (q: int)
    requires Aggregate(rows, pm, pe).Success?
    requires 0 <= j < |Aggregate(rows, pm, pe).value|
    requires 0 <= k < |Aggregate(rows, pm, pe).value[j].years|
    requires 0 <= t < |Aggregate(rows, pm, pe).value[j].years[k].quarters|
    ensures var p := Aggregate(rows, pm, pe).value[j];
      var rs := RowsNaming(YearRows(rows, p.key, p.years[k].year), pm, q);
      && 1 <= q <= 4
      && |rs| > 0
      && p.years[k].quarters[t] == QuarterEntryOf(q, rs, pe)
      && forall t' :: 0 <= t' < |p.years[k].quarters| && t' != t ==> p.years[k].quarters[t'].quarter != QuarterLabel(q)
  {
    var p := Aggregate(rows, pm, pe).value[j];
    AggregatedProject(rows, pm, pe, j);
    q := YearQuarter(p.years[k].year, YearRows(rows, p.key, p.years[k].year), pm, pe, t);
  }

  /** Every row is listed under its project and its year, and there under
      each quarter its months name. */
  lemma AggregatedRow(rows: seq<AnalysisRow>, pm: MonthsParser, pe: EntryParser, i: int)
    requires Aggregate(rows, pm, pe).Success?
    requires 0 <= i < |rows|
    ensures exists j, k :: AggregatedAt(rows, pm, pe, i, j, k)
  {
    var j, k := ProjectsListRow(rows, pm, pe, rows[i]);
    assert AggregatedAt(rows, pm, pe, i, j, k);
  }

  /** Where a row is filed among the project entries `ps`: under project
      `j`, year `k` of it, and each of its quarters there. */
  ghost predicate ListedAt(ps: seq<AggProject>, x: AnalysisRow, pm: MonthsParser, j: int, k: int) {
    && 0 <= j < |ps| && ps[j].key == RowKey(x)
    && 0 <= k < |ps[j].years| && ps[j].years[k].year == x.year
    && forall q :: q in RowQuarters(x, pm) ==>
         exists t :: 0 <= t < |ps[j].years[k].quarters| && ps[j].years[k].quarters[t].quarter == QuarterLabel(q)
  }

  lemma ProjectsListRow(rows: seq<AnalysisRow>, pm: MonthsParser, pe: EntryParser, x: AnalysisRow) returns (j: int, k: int)
    requires x in rows
    ensures ListedAt(Projects(rows, pm, pe), x, pm, j, k)
  {
    var ps := Projects(rows, pm, pe);
    var gs := GroupBy(rows, RowKey);
    GroupByPartitions(rows, RowKey, x);
    j := GroupIndex(gs, RowKey(x));
    var prs := gs[j].1;
    assert x in prs && |prs| > 0;
    assert ps[j] == ProjectOf(gs[j].0, prs, pm, pe);
    ProjectYearKeys(gs[j].0, prs, pm, pe);
    GroupByPartitions(prs, RowYear, x);
    k := GroupIndex(GroupBy(prs, RowYear), x.year);
    ProjectYear(gs[j].0, prs, pm, pe, k);
    var yrs := Having(prs, RowYear, x.year);
    assert x in yrs;
    RowInYear(x.year, yrs, pm, pe, x);
  }

  /** A row of a year is listed there under each quarter its months name. */
  lemma RowInYear(y: int, rs: seq<AnalysisRow>, pm: MonthsParser, pe: EntryParser, x: AnalysisRow)
    requires x in rs
    ensures forall q :: q in RowQuarters(x, pm) ==>
      exists t :: 0 <= t < |YearOf(y, rs, pm, pe).quarters| && YearOf(y, rs, pm, pe).quarters[t].quarter == QuarterLabel(q)
  {
    forall q | q in RowQuarters(x, pm)
      ensures exists t :: 0 <= t < |YearOf(y, rs, pm, pe).quarters| && YearOf(y, rs, pm, pe).quarters[t].quarter == QuarterLabel(q)
    {
      assert x in RowsNaming(rs, pm, q);
      YearQuarterListed(y, rs, pm, pe, q);
    }
  }

  /** Row `i` is filed under project `j`, year `k` of it, and each of its
      quarters there. */
  ghost predicate AggregatedAt(rows: seq<AnalysisRow>, pm: MonthsParser, pe: EntryParser, i: int, j: int, k: int)
    requires Aggregate(rows, pm, pe).Success?
    requires 0 <= i < |rows|
  {
    ListedAt(Aggregate(rows, pm, pe).value, rows[i], pm, j, k)
  }
}

=== FILE: compare.dfy ===
/**
 * The two comparison handlers: `/api/statistics/compare`, which filters the
 * raw facts of a project by an optional year, quarter and month and compares
 * a primary period with an optional second one, and
 * `/api/project-statistics/:projectId/compare`, which selects two periods by
 * a comparison type and reports their difference.
 */
module Compare {
  import opened Wrappers
  import opened JsValues
  import opened Months
  import opened Facts
  import opened Sorting
  import opened Lists

  // ---------------------------------------------------------------------
  // Parameters
  // ---------------------------------------------------------------------

  /** `param ? parseInt(param) : null`; `None` is `null` or `NaN`. */
  function NumberParam(param: Option<string>): Option<int> {
    if Truthy(param) then ParseInt(param.value) else None
  }

  /** A number is truthy unless it is `null`, `NaN` or 0. */
  predicate TruthyNumber(n: Option<int>) {
    n.Some? && n.value != 0
  }

  /** One period of `/api/statistics/compare`: `year` as read by
      `NumberParam`, `quarter` and `month` as sent. */
  datatype PeriodQuery = PeriodQuery(year: Option<string>, quarter: Option<string>, month: Option<string>)

  // ---------------------------------------------------------------------
  // filterByPeriod
  // ---------------------------------------------------------------------

  /** `months.includes(record.month)`: `includes` compares numbers with
      numbers, so a month stored as text matches no month number. */
  predicate MonthAmong(m: MonthValue, ms: seq<int>) {
    m.MonthNum? && m.n in ms
  }

  /** `record.month === n` for a number `n` read by `parseInt`: never true
      for `NaN`, nor for a month stored as text. */
  predicate MonthEquals(m: MonthValue, n: Option<int>) {
    n.Some? && m.MonthNum? && m.n == n.value
  }

  /** The test of `filterByPeriod`: a year filter only for a truthy year,
      a quarter filter for a non-empty quarter, a month filter for a
      non-empty month; an unset part matches every fact. */
  predicate InPeriod(f: Fact<MonthValue>, q: PeriodQuery) {
    var year := NumberParam(q.year);
    && (TruthyNumber(year) ==> f.year == year.value)
    && (Truthy(q.quarter) ==> MonthAmong(f.month, QuarterMonths(q.quarter.value)))
    && (Truthy(q.month) ==> MonthEquals(f.month, ParseInt(q.month.value)))
  }

  /** `filterByPeriod(records, year, quarter, month)`: the facts of the
      period, an order-preserving subsequence of the input. */
  function FilterByPeriod(facts: seq<Fact<MonthValue>>, q: PeriodQuery): (r: seq<Fact<MonthValue>>)
    ensures forall f :: f in r <==> f in facts && InPeriod(f, q)
    ensures forall f :: multiset(r)[f] == if InPeriod(f, q) then multiset(facts)[f] else 0
    ensures Subsequence(r, facts)
    ensures !Truthy(q.year) && !Truthy(q.quarter) && !Truthy(q.month) ==> r == facts
  {
    var keep := (f: Fact<MonthValue>) => InPeriod(f, q);
    SelectSubsequence(facts, keep);
    if !Truthy(q.year) && !Truthy(q.quarter) && !Truthy(q.month) then
      SelectAll(facts, keep);
      Select(facts, keep)
    else Select(facts, keep)
  }

  /** A quarter filter `Qk` keeps exactly the facts whose month is a number
      from 1 to 12 in quarter `k`. */
  lemma QuarterFilterSelectsQuarter(m: MonthValue, k: int)
    ensures MonthAmong(m, QuarterMonths(QuarterLabel(k))) <==> m.MonthNum? && 1 <= m.n <= 12 && QuarterOf(m.n) == k
  {
    if m.MonthNum? && 1 <= m.n <= 12 && QuarterLabel(k) == QuarterLabel(QuarterOf(m.n)) {
      QuarterLabelReadsBack(k);
      QuarterLabelReadsBack(QuarterOf(m.n));
    }
  }

  /** A month stored as text survives no quarter or month filter. */
  lemma TextMonthsNeverMatch(f: Fact<MonthValue>, q: PeriodQuery)
    requires f.month.MonthText? || f.month.MonthAbsent?
    requires Truthy(q.quarter) || Truthy(q.month)
    ensures !InPeriod(f, q)
  {
  }

  /** The message V8 gives when `includes` is called on an inherited
      member of `Object.prototype`. */
  function NotAFunction(name: string): string {
    name + ".includes is not a function"
  }

  /** The year test of `filterByPeriod`, the first of the three. */
  predicate PassesYear(f: Fact<MonthValue>, q: PeriodQuery) {
    var year := NumberParam(q.year);
    TruthyNumber(year) ==> f.year == year.value
  }

  /** When the filter as written throws: the quarter is a prototype name
      and some fact gets past the year test. */
  predicate FilterThrows(facts: seq<Fact<MonthValue>>, q: PeriodQuery) {
    && Truthy(q.quarter) && q.quarter.value in PrototypeNames
    && exists f :: f in facts && PassesYear(f, q)
  }

  /** `filterByPeriod` as written: for a quarter named like a property of
      `Object.prototype`, `getQuarterMonths` returns that inherited value,
      and calling `includes` on it throws as soon as a fact gets past the
      year test. */
  function FilterByPeriodAsWritten(facts: seq<Fact<MonthValue>>, q: PeriodQuery): Result<seq<Fact<MonthValue>>, Refusal> {
    if |facts| == 0 then Success([])
    else
      match FilterByPeriodAsWritten(facts[..|facts| - 1], q)
      case Failure(e) => Failure(e)
      case Success(kept) => StepAsWritten(kept, facts[|facts| - 1], q)
  }

  /** One fact through the filter as written. */
  function StepAsWritten(kept: seq<Fact<MonthValue>>, f: Fact<MonthValue>, q: PeriodQuery): Result<seq<Fact<MonthValue>>, Refusal> {
    var year := NumberParam(q.year);
    if TruthyNumber(year) && f.year != year.value then Success(kept)
    else if !Truthy(q.quarter) then Success(MonthStep(kept, f, q))
    else
      match QuarterMonthsAsWritten(q.quarter.value)
      case Inherited(_) => Failure(ServerError(NotAFunction("quarterMonths")))
      case Own(ms) => if MonthAmong(f.month, ms) then Success(MonthStep(kept, f, q)) else Success(kept)
      case Absent => Success(kept)
  }

  lemma StepAgrees(kept: seq<Fact<MonthValue>>, f: Fact<MonthValue>, q: PeriodQuery)
    requires !(Truthy(q.quarter) && q.quarter.value in PrototypeNames)
    ensures StepAsWritten(kept, f, q) == Success(if InPeriod(f, q) then kept + [f] else kept)
  {
    if Truthy(q.quarter) {
      QuarterMonthsAsWrittenOwn(q.quarter.value);
    }
  }

  /** The month test of `filterByPeriod`, last of the three. */
  function MonthStep(kept: seq<Fact<MonthValue>>, f: Fact<MonthValue>, q: PeriodQuery): seq<Fact<MonthValue>> {
    if Truthy(q.month) && !MonthEquals(f.month, ParseInt(q.month.value)) then kept else kept + [f]
  }

  /** Away from the prototype names, the filter as written is the filter. */
  lemma {:induction false} FilterAsWrittenAgrees(facts: seq<Fact<MonthValue>>, q: PeriodQuery)
    requires !(Truthy(q.quarter) && q.quarter.value in PrototypeNames)
    ensures FilterByPeriodAsWritten(facts, q) == Success(FilterByPeriod(facts, q))
    decreases |facts|
  {
    if |facts| > 0 {
      FilterAsWrittenAgrees(facts[..|facts| - 1], q);
      StepAgrees(FilterByPeriod(facts[..|facts| - 1], q), facts[|facts| - 1], q);
    }
  }

  lemma StepThrows(kept: seq<Fact<MonthValue>>, f: Fact<MonthValue>, q: PeriodQuery)
    requires Truthy(q.quarter) && q.quarter.value in PrototypeNames
    requires TruthyNumber(NumberParam(q.year)) ==> f.year == NumberParam(q.year).value
    ensures StepAsWritten(kept, f, q).Failure?
  {
  }

  /** A quarter such as "toString" makes the filter throw once any fact
      passes the year test. */
  lemma {:induction false} InheritedQuarterThrows(facts: seq<Fact<MonthValue>>, q: PeriodQuery, j: int)
    requires Truthy(q.quarter) && q.quarter.value in PrototypeNames
    requires 0 <= j < |facts|
    requires TruthyNumber(NumberParam(q.year)) ==> facts[j].year == NumberParam(q.year).value
    ensures FilterByPeriodAsWritten(facts, q).Failure?
    decreases |facts|
  {
    if j < |facts| - 1 {
      InheritedQuarterThrows(facts[..|facts| - 1], q, j);
    } else {
      var prior := FilterByPeriodAsWritten(facts[..|facts| - 1], q);
      if prior.Success? {
        StepThrows(prior.value, facts[j], q);
      }
    }
  }

  /** The intended filter selects nothing for such a quarter, as it does
      for any text that is not a quarter label. */
  lemma InheritedQuarterSelectsNothing(facts: seq<Fact<MonthValue>>, q: PeriodQuery)
    requires Truthy(q.quarter) && q.quarter.value in PrototypeNames
    ensures FilterByPeriod(facts, q) == []
  {
    QuarterMonthsAsWrittenOwn(q.quarter.value);
    var r := FilterByPeriod(facts, q);
    assert |r| == 0;
  }

  /** With a prototype name as the quarter and no fact of the year, the
      filter as written keeps nothing and does not throw. */
  lemma {:induction false} NoFactOfTheYear(facts: seq<Fact<MonthValue>>, q: PeriodQuery)
    requires Truthy(q.quarter) && q.quarter.value in PrototypeNames
    requires forall i :: 0 <= i < |facts| ==> !PassesYear(facts[i], q)
    ensures FilterByPeriodAsWritten(facts, q) == Success([])
    decreases |facts|
  {
    if |facts| > 0 {
      NoFactOfTheYear(facts[..|facts| - 1], q);
    }
  }

  /** The filter as written fails only with the `includes` message. */
  lemma {:induction false} FilterAsWrittenError(facts: seq<Fact<MonthValue>>, q: PeriodQuery)
    ensures FilterByPeriodAsWritten(facts, q).Failure? ==>
      FilterByPeriodAsWritten(facts, q).error == ServerError(NotAFunction("quarterMonths"))
    decreases |facts|
  {
    if |facts| > 0 {
      FilterAsWrittenError(facts[..|facts| - 1], q);
    }
  }

  /** The filter as written throws exactly in the `FilterThrows` case, with
      the `includes` message, and otherwise keeps what the intended filter
      keeps. */
  lemma FilterAsWrittenMeaning(facts: seq<Fact<MonthValue>>, q: PeriodQuery)
    ensures FilterByPeriodAsWritten(facts, q).Failure? <==> FilterThrows(facts, q)
    ensures FilterByPeriodAsWritten(facts, q).Failure? ==>
      FilterByPeriodAsWritten(facts, q).error == ServerError(NotAFunction("quarterMonths"))
    ensures FilterByPeriodAsWritten(facts, q).Success? ==>
      FilterByPeriodAsWritten(facts, q).value == FilterByPeriod(facts, q)
  {
    FilterAsWrittenError(facts, q);
    if !(Truthy(q.quarter) && q.quarter.value in PrototypeNames) {
      FilterAsWrittenAgrees(facts, q);
    } else if exists f :: f in facts && PassesYear(f, q) {
      var f :| f in facts && PassesYear(f, q);
      var j :| 0 <= j < |facts| && facts[j] == f;
      InheritedQuarterThrows(facts, q, j);
    } else {
      NoFactOfTheYear(facts, q);
      InheritedQuarterSelectsNothing(facts, q);
    }
  }

  // ---------------------------------------------------------------------
  // calculateStats and the changes
  // ---------------------------------------------------------------------

  /** The statistics of a list of facts: the summed counters, the rate of
      the sums, and the facts themselves. */
  datatype Stats<M> = Stats(totals: Totals, successRate: real, records: seq<Fact<M>>)

  function CalculateStats<M>(records: seq<Fact<M>>): Stats<M> {
    Stats(SumOf(records), Rate(SumOf(records)), records)
  }

  /** `(change / base) * 100` when the base is positive, else 0. */
  function Percent(change: int, base: int): (r: real)
    ensures base > 0 ==> r * (base as real) == (change as real) * 100.0
    ensures base <= 0 ==> r == 0.0
  {
    if base > 0 then (change as real / base as real) * 100.0 else 0.0
  }

  /** The `changes` object: the primary period minus the compared one, and
      the change relative to the compared period. */
  datatype Changes = Changes(
    tickets: int,
    ticketsPercent: real,
    inTwoDays: int,
    inTwoDaysPercent: real,
    successRate: real,
    successRatePercent: real)

  function ChangesBetween<M>(primary: Stats<M>, compare: Stats<M>): (c: Changes)
    ensures c.tickets + compare.totals.tickets == primary.totals.tickets
    ensures c.inTwoDays + compare.totals.inTwoDays == primary.totals.inTwoDays
    ensures c.successRate + compare.successRate == primary.successRate
    ensures c.successRatePercent == c.successRate
    ensures compare.totals.tickets > 0 ==> c.ticketsPercent * (compare.totals.tickets as real) == (c.tickets as real) * 100.0
    ensures compare.totals.tickets <= 0 ==> c.ticketsPercent == 0.0
    ensures compare.totals.inTwoDays > 0 ==> c.inTwoDaysPercent * (compare.totals.inTwoDays as real) == (c.inTwoDays as real) * 100.0
    ensures compare.totals.inTwoDays <= 0 ==> c.inTwoDaysPercent == 0.0
  {
    var tickets := primary.totals.tickets - compare.totals.tickets;
    var inTwoDays := primary.totals.inTwoDays - compare.totals.inTwoDays;
    var rate := primary.successRate - compare.successRate;
    Changes(tickets, Percent(tickets, compare.totals.tickets), inTwoDays, Percent(inTwoDays, compare.totals.inTwoDays), rate, rate)
  }

  /** Whether a second period is asked for: a truthy year, or a non-empty
      quarter or month. */
  predicate AsksForComparison(q: PeriodQuery) {
    TruthyNumber(NumberParam(q.year)) || Truthy(q.quarter) || Truthy(q.month)
  }

  /** The response body of `/api/statistics/compare`. */
  datatype Comparison = Comparison(primary: Stats<MonthValue>, compare: Option<Stats<MonthValue>>, changes: Option<Changes>)

  /** `GET /api/statistics/compare` on the rows of the project: a 400
      without a project id; a 500 when a period's filter throws, the
      primary one first; otherwise each period's facts with their sums and
      rate, and the changes between them when a second period is asked
      for. */
  function StatisticsCompare(projectId: Option<string>, primary: PeriodQuery, compare: PeriodQuery, rows: seq<AnalysisRow>, parse: EntryParser): (r: Result<Comparison, Refusal>)
    ensures r.Failure? && r.error.BadRequest? <==> !Truthy(projectId)
    ensures r.Failure? <==>
      || !Truthy(projectId)
      || FilterThrows(CompareFacts(rows, parse), primary)
      || (AsksForComparison(compare) && FilterThrows(CompareFacts(rows, parse), compare))
    ensures r.Failure? && Truthy(projectId) ==> r.error == ServerError(NotAFunction("quarterMonths"))
    ensures r.Success? ==> r.value.primary.records == FilterByPeriod(CompareFacts(rows, parse), primary)
    ensures r.Success? ==> r.value.primary.totals == SumOf(r.value.primary.records)
    ensures r.Success? ==> r.value.primary.successRate == Rate(r.value.primary.totals)
    ensures r.Success? ==> (r.value.compare.Some? <==> AsksForComparison(compare))
    ensures r.Success? && r.value.compare.Some? ==>
      var c := r.value.compare.value;
      && c.records == FilterByPeriod(CompareFacts(rows, parse), compare)
      && c.totals == SumOf(c.records)
      && c.successRate == Rate(c.totals)
    ensures r.Success? ==> (r.value.changes.Some? <==> r.value.compare.Some?)
    ensures r.Success? && r.value.changes.Some? ==>
      r.value.changes.value == ChangesBetween(r.value.primary, r.value.compare.value)
  {
    if !Truthy(projectId) then Failure(BadRequest("Project ID is required"))
    else
      var facts := CompareFacts(rows, parse);
      FilterAsWrittenMeaning(facts, primary);
      FilterAsWrittenMeaning(facts, compare);
      match FilterByPeriodAsWritten(facts, primary)
      case Failure(e) => Failure(e)
      case Success(kept) =>
        var p := CalculateStats(kept);
        if AsksForComparison(compare) then
          match FilterByPeriodAsWritten(facts, compare)
          case Failure(e) => Failure(e)
          case Success(other) =>
            var c := CalculateStats(other);
            Success(Comparison(p, Some(c), Some(ChangesBetween(p, c))))
        else Success(Comparison(p, None, None))
  }

  // ---------------------------------------------------------------------
  // /api/project-statistics/:projectId/compare
  // ---------------------------------------------------------------------

  /** One period of the typed comparison, as sent: `year` and `month` are
      read by `NumberParam`, `quarter` is a label. */
  datatype PeriodSpec = PeriodSpec(year: Option<string>, quarter: Option<string>, month: Option<string>)

  /** The test the comparison type applies. Years and months compare with
      `===`, so a missing or unreadable number matches no fact; a missing
      quarter is looked up as "undefined" and selects no month; an unknown
      type selects nothing. */
  predicate InComparedPeriod(kind: string, f: Fact<int>, p: PeriodSpec) {
    var year := NumberParam(p.year);
    if kind == "quarter" then Some(f.year) == year && f.month in QuarterMonths(p.quarter.GetOr("undefined"))
    else if kind == "year" then Some(f.year) == year
    else if kind == "month" then Some(f.year) == year && Some(f.month) == NumberParam(p.month)
    else false
  }

  /** A quarter comparison keeps the facts of year `y` whose month is in
      quarter `k`. */
  lemma QuarterComparisonSelectsQuarter(f: Fact<int>, p: PeriodSpec, y: int, k: int)
    requires NumberParam(p.year) == Some(y) && p.quarter == Some(QuarterLabel(k))
    ensures InComparedPeriod("quarter", f, p) <==> f.year == y && 1 <= f.month <= 12 && QuarterOf(f.month) == k
  {
    QuarterFilterSelectsQuarter(MonthNum(f.month), k);
  }

  /** Ascending by month: `a.month - b.month`. */
  function MonthRank(f: Fact<int>): Rank {
    Rank(f.month, 0)
  }

  /** A period's statistics summarise exactly the given facts: the same
      facts sorted by month, those of one month in their original order,
      with their sums and the rate of those sums. */
  ghost predicate Summarises(s: Stats<int>, facts: seq<Fact<int>>) {
    && multiset(s.records) == multiset(facts)
    && Sorted(s.records, MonthRank)
    && (forall k :: Matching(s.records, MonthRank, k) == Matching(facts, MonthRank, k))
    && s.totals == SumOf(facts)
    && s.successRate == Rate(s.totals)
  }

  /** `calculateStats` of the typed comparison: the sums and rate of the
      period, and its facts sorted by month in place, facts of one month
      keeping their order. */
  function PeriodStats(records: seq<Fact<int>>): (s: Stats<int>)
    ensures s.totals == SumOf(records) && s.successRate == Rate(s.totals)
    ensures Sorted(s.records, MonthRank)
    ensures multiset(s.records) == multiset(records)
    ensures forall k :: Matching(s.records, MonthRank, k) == Matching(records, MonthRank, k)
  {
    SortBySorted(records, MonthRank);
    SortByPermutes(records, MonthRank);
    assert forall k :: Matching(SortBy(records, MonthRank), MonthRank, k) == Matching(records, MonthRank, k) by {
      forall k
        ensures Matching(SortBy(records, MonthRank), MonthRank, k) == Matching(records, MonthRank, k)
      {
        SortByStable(records, MonthRank, k);
      }
    }
    Stats(SumOf(records), Rate(SumOf(records)), SortBy(records, MonthRank))
  }

  /** The `difference` object: period 1 minus period 2, with percents
      relative to period 2. */
  datatype Difference = Difference(totals: Totals, successRate: real, ticketsPercent: real, inTwoDaysPercent: real)

  function DifferenceOf(p1: Stats<int>, p2: Stats<int>): (d: Difference)
    ensures d.totals.Plus(p2.totals) == p1.totals
    ensures d.successRate + p2.successRate == p1.successRate
    ensures p2.totals.tickets > 0 ==> d.ticketsPercent * (p2.totals.tickets as real) == (d.totals.tickets as real) * 100.0
    ensures p2.totals.tickets <= 0 ==> d.ticketsPercent == 0.0
    ensures p2.totals.inTwoDays > 0 ==> d.inTwoDaysPercent * (p2.totals.inTwoDays as real) == (d.totals.inTwoDays as real) * 100.0
    ensures p2.totals.inTwoDays <= 0 ==> d.inTwoDaysPercent == 0.0
  {
    var t := p1.totals.Minus(p2.totals);
    Difference(t, p1.successRate - p2.successRate, Percent(t.tickets, p2.totals.tickets), Percent(t.inTwoDays, p2.totals.inTwoDays))
  }

  /** Swapping the periods negates every count difference and the rate
      difference. */
  lemma DifferenceSwaps(p1: Stats<int>, p2: Stats<int>)
    ensures DifferenceOf(p2, p1).totals.Plus(DifferenceOf(p1, p2).totals) == Zero
    ensures DifferenceOf(p2, p1).successRate == -DifferenceOf(p1, p2).successRate
  {
  }

  /** The response body of the typed comparison; the labels are not
      modelled. */
  datatype PeriodComparison = PeriodComparison(period1: Stats<int>, period2: Stats<int>, difference: Difference)

  /** The facts the comparison type selects for one period. */
  function PeriodFacts(kind: string, facts: seq<Fact<int>>, p: PeriodSpec): seq<Fact<int>> {
    Select(facts, (f: Fact<int>) => InComparedPeriod(kind, f, p))
  }

  /** When the quarter selection as written throws: the quarter is a
      prototype name and some fact is of the period's year. */
  predicate QuarterThrows(facts: seq<Fact<int>>, p: PeriodSpec) {
    && p.quarter.GetOr("undefined") in PrototypeNames
    && exists f :: f in facts && Some(f.year) == NumberParam(p.year)
  }

  /** `GET /api/project-statistics/:projectId/compare` on the rows of the
      project: a 400 without a comparison type; for a quarter comparison a
      500 when either period's selection throws, period 1 first; otherwise
      the two periods with their sums and rates and the difference between
      them. */
  function ProjectCompare(kind: Option<string>, p1: PeriodSpec, p2: PeriodSpec, rows: seq<AnalysisRow>, parse: EntryParser): (r: Result<PeriodComparison, Refusal>)
    ensures r.Failure? && r.error.BadRequest? <==> !Truthy(kind)
    ensures r.Failure? <==>
      || !Truthy(kind)
      || (kind.value == "quarter" && QuarterThrows(Flatten(ForPeriods, rows, parse), p1))
      || (kind.value == "quarter" && QuarterThrows(Flatten(ForPeriods, rows, parse), p2))
    ensures r.Failure? && Truthy(kind) ==>
      r.error == ServerError(NotAFunction("quarter1Months")) || r.error == ServerError(NotAFunction("quarter2Months"))
    ensures r.Success? ==> Summarises(r.value.period1, PeriodFacts(kind.value, Flatten(ForPeriods, rows, parse), p1))
    ensures r.Success? ==> Summarises(r.value.period2, PeriodFacts(kind.value, Flatten(ForPeriods, rows, parse), p2))
    ensures r.Success? ==> r.value.difference == DifferenceOf(r.value.period1, r.value.period2)
    ensures r.Success? && kind.value != "quarter" && kind.value != "year" && kind.value != "month" ==>
      r.value.period1.records == [] && r.value.period2.records == []
  {
    if !Truthy(kind) then Failure(BadRequest("Project ID and comparison type are required"))
    else
      var facts := Flatten(ForPeriods, rows, parse);
      if kind.value == "quarter" then
        QuarterPeriodMeaning(facts, p1, "quarter1Months");
        QuarterPeriodMeaning(facts, p2, "quarter2Months");
        match QuarterPeriodAsWritten(facts, p1, "quarter1Months")
        case Failure(e) => Failure(e)
        case Success(r1) =>
          match QuarterPeriodAsWritten(facts, p2, "quarter2Months")
          case Failure(e) => Failure(e)
          case Success(r2) => Success(Compared(r1, r2))
      else Success(Compared(PeriodFacts(kind.value, facts, p1), PeriodFacts(kind.value, facts, p2)))
  }

  function Compared(r1: seq<Fact<int>>, r2: seq<Fact<int>>): (c: PeriodComparison)
    ensures Summarises(c.period1, r1) && Summarises(c.period2, r2)
    ensures c.difference == DifferenceOf(c.period1, c.period2)
  {
    var s1 := PeriodStats(r1);
    var s2 := PeriodStats(r2);
    PeriodComparison(s1, s2, DifferenceOf(s1, s2))
  }

  /** The quarter selection as written: a prototype name as the quarter
      reaches an inherited value, and calling `includes` on it (the months
      list named `name`) throws once a fact of the period's year is met. */
  function QuarterPeriodAsWritten(facts: seq<Fact<int>>, p: PeriodSpec, name: string): Result<seq<Fact<int>>, Refusal> {
    if |facts| == 0 then Success([])
    else
      match QuarterPeriodAsWritten(facts[..|facts| - 1], p, name)
      case Failure(e) => Failure(e)
      case Success(kept) =>
        var f := facts[|facts| - 1];
        if Some(f.year) != NumberParam(p.year) then Success(kept)
        else
          match QuarterMonthsAsWritten(p.quarter.GetOr("undefined"))
          case Inherited(_) => Failure(ServerError(NotAFunction(name)))
          case Own(ms) => if f.month in ms then Success(kept + [f]) else Success(kept)
          case Absent => Success(kept)
  }

  /** Away from the prototype names, the quarter selection as written is
      the quarter comparison. */
  lemma {:induction false} QuarterPeriodAgrees(facts: seq<Fact<int>>, p: PeriodSpec, name: string)
    requires p.quarter.GetOr("undefined") !in PrototypeNames
    ensures QuarterPeriodAsWritten(facts, p, name) == Success(PeriodFacts("quarter", facts, p))
    decreases |facts|
  {
    if |facts| > 0 {
      QuarterPeriodAgrees(facts[..|facts| - 1], p, name);
    }
  }

  /** With a prototype name as the quarter, the selection as written
      throws exactly when some fact is of the period's year, and keeps
      nothing otherwise. */
  lemma {:induction false} InheritedQuarterPeriod(facts: seq<Fact<int>>, p: PeriodSpec, name: string)
    requires p.quarter.GetOr("undefined") in PrototypeNames
    ensures QuarterPeriodAsWritten(facts, p, name).Failure? <==> QuarterThrows(facts, p)
    ensures QuarterPeriodAsWritten(facts, p, name).Failure? ==> QuarterPeriodAsWritten(facts, p, name).error == ServerError(NotAFunction(name))
    ensures QuarterPeriodAsWritten(facts, p, name).Success? ==> QuarterPeriodAsWritten(facts, p, name).value == []
    decreases |facts|
  {
    if |facts| > 0 {
      var init := facts[..|facts| - 1];
      InheritedQuarterPeriod(init, p, name);
      QuarterMonthsAsWrittenOwn(p.quarter.GetOr("undefined"));
      if QuarterThrows(facts, p) && !QuarterThrows(init, p) {
        var f :| f in facts && Some(f.year) == NumberParam(p.year);
        assert f !in init;
        assert f == facts[|facts| - 1] by {
          assert facts == init + [facts[|facts| - 1]];
        }
      }
      if QuarterThrows(init, p) {
        var f :| f in init && Some(f.year) == NumberParam(p.year);
        assert f in facts;
      }
    }
  }

  /** The intended quarter comparison selects nothing for such a
      quarter. */
  lemma InheritedQuarterPeriodSelectsNothing(facts: seq<Fact<int>>, p: PeriodSpec)
    requires p.quarter.GetOr("undefined") in PrototypeNames
    ensures PeriodFacts("quarter", facts, p) == []
  {
    QuarterMonthsAsWrittenOwn(p.quarter.GetOr("undefined"));
    var r := PeriodFacts("quarter", facts, p);
    assert |r| == 0;
  }

  /** The quarter selection as written throws exactly in the
      `QuarterThrows` case, with the message naming its months list, and
      otherwise keeps what the quarter comparison keeps. */
  lemma QuarterPeriodMeaning(facts: seq<Fact<int>>, p: PeriodSpec, name: string)
    ensures QuarterPeriodAsWritten(facts, p, name).Failure? <==> QuarterThrows(facts, p)
    ensures QuarterPeriodAsWritten(facts, p, name).Failure? ==> QuarterPeriodAsWritten(facts, p, name).error == ServerError(NotAFunction(name))
    ensures QuarterPeriodAsWritten(facts, p, name).Success? ==> QuarterPeriodAsWritten(facts, p, name).value == PeriodFacts("quarter", facts, p)
  {
    if p.quarter.GetOr("undefined") in PrototypeNames {
      InheritedQuarterPeriod(facts, p, name);
      InheritedQuarterPeriodSelectsNothing(facts, p);
    } else {
      QuarterPeriodAgrees(facts, p, name);
    }
  }
}

=== FILE: deletescope.dfy ===
/**
 * The scoped deletes of `/api/performance-statistics/delete` and
 * `/api/project-availability/delete`: which rows of one project the query
 * string selects (all of them, or one year, quarter or month), or why the
 * request is refused. The SQL statement itself is represented by the filter
 * it applies.
 */
module DeleteScope {
  import opened Wrappers
  import opened JsValues
  import opened Facts

  /** The query string of a delete request; every parameter may be missing. */
  datatype DeleteQuery = DeleteQuery(
    scope: Option<string>,
    projectId: Option<string>,
    year: Option<string>,
    quarter: Option<string>,
    month: Option<string>)

  /** The `WHERE` clause a delete runs with. `caseless` months compare as
      `LOWER(month) = LOWER(?)`. */
  datatype Filter =
    | WholeProject(projectId: string)
    | InYear(projectId: string, year: string)
    | InQuarter(projectId: string, year: string, quarter: string)
    | InMonth(projectId: string, year: string, quarter: string, month: string, caseless: bool)

  /** A stored row as the delete's `WHERE` clause sees it. */
  datatype StoredRow = StoredRow(projectId: string, year: string, quarter: string, month: string)

  /** Whether the statement with filter `f` removes `row`. */
  predicate Removes(f: Filter, row: StoredRow) {
    && row.projectId == f.projectId
    && (!f.WholeProject? ==> row.year == f.year)
    && ((f.InQuarter? || f.InMonth?) ==> row.quarter == f.quarter)
    && (f.InMonth? ==> if f.caseless then Lower(row.month) == Lower(f.month) else row.month == f.month)
  }

  /** The narrowed filter a scope names when the parameters it needs are
      present, or `None`. `caseless` is how the handler compares months. */
  function Narrowed(q: DeleteQuery, pid: string, caseless: bool): (f: Option<Filter>)
    ensures f.Some? ==> !f.value.WholeProject? && f.value.projectId == pid && Truthy(q.year) && f.value.year == q.year.value
    ensures f.Some? ==> q.scope == Some(ScopeName(f.value))
  {
    if q.scope == Some("year") && Truthy(q.year) then Some(InYear(pid, q.year.value))
    else if q.scope == Some("quarter") && Truthy(q.year) && Truthy(q.quarter) then
      Some(InQuarter(pid, q.year.value, q.quarter.value))
    else if q.scope == Some("month") && Truthy(q.year) && Truthy(q.quarter) && Truthy(q.month) then
      Some(InMonth(pid, q.year.value, q.quarter.value, q.month.value, caseless))
    else None
  }

  /** The scope word a filter answers to. */
  function ScopeName(f: Filter): string {
    match f
    case WholeProject(_) => "all"
    case InYear(_, _) => "year"
    case InQuarter(_, _, _) => "quarter"
    case InMonth(_, _, _, _, _) => "month"
  }

  /** What a scope needs from the query: its word, and a truthy value for
      every parameter the narrower scopes use. */
  predicate Complete(q: DeleteQuery) {
    match q.scope
    case Some(s) =>
      || s == "all"
      || (s == "year" && Truthy(q.year))
      || (s == "quarter" && Truthy(q.year) && Truthy(q.quarter))
      || (s == "month" && Truthy(q.year) && Truthy(q.quarter) && Truthy(q.month))
    case None => false
  }

  lemma NarrowedWhenComplete(q: DeleteQuery, pid: string, caseless: bool)
    ensures Narrowed(q, pid, caseless).Some? <==> Complete(q) && q.scope != Some("all")
  {
  }

  // ---------------------------------------------------------------------
  // Performance statistics
  // ---------------------------------------------------------------------

  /** `/api/performance-statistics/delete`: scope and project id are
      required; a complete scope gives its filter, `all` the whole project,
      and anything else is refused. */
  function PerformanceDelete(q: DeleteQuery): (r: Result<Filter, Refusal>)
    ensures !Truthy(q.scope) || !Truthy(q.projectId) ==> r == Failure(BadRequest("Scope and projectId are required"))
    ensures Truthy(q.scope) && Truthy(q.projectId) ==> (r.Success? <==> Complete(q))
    ensures r.Failure? && Truthy(q.scope) && Truthy(q.projectId) ==> r.error == BadRequest("Invalid scope or missing required parameters")
    ensures r.Success? ==> r.value.projectId == q.projectId.value && q.scope == Some(ScopeName(r.value))
    ensures r.Success? && r.value.InMonth? ==> r.value.caseless
  {
    if !Truthy(q.scope) || !Truthy(q.projectId) then Failure(BadRequest("Scope and projectId are required"))
    else
      NarrowedWhenComplete(q, q.projectId.value, true);
      match Narrowed(q, q.projectId.value, true)
      case Some(f) => Success(f)
      case None =>
        if q.scope.value != "all" then Failure(BadRequest("Invalid scope or missing required parameters"))
        else Success(WholeProject(q.projectId.value))
  }

  /** An accepted performance delete removes exactly the project's rows of
      the period its scope names, and nothing of another project. */
  lemma PerformanceDeleteRemoves(q: DeleteQuery, row: StoredRow)
    requires PerformanceDelete(q).Success?
    ensures Removes(PerformanceDelete(q).value, row) <==>
      && row.projectId == q.projectId.value
      && (q.scope != Some("all") ==> row.year == q.year.value)
      && (q.scope == Some("quarter") || q.scope == Some("month") ==> row.quarter == q.quarter.value)
      && (q.scope == Some("month") ==> Lower(row.month) == Lower(q.month.value))
  {
  }

  // ---------------------------------------------------------------------
  // Project availability
  // ---------------------------------------------------------------------

  /** `/api/project-availability/delete` as written: the same branches as
      the performance delete but no refusal after them, so an unknown scope
      or a scope missing a parameter deletes the whole project. Months
      compare exactly. */
  function AvailabilityDeleteAsWritten(q: DeleteQuery): (r: Result<Filter, Refusal>)
    ensures !Truthy(q.scope) || !Truthy(q.projectId) ==> r == Failure(BadRequest("Scope and project ID are required"))
    ensures Truthy(q.scope) && Truthy(q.projectId) ==> r.Success?
    ensures r.Success? ==> r.value.projectId == q.projectId.value
    ensures r.Success? && r.value.WholeProject? <==> Truthy(q.scope) && Truthy(q.projectId) && !(Complete(q) && q.scope != Some("all"))
  {
    if !Truthy(q.scope) || !Truthy(q.projectId) then Failure(BadRequest("Scope and project ID are required"))
    else
      NarrowedWhenComplete(q, q.projectId.value, false);
      match Narrowed(q, q.projectId.value, false)
      case Some(f) => Success(f)
      case None => Success(WholeProject(q.projectId.value))
  }

  /** A misspelt scope makes the availability delete remove every row of
      the project, including rows of years the request never named. */
  lemma MisspeltScopeDeletesProject()
    ensures var q := DeleteQuery(Some("yaer"), Some("7"), Some("2024"), None, None);
      && AvailabilityDeleteAsWritten(q) == Success(WholeProject("7"))
      && Removes(AvailabilityDeleteAsWritten(q).value, StoredRow("7", "2023", "Q1", "January"))
      && PerformanceDelete(q) == Failure(BadRequest("Invalid scope or missing required parameters"))
  {
    var q := DeleteQuery(Some("yaer"), Some("7"), Some("2024"), None, None);
    assert q.scope.value != "all";
    assert !Complete(q);
  }

  /** `/api/project-availability/delete` as evidently intended: refused
      unless the scope is complete, as the performance delete is. */
  function AvailabilityDelete(q: DeleteQuery): (r: Result<Filter, Refusal>)
    ensures !Truthy(q.scope) || !Truthy(q.projectId) ==> r == Failure(BadRequest("Scope and project ID are required"))
    ensures Truthy(q.scope) && Truthy(q.projectId) ==> (r.Success? <==> Complete(q))
    ensures r.Success? ==> r.value.projectId == q.projectId.value && q.scope == Some(ScopeName(r.value))
  {
    if !Truthy(q.scope) || !Truthy(q.projectId) then Failure(BadRequest("Scope and project ID are required"))
    else
      NarrowedWhenComplete(q, q.projectId.value, false);
      match Narrowed(q, q.projectId.value, false)
      case Some(f) => Success(f)
      case None =>
        if q.scope.value != "all" then Failure(BadRequest("Invalid scope or missing required parameters"))
        else Success(WholeProject(q.projectId.value))
  }

  /** The corrected availability delete removes the whole project only when
      asked to, and otherwise does what the code as written does. */
  lemma AvailabilityDeleteAgrees(q: DeleteQuery)
    ensures AvailabilityDelete(q).Success? && AvailabilityDelete(q).value.WholeProject? <==> Truthy(q.projectId) && q.scope == Some("all")
    ensures AvailabilityDelete(q).Success? ==> AvailabilityDeleteAsWritten(q) == AvailabilityDelete(q)
    ensures AvailabilityDeleteAsWritten(q).Success? && !AvailabilityDeleteAsWritten(q).value.WholeProject? ==> AvailabilityDelete(q) == AvailabilityDeleteAsWritten(q)
  {
  }

  /** Both handlers pick the same rows for the same complete query, except
      that the performance delete compares months without case. */
  lemma DeletesAgree(q: DeleteQuery, row: StoredRow)
    requires PerformanceDelete(q).Success?
    requires q.scope != Some("month") || row.month == q.month.value
    ensures AvailabilityDelete(q).Success?
    ensures Removes(PerformanceDelete(q).value, row) <==> Removes(AvailabilityDelete(q).value, row)
  {
  }
}

=== FILE: facts.dfy ===
/**
 * Rows of `analysis_records` and the flat per-month facts the statistics
 * handlers derive from their `analysis_data` column, with the three ticket
 * counters, their sums and the success rate computed from a sum.
 */
module Facts {
  import opened Wrappers
  import opened JsValues
  import opened Months
  import opened Lists

  // ---------------------------------------------------------------------
  // Rows
  // ---------------------------------------------------------------------

  /** One element of a row's `analysis_data` array. Every field may be
      missing; a missing count is read through `|| 0` or `|| default`. */
  datatype MonthEntry = MonthEntry(
    displayName: Option<string>,
    month: MonthValue,
    totalTickets: Option<int>,
    resolvedIn2Days: Option<int>,
    resolvedAfter2Days: Option<int>)

  /** A row of `analysis_records` joined with its project. `months` and
      `analysisData` are stored JSON columns; `totalTickets` and
      `resolvedIn2Days` are the row's cached totals (SQL `NULL` is `None`). */
  datatype AnalysisRow = AnalysisRow(
    id: int,
    projectId: Option<int>,
    projectName: Option<string>,
    year: int,
    months: Column<string>,
    totalTickets: Option<int>,
    resolvedIn2Days: Option<int>,
    analysisData: Column<MonthEntry>)

  /** The JSON parser the handlers call through `safeJsonParse`; it is left
      abstract and may fail. */
  type EntryParser = string -> Option<Json<MonthEntry>>

  /** A string field is truthy when present and non-empty. */
  predicate Truthy(s: Option<string>) {
    s.Some? && s.value != ""
  }

  /** `x || d` for a string field: the field when truthy, else `d`. */
  function TextOr(x: Option<string>, d: string): string {
    if Truthy(x) then x.value else d
  }

  /** The elements of `analysis_data` a handler walks: those of the decoded
      array, and none when the column is not an array or does not parse. */
  function RowEntries(row: AnalysisRow, parse: EntryParser): seq<MonthEntry> {
    Elements(SafeJsonParse(row.analysisData, parse))
  }

  lemma UnparseableRowHasNoEntries(row: AnalysisRow, parse: EntryParser)
    requires row.analysisData.Text? && parse(row.analysisData.text).None?
    ensures RowEntries(row, parse) == []
  {
  }

  /** Why a handler answers with an error: a 400 with its message, or the
      500 its `catch` sends when the handler throws. */
  datatype Refusal = BadRequest(message: string) | ServerError(message: string)

  // ---------------------------------------------------------------------
  // Counters
  // ---------------------------------------------------------------------

  /** The three ticket counters every bucket sums. */
  datatype Totals = Totals(tickets: int, inTwoDays: int, afterTwoDays: int) {
    function Plus(other: Totals): (r: Totals)
      ensures r.tickets == tickets + other.tickets
      ensures r.inTwoDays == inTwoDays + other.inTwoDays
      ensures r.afterTwoDays == afterTwoDays + other.afterTwoDays
    {
      Totals(tickets + other.tickets, inTwoDays + other.inTwoDays, afterTwoDays + other.afterTwoDays)
    }

    function Minus(other: Totals): (r: Totals)
      ensures r.Plus(other) == this
    {
      Totals(tickets - other.tickets, inTwoDays - other.inTwoDays, afterTwoDays - other.afterTwoDays)
    }
  }

  const Zero := Totals(0, 0, 0)

  /** `(inTwoDays / tickets) * 100` when there are tickets, else 0: the
      rate of a bucket from its own sums. The `toFixed(2)` rounding of the
      handlers is not part of the model. */
  function Rate(t: Totals): (r: real)
    ensures t.tickets > 0 ==> r * (t.tickets as real) == (t.inTwoDays as real) * 100.0
    ensures t.tickets <= 0 ==> r == 0.0
  {
    if t.tickets > 0 then (t.inTwoDays as real / t.tickets as real) * 100.0 else 0.0
  }

  /** A rate is a percentage whenever no more tickets were resolved in two
      days than were counted. */
  lemma RateIsPercentage(t: Totals)
    requires 0 <= t.inTwoDays <= t.tickets
    ensures 0.0 <= Rate(t) <= 100.0
  {
    if t.tickets > 0 {
      var r := Rate(t);
      assert r * (t.tickets as real) <= 100.0 * (t.tickets as real);
    }
  }

  /** `totalTickets || 0` and `resolvedIn2Days || 0` of one entry. */
  function EntryTickets(e: MonthEntry): int {
    OrElse(e.totalTickets, 0)
  }

  function EntryResolved(e: MonthEntry): int {
    OrElse(e.resolvedIn2Days, 0)
  }

  // ---------------------------------------------------------------------
  // Facts
  // ---------------------------------------------------------------------

  /** One month of one row: the row's year, the month as the handler keeps
      it (`M` is a resolved number, or the raw field), the entry's display
      name and its counters. */
  datatype Fact<M> = Fact(year: int, month: M, displayName: Option<string>, totals: Totals)

  /** The sum of the counters of `facts`. */
  function SumOf<M>(facts: seq<Fact<M>>): Totals {
    if |facts| == 0 then Zero else SumOf(facts[..|facts| - 1]).Plus(facts[|facts| - 1].totals)
  }

  lemma {:induction false} SumOfAppend<M>(a: seq<Fact<M>>, b: seq<Fact<M>>)
    ensures SumOf(a + b) == SumOf(a).Plus(SumOf(b))
    decreases |b|
  {
    if |b| == 0 {
      assert a + b == a;
    } else {
      assert (a + b)[..|a + b| - 1] == a + b[..|b| - 1];
      SumOfAppend(a, b[..|b| - 1]);
    }
  }

  /** The month `/api/project-statistics` files an entry under:
      `getMonthNumber(displayName || month)`. */
  function StatisticsMonth(e: MonthEntry): int {
    MonthNumber(if Truthy(e.displayName) then MonthText(e.displayName.value) else e.month)
  }

  /** An entry as `/api/project-statistics` reads it: missing counts are 0,
      and a missing (or zero) `resolvedAfter2Days` is the difference
      `total - resolved` of the two other counters. */
  function StatisticsFact(year: int, e: MonthEntry): (f: Fact<int>)
    ensures f.year == year && f.displayName == e.displayName
    ensures f.month == StatisticsMonth(e)
    ensures f.totals.tickets == e.totalTickets.GetOr(0)
    ensures f.totals.inTwoDays == e.resolvedIn2Days.GetOr(0)
    ensures e.resolvedAfter2Days.Some? && e.resolvedAfter2Days.value != 0 ==> f.totals.afterTwoDays == e.resolvedAfter2Days.value
    ensures e.resolvedAfter2Days.None? || e.resolvedAfter2Days.value == 0 ==> f.totals.afterTwoDays == f.totals.tickets - f.totals.inTwoDays
  {
    var t := OrElse(e.totalTickets, 0);
    var r := OrElse(e.resolvedIn2Days, 0);
    Fact(year, StatisticsMonth(e), e.displayName, Totals(t, r, OrElse(e.resolvedAfter2Days, t - r)))
  }

  /** An entry as `/api/statistics/compare` reads it: the month stays the
      raw field, and every missing count is 0. Against the statistics
      reading it keeps the year, display name and first two counters; the
      third counter agrees only when `resolvedAfter2Days` is set and
      non-zero, and is otherwise 0 instead of the difference. */
  function CompareFact(year: int, e: MonthEntry): (f: Fact<MonthValue>)
    ensures f.month == e.month
    ensures f.year == StatisticsFact(year, e).year && f.displayName == StatisticsFact(year, e).displayName
    ensures f.totals.tickets == StatisticsFact(year, e).totals.tickets
    ensures f.totals.inTwoDays == StatisticsFact(year, e).totals.inTwoDays
    ensures e.resolvedAfter2Days.Some? && e.resolvedAfter2Days.value != 0 ==>
      f.totals.afterTwoDays == StatisticsFact(year, e).totals.afterTwoDays
    ensures e.resolvedAfter2Days.None? || e.resolvedAfter2Days.value == 0 ==> f.totals.afterTwoDays == 0
  {
    Fact(year, e.month, e.displayName,
      Totals(OrElse(e.totalTickets, 0), OrElse(e.resolvedIn2Days, 0), OrElse(e.resolvedAfter2Days, 0)))
  }

  /** An entry as `/api/project-statistics/:projectId/compare` reads it: the
      month is `getMonthNumber(month)`, ignoring the display name, and every
      missing count is 0. It is the compare reading with its month
      resolved, and without a display name it files the entry under the
      month the statistics reading uses. */
  function PeriodFact(year: int, e: MonthEntry): (f: Fact<int>)
    ensures f.year == CompareFact(year, e).year && f.displayName == CompareFact(year, e).displayName
    ensures f.totals == CompareFact(year, e).totals
    ensures f.month == MonthNumber(CompareFact(year, e).month)
    ensures !Truthy(e.displayName) ==> f.month == StatisticsFact(year, e).month
  {
    Fact(year, MonthNumber(e.month), e.displayName,
      Totals(OrElse(e.totalTickets, 0), OrElse(e.resolvedIn2Days, 0), OrElse(e.resolvedAfter2Days, 0)))
  }

  /** The two readings of a month entry differ only in how they default
      `resolvedAfter2Days` and resolve the month. */
  lemma StatisticsAndPeriodAgreeOnCounts(year: int, e: MonthEntry)
    ensures StatisticsFact(year, e).totals.tickets == PeriodFact(year, e).totals.tickets
    ensures StatisticsFact(year, e).totals.inTwoDays == PeriodFact(year, e).totals.inTwoDays
    ensures !Truthy(e.displayName) ==> StatisticsFact(year, e).month == PeriodFact(year, e).month
  {
  }

  /** The compare reading and the period reading of an entry carry the
      same counters and differ only in the month: the period reading
      resolves the raw month with `getMonthNumber`. Against the statistics
      reading they share the two first counters, and the third one exactly
      when `resolvedAfter2Days` is set and non-zero. */
  lemma CompareAndPeriodReadings(year: int, e: MonthEntry)
    ensures PeriodFact(year, e).totals == CompareFact(year, e).totals
    ensures PeriodFact(year, e).month == MonthNumber(CompareFact(year, e).month)
    ensures CompareFact(year, e).totals.tickets == EntryTickets(e) == StatisticsFact(year, e).totals.tickets
    ensures CompareFact(year, e).totals.inTwoDays == EntryResolved(e) == StatisticsFact(year, e).totals.inTwoDays
    ensures e.resolvedAfter2Days.Some? && e.resolvedAfter2Days.value != 0 ==>
      CompareFact(year, e).totals.afterTwoDays == StatisticsFact(year, e).totals.afterTwoDays
    ensures e.resolvedAfter2Days.None? || e.resolvedAfter2Days.value == 0 ==>
      CompareFact(year, e).totals.afterTwoDays == 0
  {
  }

  // ---------------------------------------------------------------------
  // Flattening rows into facts
  // ---------------------------------------------------------------------

  /** Which of the three readings a handler applies. */
  datatype Reading = ForStatistics | ForPeriods

  function ReadEntry(reading: Reading, year: int, e: MonthEntry): Fact<int> {
    match reading
    case ForStatistics => StatisticsFact(year, e)
    case ForPeriods => PeriodFact(year, e)
  }

  /** The facts of one row, in array order: one per entry, carrying the
      row's year, the entry's display name and the month of the reading,
      and together the ticket sums of the row's entries. */
  function RowFacts(reading: Reading, row: AnalysisRow, parse: EntryParser): (r: seq<Fact<int>>)
    ensures |r| == |RowEntries(row, parse)|
    ensures forall i :: 0 <= i < |r| ==> r[i] == ReadEntry(reading, row.year, RowEntries(row, parse)[i])
    ensures forall i :: 0 <= i < |r| ==> r[i].year == row.year && r[i].displayName == RowEntries(row, parse)[i].displayName
    ensures forall i :: 0 <= i < |r| ==>
      r[i].month == if reading.ForStatistics? then StatisticsMonth(RowEntries(row, parse)[i]) else MonthNumber(RowEntries(row, parse)[i].month)
    ensures SumOf(r).tickets == SumBy(RowEntries(row, parse), EntryTickets)
    ensures SumOf(r).inTwoDays == SumBy(RowEntries(row, parse), EntryResolved)
  {
    var es := RowEntries(row, parse);
    ReadingSums(reading, row.year, es);
    seq(|es|, i requires 0 <= i < |es| => ReadEntry(reading, row.year, es[i]))
  }

  /** Reading entries one by one keeps their ticket sums. */
  lemma {:induction false} ReadingSums(reading: Reading, year: int, es: seq<MonthEntry>)
    ensures var r := seq(|es|, i requires 0 <= i < |es| => ReadEntry(reading, year, es[i]));
      SumOf(r).tickets == SumBy(es, EntryTickets) && SumOf(r).inTwoDays == SumBy(es, EntryResolved)
    decreases |es|
  {
    if |es| > 0 {
      var init := es[..|es| - 1];
      var r := seq(|es|, i requires 0 <= i < |es| => ReadEntry(reading, year, es[i]));
      assert r[..|es| - 1] == seq(|init|, i requires 0 <= i < |init| => ReadEntry(reading, year, init[i]));
      ReadingSums(reading, year, init);
    }
  }

  /** The facts of all rows: each row's facts in array order, rows in
      query order, as the `forEach` loops push them. */
  function Flatten(reading: Reading, rows: seq<AnalysisRow>, parse: EntryParser): seq<Fact<int>> {
    if |rows| == 0 then []
    else Flatten(reading, rows[..|rows| - 1], parse) + RowFacts(reading, rows[|rows| - 1], parse)
  }

  /** Every entry of every row yields exactly one fact, and the facts of one
      row carry that row's year. */
  lemma FlattenOneRow(reading: Reading, row: AnalysisRow, parse: EntryParser)
    ensures Flatten(reading, [row], parse) == RowFacts(reading, row, parse)
    ensures |Flatten(reading, [row], parse)| == |RowEntries(row, parse)|
    ensures forall f :: f in Flatten(reading, [row], parse) ==> f.year == row.year
  {
    assert [row][..0] == [];
  }

  /** The number of facts is the number of entries over all rows. */
  function EntryCount(rows: seq<AnalysisRow>, parse: EntryParser): nat {
    if |rows| == 0 then 0 else EntryCount(rows[..|rows| - 1], parse) + |RowEntries(rows[|rows| - 1], parse)|
  }

  lemma {:induction false} FlattenCount(reading: Reading, rows: seq<AnalysisRow>, parse: EntryParser)
    ensures |Flatten(reading, rows, parse)| == EntryCount(rows, parse)
    decreases |rows|
  {
    if |rows| > 0 {
      FlattenCount(reading, rows[..|rows| - 1], parse);
    }
  }

  /** Every fact carries the year of a row it came from. */
  lemma {:induction false} FlattenYears(reading: Reading, rows: seq<AnalysisRow>, parse: EntryParser)
    ensures forall f :: f in Flatten(reading, rows, parse) ==> exists i :: 0 <= i < |rows| && f.year == rows[i].year
    decreases |rows|
  {
    if |rows| > 0 {
      var init := rows[..|rows| - 1];
      FlattenYears(reading, init, parse);
      forall f | f in Flatten(reading, rows, parse)
        ensures exists i :: 0 <= i < |rows| && f.year == rows[i].year
      {
        if f in Flatten(reading, init, parse) {
          var i :| 0 <= i < |init| && f.year == init[i].year;
          assert rows[i] == init[i];
        } else {
          assert f in RowFacts(reading, rows[|rows| - 1], parse);
          assert f.year == rows[|rows| - 1].year;
        }
      }
    }
  }

  /** The facts of `/api/statistics/compare`, month kept raw. */
  function CompareFacts(rows: seq<AnalysisRow>, parse: EntryParser): seq<Fact<MonthValue>> {
    if |rows| == 0 then []
    else
      var es := RowEntries(rows[|rows| - 1], parse);
      CompareFacts(rows[..|rows| - 1], parse) + seq(|es|, i requires 0 <= i < |es| => CompareFact(rows[|rows| - 1].year, es[i]))
  }

  lemma {:induction false} CompareFactsCount(rows: seq<AnalysisRow>, parse: EntryParser)
    ensures |CompareFacts(rows, parse)| == EntryCount(rows, parse)
    decreases |rows|
  {
    if |rows| > 0 {
      CompareFactsCount(rows[..|rows| - 1], parse);
    }
  }
}

=== FILE: grouping.dfy ===
/**
 * Grouping on first sight, the pattern `if (!groups[k]) groups[k] = ...;
 * groups[k].push(x)` that the handlers use to build nested objects: one
 * group per key, in the order keys are first met, holding the elements of
 * that key in input order.
 */
module Grouping {
  import opened Lists

  /** The elements of `s` whose key is `k`, in order. */
  function Having<T(!new), K(==)>(s: seq<T>, key: T -> K, k: K): (r: seq<T>)
    ensures |r| <= |s|
    ensures forall x :: x in r <==> x in s && key(x) == k
    ensures forall x :: multiset(r)[x] == if key(x) == k then multiset(s)[x] else 0
  {
    Select(s, x => key(x) == k)
  }

  lemma HavingSnoc<T(!new), K>(s: seq<T>, x: T, key: T -> K, k: K)
    ensures Having(s + [x], key, k) == if key(x) == k then Having(s, key, k) + [x] else Having(s, key, k)
  {
    assert (s + [x])[..|s|] == s;
  }

  /** Selecting by key distributes over concatenation. */
  lemma {:induction false} HavingAppend<T(!new), K>(a: seq<T>, b: seq<T>, key: T -> K, k: K)
    ensures Having(a + b, key, k) == Having(a, key, k) + Having(b, key, k)
    decreases |b|
  {
    if |b| == 0 {
      assert a + b == a;
    } else {
      var init := b[..|b| - 1];
      var x := b[|b| - 1];
      assert b == init + [x];
      assert a + b == (a + init) + [x];
      HavingAppend(a, init, key, k);
      HavingSnoc(a + init, x, key, k);
      HavingSnoc(init, x, key, k);
    }
  }

  /** The position of the group keyed `k`, or -1. */
  function GroupIndex<T, K(==)>(gs: seq<(K, seq<T>)>, k: K): (i: int)
    ensures -1 <= i < |gs|
    ensures i >= 0 ==> gs[i].0 == k
    ensures i == -1 ==> forall j :: 0 <= j < |gs| ==> gs[j].0 != k
  {
    if |gs| == 0 then -1
    else if gs[0].0 == k then 0
    else
      var i := GroupIndex(gs[1..], k);
      if i == -1 then -1 else i + 1
  }

  /** `gs` groups `s` by `key`: keys distinct, each group the non-empty list
      of the elements of its key, and no element left without its group. */
  ghost predicate Groups<T(!new), K(!new)>(gs: seq<(K, seq<T>)>, s: seq<T>, key: T -> K) {
    && (forall i, j :: 0 <= i < j < |gs| ==> gs[i].0 != gs[j].0)
    && (forall i :: 0 <= i < |gs| ==> gs[i].1 == Having(s, key, gs[i].0) && |gs[i].1| > 0)
    && (forall k :: GroupIndex(gs, k) < 0 ==> Having(s, key, k) == [])
  }

  /** Filing one element: append it to the group of its key, or open that
      group at the end. */
  function Place<T, K(==)>(gs: seq<(K, seq<T>)>, k: K, x: T): seq<(K, seq<T>)> {
    var i := GroupIndex(gs, k);
    if i >= 0 then gs[i := (k, gs[i].1 + [x])] else gs + [(k, [x])]
  }

  lemma PlaceKeepsKeys<T, K>(gs: seq<(K, seq<T>)>, k: K, x: T)
    ensures |Place(gs, k, x)| >= |gs|
    ensures forall j :: 0 <= j < |gs| ==> Place(gs, k, x)[j].0 == gs[j].0
    ensures GroupIndex(Place(gs, k, x), k) >= 0
  {
    var r := Place(gs, k, x);
    var i := GroupIndex(gs, k);
    var p := if i >= 0 then i else |gs|;
    assert r[p].0 == k;
  }

  lemma PlaceGroup<T(!new), K(!new)>(gs: seq<(K, seq<T>)>, s: seq<T>, key: T -> K, x: T, t: int)
    requires Groups(gs, s, key)
    requires 0 <= t < |Place(gs, key(x), x)|
    ensures Place(gs, key(x), x)[t].1 == Having(s + [x], key, Place(gs, key(x), x)[t].0)
    ensures |Place(gs, key(x), x)[t].1| > 0
  {
    var r := Place(gs, key(x), x);
    HavingSnoc(s, x, key, r[t].0);
    if GroupIndex(gs, key(x)) < 0 && t == |gs| {
      assert Having(s, key, key(x)) == [];
    }
  }

  lemma PlaceCovers<T(!new), K(!new)>(gs: seq<(K, seq<T>)>, s: seq<T>, key: T -> K, x: T)
    requires Groups(gs, s, key)
    ensures forall k :: GroupIndex(Place(gs, key(x), x), k) < 0 ==> Having(s + [x], key, k) == []
  {
    var r := Place(gs, key(x), x);
    forall k | GroupIndex(r, k) < 0
      ensures Having(s + [x], key, k) == []
    {
      PlaceKeepsKeys(gs, key(x), x);
      HavingSnoc(s, x, key, k);
    }
  }

  lemma PlaceDistinct<T, K>(gs: seq<(K, seq<T>)>, k: K, x: T)
    requires forall i, j :: 0 <= i < j < |gs| ==> gs[i].0 != gs[j].0
    ensures var r := Place(gs, k, x); forall i, j :: 0 <= i < j < |r| ==> r[i].0 != r[j].0
  {
  }

  lemma PlaceGroups<T(!new), K(!new)>(gs: seq<(K, seq<T>)>, s: seq<T>, key: T -> K, x: T)
    requires Groups(gs, s, key)
    ensures Groups(Place(gs, key(x), x), s + [x], key)
  {
    var r := Place(gs, key(x), x);
    forall t | 0 <= t < |r|
      ensures r[t].1 == Having(s + [x], key, r[t].0) && |r[t].1| > 0
    {
      PlaceGroup(gs, s, key, x, t);
    }
    PlaceCovers(gs, s, key, x);
    PlaceDistinct(gs, key(x), x);
  }

  /** The groups of `s` by `key`, in the order keys are first met. */
  function GroupBy<T(!new), K(==,!new)>(s: seq<T>, key: T -> K): (r: seq<(K, seq<T>)>)
    ensures Groups(r, s, key)
  {
    if |s| == 0 then []
    else
      var init := s[..|s| - 1];
      var g := GroupBy(init, key);
      PlaceGroups(g, init, key, s[|s| - 1]);
      assert init + [s[|s| - 1]] == s;
      Place(g, key(s[|s| - 1]), s[|s| - 1])
  }

  /** Every element is in the group of its key, and in no other. */
  lemma {:induction false} GroupByPartitions<T(!new), K(!new)>(s: seq<T>, key: T -> K, x: T)
    requires x in s
    ensures GroupIndex(GroupBy(s, key), key(x)) >= 0
    ensures x in GroupBy(s, key)[GroupIndex(GroupBy(s, key), key(x))].1
    ensures forall i :: 0 <= i < |GroupBy(s, key)| && x in GroupBy(s, key)[i].1 ==> GroupBy(s, key)[i].0 == key(x)
  {
    GroupsPartition(GroupBy(s, key), s, key, x);
  }

  lemma GroupsPartition<T(!new), K(!new)>(gs: seq<(K, seq<T>)>, s: seq<T>, key: T -> K, x: T)
    requires Groups(gs, s, key)
    requires x in s
    ensures GroupIndex(gs, key(x)) >= 0
    ensures x in gs[GroupIndex(gs, key(x))].1
    ensures forall i :: 0 <= i < |gs| && x in gs[i].1 ==> gs[i].0 == key(x)
  {
    var h := Having(s, key, key(x));
    assert x in h;
    assert GroupIndex(gs, key(x)) >= 0;
  }

  /** A key some element has gets a group, holding exactly its elements. */
  lemma GroupOf<T(!new), K(!new)>(s: seq<T>, key: T -> K, k: K) returns (i: int)
    requires |Having(s, key, k)| > 0
    ensures 0 <= i < |GroupBy(s, key)| && GroupBy(s, key)[i] == (k, Having(s, key, k))
  {
    i := GroupIndex(GroupBy(s, key), k);
  }

  /** The group sizes add up to the number of elements. */
  function Sizes<T, K>(gs: seq<(K, seq<T>)>): nat {
    if |gs| == 0 then 0 else Sizes(gs[..|gs| - 1]) + |gs[|gs| - 1].1|
  }

  lemma {:induction false} SizesUpdate<T, K>(gs: seq<(K, seq<T>)>, i: int, g: (K, seq<T>))
    requires 0 <= i < |gs|
    ensures Sizes(gs[i := g]) + |gs[i].1| == Sizes(gs) + |g.1|
    decreases |gs|
  {
    var n := |gs|;
    if i < n - 1 {
      assert gs[i := g][..n - 1] == gs[..n - 1][i := g];
      SizesUpdate(gs[..n - 1], i, g);
    } else {
      assert gs[i := g][..n - 1] == gs[..n - 1];
    }
  }

  lemma PlaceSize<T, K>(gs: seq<(K, seq<T>)>, k: K, x: T)
    ensures Sizes(Place(gs, k, x)) == Sizes(gs) + 1
  {
    var i := GroupIndex(gs, k);
    if i >= 0 {
      SizesUpdate(gs, i, (k, gs[i].1 + [x]));
    } else {
      assert (gs + [(k, [x])])[..|gs|] == gs;
    }
  }

  lemma {:induction false} GroupBySizes<T(!new), K(!new)>(s: seq<T>, key: T -> K)
    ensures Sizes(GroupBy(s, key)) == |s|
    decreases |s|
  {
    if |s| > 0 {
      var init := s[..|s| - 1];
      GroupBySizes(init, key);
      PlaceSize(GroupBy(init, key), key(s[|s| - 1]), s[|s| - 1]);
    }
  }

  /** The sum of `f` over every group. */
  function GroupSum<T, K>(gs: seq<(K, seq<T>)>, f: T -> int): int {
    if |gs| == 0 then 0 else GroupSum(gs[..|gs| - 1], f) + SumBy(gs[|gs| - 1].1, f)
  }

  lemma {:induction false} GroupSumUpdate<T, K>(gs: seq<(K, seq<T>)>, i: int, g: (K, seq<T>), f: T -> int)
    requires 0 <= i < |gs|
    ensures GroupSum(gs[i := g], f) + SumBy(gs[i].1, f) == GroupSum(gs, f) + SumBy(g.1, f)
    decreases |gs|
  {
    var n := |gs|;
    if i < n - 1 {
      assert gs[i := g][..n - 1] == gs[..n - 1][i := g];
      GroupSumUpdate(gs[..n - 1], i, g, f);
    } else {
      assert gs[i := g][..n - 1] == gs[..n - 1];
    }
  }

  /** Filing one element adds its term to the sum over the groups. */
  lemma PlaceSum<T, K>(gs: seq<(K, seq<T>)>, k: K, x: T, f: T -> int)
    ensures GroupSum(Place(gs, k, x), f) == GroupSum(gs, f) + f(x)
  {
    var i := GroupIndex(gs, k);
    SumBySingle(x, f);
    if i >= 0 {
      GroupSumUpdate(gs, i, (k, gs[i].1 + [x]), f);
      SumByAppend(gs[i].1, [x], f);
    } else {
      assert (gs + [(k, [x])])[..|gs|] == gs;
    }
  }

  /** Grouping neither loses nor repeats a term of a sum. */
  lemma {:induction false} GroupBySums<T(!new), K(!new)>(s: seq<T>, key: T -> K, f: T -> int)
    ensures GroupSum(GroupBy(s, key), f) == SumBy(s, f)
    decreases |s|
  {
    if |s| > 0 {
      var init := s[..|s| - 1];
      var x := s[|s| - 1];
      GroupBySums(init, key, f);
      PlaceSum(GroupBy(init, key), key(x), x, f);
    }
  }

  /** Position `j` holds the last element of `s` with key `k`. */
  ghost predicate LastWithKey<T, K>(s: seq<T>, key: T -> K, k: K, j: int) {
    0 <= j < |s| && key(s[j]) == k && forall j' :: j < j' < |s| ==> key(s[j']) != k
  }

  /** The last element of a group is the last element of `s` with that
      key. */
  lemma {:induction false} HavingLast<T(!new), K>(s: seq<T>, key: T -> K, k: K) returns (j: int)
    requires |Having(s, key, k)| > 0
    ensures LastWithKey(s, key, k, j) && s[j] == Having(s, key, k)[|Having(s, key, k)| - 1]
    decreases |s|
  {
    var init := s[..|s| - 1];
    var x := s[|s| - 1];
    assert s == init + [x];
    HavingSnoc(init, x, key, k);
    if key(x) != k {
      j := HavingLast(init, key, k);
      assert s[j] == init[j];
    } else {
      j := |s| - 1;
    }
  }
}

=== FILE: jsvalues.dfy ===
/**
 * The JavaScript built-ins the aggregation engine leans on, stated over
 * Dafny values: whitespace trimming and splitting, ASCII lower-casing,
 * `parseInt`, the `||` default for optional numbers, bracket lookup in an
 * object literal (which also finds the names `Object.prototype` carries),
 * and the tolerant JSON decoding of a stored column.
 */
module JsValues {
  import opened Wrappers

  // ---------------------------------------------------------------------
  // Whitespace, trimming and the first word
  // ---------------------------------------------------------------------

  /** The characters `String.prototype.trim` removes and `\s` matches:
      ECMAScript WhiteSpace and LineTerminator. */
  predicate IsSpace(c: char) {
    var k := c as int;
    || (0x09 <= k <= 0x0D) || k == 0x20 || k == 0xA0 || k == 0x1680
    || (0x2000 <= k <= 0x200A)
    || k == 0x2028 || k == 0x2029 || k == 0x202F || k == 0x205F
    || k == 0x3000 || k == 0xFEFF
  }

  /** `s` with its leading whitespace removed. */
  function TrimStart(s: string): (r: string)
    ensures |r| <= |s| && r == s[|s| - |r|..]
    ensures forall i :: 0 <= i < |s| - |r| ==> IsSpace(s[i])
    ensures |r| > 0 ==> !IsSpace(r[0])
  {
    if |s| > 0 && IsSpace(s[0]) then TrimStart(s[1..]) else s
  }

  /** `s` with its trailing whitespace removed. */
  function TrimEnd(s: string): (r: string)
    ensures r <= s
    ensures forall i :: |r| <= i < |s| ==> IsSpace(s[i])
    ensures |r| > 0 ==> !IsSpace(r[|r| - 1])
  {
    if |s| > 0 && IsSpace(s[|s| - 1]) then TrimEnd(s[..|s| - 1]) else s
  }

  /** `String.prototype.trim`. */
  function Trim(s: string): string {
    TrimEnd(TrimStart(s))
  }

  /** The longest prefix of `s` that holds no whitespace. */
  function TakeWord(s: string): (r: string)
    ensures r <= s
    ensures forall i :: 0 <= i < |r| ==> !IsSpace(r[i])
    ensures |r| < |s| ==> IsSpace(s[|r|])
  {
    if |s| > 0 && !IsSpace(s[0]) then [s[0]] + TakeWord(s[1..]) else []
  }

  /** `s.trim().split(/\s+/)[0]`: splitting a trimmed string always yields at
      least one part, and the first part is "" exactly when the string is
      blank. */
  function FirstWord(s: string): string {
    TakeWord(Trim(s))
  }

  /** Trimming leaves alone a text that neither starts nor ends with whitespace. */
  lemma TrimUnpadded(s: string)
    requires |s| > 0 ==> !IsSpace(s[0]) && !IsSpace(s[|s| - 1])
    ensures Trim(s) == s
  {
    assert TrimStart(s) == s;
  }

  /** The first word of `w + rest` is `w` when `w` holds no whitespace and
      `rest` is empty or starts with whitespace. */
  lemma {:induction false} TakeWordOfWord(w: string, rest: string)
    requires forall i :: 0 <= i < |w| ==> !IsSpace(w[i])
    requires |rest| > 0 ==> IsSpace(rest[0])
    ensures TakeWord(w + rest) == w
    decreases |w|
  {
    if |w| > 0 {
      assert (w + rest)[1..] == w[1..] + rest;
      TakeWordOfWord(w[1..], rest);
    }
  }

  // ---------------------------------------------------------------------
  // Lower-casing
  // ---------------------------------------------------------------------

  /** `toLowerCase` on one character; only the ASCII letters are mapped. */
  function LowerChar(c: char): char {
    if 'A' <= c <= 'Z' then (c as int + 32) as char else c
  }

  function Lower(s: string): (r: string)
    ensures |r| == |s|
  {
    seq(|s|, i requires 0 <= i < |s| => LowerChar(s[i]))
  }

  /** Lower-casing leaves alone a text without ASCII capitals. */
  lemma LowerOfLower(s: string)
    requires forall i :: 0 <= i < |s| ==> !('A' <= s[i] <= 'Z')
    ensures Lower(s) == s
  {
  }

  /** Lower-casing never yields an ASCII capital. */
  lemma LowerHasNoCapitals(s: string)
    ensures forall i :: 0 <= i < |Lower(s)| ==> !('A' <= Lower(s)[i] <= 'Z')
  {
  }

  lemma LowerCharKeepsSpace(c: char)
    ensures IsSpace(LowerChar(c)) == IsSpace(c)
  {
  }

  /** Lower-casing keeps prefixes. */
  lemma LowerPrefix(a: string, b: string)
    requires a <= b
    ensures Lower(a) <= Lower(b)
  {
  }

  lemma {:induction false} LowerTrimStart(s: string)
    ensures Lower(TrimStart(s)) == TrimStart(Lower(s))
    decreases |s|
  {
    if |s| > 0 {
      LowerCharKeepsSpace(s[0]);
      assert Lower(s)[1..] == Lower(s[1..]);
      LowerTrimStart(s[1..]);
    }
  }

  lemma {:induction false} LowerTrimEnd(s: string)
    ensures Lower(TrimEnd(s)) == TrimEnd(Lower(s))
    decreases |s|
  {
    if |s| > 0 {
      LowerCharKeepsSpace(s[|s| - 1]);
      assert Lower(s)[..|s| - 1] == Lower(s[..|s| - 1]);
      LowerTrimEnd(s[..|s| - 1]);
    }
  }

  /** Trimming and lower-casing commute: neither touches what the other looks at. */
  lemma LowerTrim(s: string)
    ensures Lower(Trim(s)) == Trim(Lower(s))
  {
    LowerTrimStart(s);
    LowerTrimEnd(TrimStart(s));
  }

  // ---------------------------------------------------------------------
  // parseInt
  // ---------------------------------------------------------------------

  /** A digit of the given radix (10, or 16 after a `0x` prefix). */
  predicate IsDigit(c: char, radix: int) {
    || ('0' <= c <= '9')
    || (radix == 16 && (('a' <= c <= 'f') || ('A' <= c <= 'F')))
  }

  function DigitValue(c: char): int {
    if '0' <= c <= '9' then c as int - '0' as int
    else if 'a' <= c <= 'z' then c as int - 'a' as int + 10
    else if 'A' <= c <= 'Z' then c as int - 'A' as int + 10
    else 0
  }

  /** The longest prefix of `s` made of digits of `radix`. */
  function DigitRun(s: string, radix: int): (r: string)
    ensures r <= s
    ensures forall i :: 0 <= i < |r| ==> IsDigit(r[i], radix)
    ensures |r| < |s| ==> !IsDigit(s[|r|], radix)
  {
    if |s| > 0 && IsDigit(s[0], radix) then [s[0]] + DigitRun(s[1..], radix) else []
  }

  /** The value of a digit string, most significant digit first. */
  function DigitsValue(ds: string, radix: int): int {
    if |ds| == 0 then 0
    else DigitsValue(ds[..|ds| - 1], radix) * radix + DigitValue(ds[|ds| - 1])
  }

  /** The unsigned part of `parseInt`: a `0x`/`0X` prefix selects radix 16,
      and the longest run of digits after that is the number; `None` stands
      for `NaN` (no digit at all). */
  function ParseUnsigned(u: string): Option<int> {
    var hex := |u| >= 2 && u[0] == '0' && (u[1] == 'x' || u[1] == 'X');
    var radix := if hex then 16 else 10;
    var ds := DigitRun(if hex then u[2..] else u, radix);
    if |ds| == 0 then None else Some(DigitsValue(ds, radix))
  }

  /** `parseInt(s)` with no radix argument: leading whitespace is skipped and
      one sign is read before the unsigned part. `-0` is read as 0. */
  function ParseInt(s: string): Option<int> {
    var t := TrimStart(s);
    if |t| > 0 && t[0] == '-' then
      match ParseUnsigned(t[1..])
      case Some(v) => Some(-v)
      case None => None
    else if |t| > 0 && t[0] == '+' then ParseUnsigned(t[1..])
    else ParseUnsigned(t)
  }

  /** The decimal numeral of `n`, as `String(n)` writes it. */
  function ShowNat(n: nat): (r: string)
    ensures |r| > 0
    ensures forall i :: 0 <= i < |r| ==> '0' <= r[i] <= '9'
  {
    if n < 10 then [('0' as int + n) as char]
    else ShowNat(n / 10) + [('0' as int + n % 10) as char]
  }

  lemma {:induction false} ShowNatLeadingDigit(n: nat)
    ensures n > 0 ==> ShowNat(n)[0] != '0'
    decreases n
  {
    if n >= 10 {
      ShowNatLeadingDigit(n / 10);
      assert ShowNat(n)[0] == ShowNat(n / 10)[0];
    }
  }

  lemma {:induction false} DigitsValueOfShowNat(n: nat)
    ensures DigitsValue(ShowNat(n), 10) == n
    decreases n
  {
    var s := ShowNat(n);
    if n >= 10 {
      DigitsValueOfShowNat(n / 10);
      assert s[..|s| - 1] == ShowNat(n / 10);
    }
  }

  lemma {:induction false} DigitRunOfDigits(s: string)
    requires forall i :: 0 <= i < |s| ==> '0' <= s[i] <= '9'
    ensures DigitRun(s, 10) == s
    decreases |s|
  {
    if |s| > 0 {
      DigitRunOfDigits(s[1..]);
    }
  }

  lemma ParseUnsignedShowNat(n: nat)
    ensures ParseUnsigned(ShowNat(n)) == Some(n)
  {
    var s := ShowNat(n);
    ShowNatLeadingDigit(n);
    assert n < 10 ==> |s| == 1;
    DigitRunOfDigits(s);
    DigitsValueOfShowNat(n);
  }

  /** `parseInt` reads back every numeral `String` writes for a natural number. */
  lemma ParseIntShowNat(n: nat)
    ensures ParseInt(ShowNat(n)) == Some(n)
  {
    var s := ShowNat(n);
    assert TrimStart(s) == s by {
      assert !IsSpace(s[0]);
    }
    ParseUnsignedShowNat(n);
  }

  // ---------------------------------------------------------------------
  // `x || d` on an optional number
  // ---------------------------------------------------------------------

  /** `x || d` where `x` is a number field that may be missing: a missing
      field and the number 0 are both falsy. */
  function OrElse(x: Option<int>, d: int): int {
    if x.Some? && x.value != 0 then x.value else d
  }

  // ---------------------------------------------------------------------
  // Object literals used as lookup tables
  // ---------------------------------------------------------------------

  /** The properties every object literal inherits from `Object.prototype`. A
      bracket lookup with one of these names on a literal that has no own
      key of that name yields the inherited (truthy, non-table) value. */
  const PrototypeNames: set<string> := {
    "constructor", "hasOwnProperty", "isPrototypeOf", "propertyIsEnumerable",
    "toLocaleString", "toString", "valueOf", "__defineGetter__",
    "__defineSetter__", "__lookupGetter__", "__lookupSetter__", "__proto__"
  }

  /** What `table[key]` finds on an object literal. */
  datatype Lookup<V> = Own(value: V) | Inherited(name: string) | Absent

  /** Whether `key` is an own key of the literal. */
  predicate HasKey<V>(table: seq<(string, V)>, key: string) {
    exists i :: 0 <= i < |table| && table[i].0 == key
  }

  /** The own entry for `key`, the first one in source order. */
  function OwnValue<V>(table: seq<(string, V)>, key: string): (r: Option<V>)
    ensures r.Some? <==> HasKey(table, key)
    ensures r.Some? ==> exists i :: 0 <= i < |table| && table[i] == (key, r.value)
  {
    if |table| == 0 then None
    else if table[0].0 == key then Some(table[0].1)
    else OwnValue(table[1..], key)
  }

  /** `table[key]` on an object literal written with the entries `table`. */
  function Get<V>(table: seq<(string, V)>, key: string): (r: Lookup<V>)
    ensures r.Own? <==> HasKey(table, key)
    ensures r.Inherited? <==> !HasKey(table, key) && key in PrototypeNames
    ensures r.Own? ==> exists i :: 0 <= i < |table| && table[i] == (key, r.value)
  {
    match OwnValue(table, key)
    case Some(v) => Own(v)
    case None => if key in PrototypeNames then Inherited(key) else Absent
  }

  // ---------------------------------------------------------------------
  // Stored JSON columns
  // ---------------------------------------------------------------------

  /** The shape of a decoded JSON value, as far as the handlers look at it. */
  datatype Json<T> = JArray(items: seq<T>) | JObject | JNull | JScalar

  /** A column as the database driver hands it over: text still to be
      parsed, or a value the driver already decoded. */
  datatype Column<T> = Text(text: string) | Decoded(json: Json<T>)

  /** `safeJsonParse(data)` with the default `[]`: text is parsed by the given
      (abstract, possibly failing) JSON parser and falls back to `[]` when it
      fails; a decoded array, object or null is returned as is; any other
      decoded value (number, boolean) falls back to `[]`. */
  function SafeJsonParse<T>(data: Column<T>, parse: string -> Option<Json<T>>): (r: Json<T>)
    ensures data.Text? && parse(data.text).None? ==> r == JArray([])
    ensures data.Decoded? && data.json.JScalar? ==> r == JArray([])
    ensures data.Text? && parse(data.text).Some? ==> r == parse(data.text).value
    ensures data.Decoded? && !data.json.JScalar? ==> r == data.json
    ensures r.JArray? ==> (data.Text? && (parse(data.text).None? || parse(data.text).value == r)) || (data.Decoded? && (data.json == r || data.json.JScalar?))
  {
    match data
    case Text(s) => parse(s).GetOr(JArray([]))
    case Decoded(v) => if v.JScalar? then JArray([]) else v
  }

  /** The elements a handler walks after its `Array.isArray` test: none
      unless the value is an array. */
  function Elements<T>(j: Json<T>): seq<T> {
    if j.JArray? then j.items else []
  }
}

=== FILE: lists.dfy ===
/**
 * `Array.prototype.filter`: the elements a predicate keeps, in their
 * original order.
 */
module Lists {

  /** The elements of `s` that `keep` accepts, in order. */
  function Select<T(!new)>(s: seq<T>, keep: T -> bool): (r: seq<T>)
    ensures |r| <= |s|
    ensures forall x :: x in r <==> x in s && keep(x)
    ensures forall x :: multiset(r)[x] == if keep(x) then multiset(s)[x] else 0
  {
    if |s| == 0 then []
    else
      var init := Select(s[..|s| - 1], keep);
      var last := s[|s| - 1];
      assert s == s[..|s| - 1] + [last];
      if keep(last) then init + [last] else init
  }

  /** Where the selected elements stood, in order. */
  function Positions<T(!new)>(s: seq<T>, keep: T -> bool): seq<int> {
    if |s| == 0 then []
    else
      var init := Positions(s[..|s| - 1], keep);
      if keep(s[|s| - 1]) then init + [|s| - 1] else init
  }

  /** One increasing position in `s` per element of `Select(s, keep)`,
      holding that element. */
  lemma {:induction false} PositionsMeaning<T(!new)>(s: seq<T>, keep: T -> bool)
    ensures var idx := Positions(s, keep);
      && |idx| == |Select(s, keep)|
      && (forall i :: 0 <= i < |idx| ==> 0 <= idx[i] < |s| && s[idx[i]] == Select(s, keep)[i])
      && (forall i, j :: 0 <= i < j < |idx| ==> idx[i] < idx[j])
    decreases |s|
  {
    if |s| > 0 {
      var front := s[..|s| - 1];
      PositionsMeaning(front, keep);
      PositionsStep(s, keep);
    }
  }

  lemma PositionsStep<T(!new)>(s: seq<T>, keep: T -> bool)
    requires |s| > 0
    requires var idx := Positions(s[..|s| - 1], keep);
      && |idx| == |Select(s[..|s| - 1], keep)|
      && (forall i :: 0 <= i < |idx| ==> 0 <= idx[i] < |s| - 1 && s[..|s| - 1][idx[i]] == Select(s[..|s| - 1], keep)[i])
      && (forall i, j :: 0 <= i < j < |idx| ==> idx[i] < idx[j])
    ensures var idx := Positions(s, keep);
      && |idx| == |Select(s, keep)|
      && (forall i :: 0 <= i < |idx| ==> 0 <= idx[i] < |s| && s[idx[i]] == Select(s, keep)[i])
      && (forall i, j :: 0 <= i < j < |idx| ==> idx[i] < idx[j])
  {
    if keep(s[|s| - 1]) {
      PositionsKeep(s, keep);
    } else {
      PositionsSkip(s, keep);
    }
  }

  lemma PositionsKeep<T(!new)>(s: seq<T>, keep: T -> bool)
    requires |s| > 0
    requires var idx := Positions(s[..|s| - 1], keep);
      && |idx| == |Select(s[..|s| - 1], keep)|
      && (forall i :: 0 <= i < |idx| ==> 0 <= idx[i] < |s| - 1 && s[..|s| - 1][idx[i]] == Select(s[..|s| - 1], keep)[i])
      && (forall i, j :: 0 <= i < j < |idx| ==> idx[i] < idx[j])
    requires keep(s[|s| - 1])
    ensures var idx := Positions(s, keep);
      && |idx| == |Select(s, keep)|
      && (forall i :: 0 <= i < |idx| ==> 0 <= idx[i] < |s| && s[idx[i]] == Select(s, keep)[i])
      && (forall i, j :: 0 <= i < j < |idx| ==> idx[i] < idx[j])
  {
    var front, last := s[..|s| - 1], s[|s| - 1];
    var init, sel := Positions(front, keep), Select(front, keep);
    SnocPositions(s, init, sel);
    assert Positions(s, keep) == init + [|s| - 1];
    assert Select(s, keep) == sel + [last];
  }

  /** Appending the last position of `s` to positions of the front keeps
      them increasing and in range. */
  lemma SnocPositions<T>(s: seq<T>, idx: seq<int>, r: seq<T>)
    requires |s| > 0 && |idx| == |r|
    requires forall i :: 0 <= i < |idx| ==> 0 <= idx[i] < |s| - 1 && s[..|s| - 1][idx[i]] == r[i]
    requires forall i, j :: 0 <= i < j < |idx| ==> idx[i] < idx[j]
    ensures var idx', r' := idx + [|s| - 1], r + [s[|s| - 1]];
      && (forall i :: 0 <= i < |idx'| ==> 0 <= idx'[i] < |s| && s[idx'[i]] == r'[i])
      && (forall i, j :: 0 <= i < j < |idx'| ==> idx'[i] < idx'[j])
  {
  }

  lemma PositionsSkip<T(!new)>(s: seq<T>, keep: T -> bool)
    requires |s| > 0
    requires var idx := Positions(s[..|s| - 1], keep);
      && |idx| == |Select(s[..|s| - 1], keep)|
      && (forall i :: 0 <= i < |idx| ==> 0 <= idx[i] < |s| - 1 && s[..|s| - 1][idx[i]] == Select(s[..|s| - 1], keep)[i])
      && (forall i, j :: 0 <= i < j < |idx| ==> idx[i] < idx[j])
    requires !keep(s[|s| - 1])
    ensures var idx := Positions(s, keep);
      && |idx| == |Select(s, keep)|
      && (forall i :: 0 <= i < |idx| ==> 0 <= idx[i] < |s| && s[idx[i]] == Select(s, keep)[i])
      && (forall i, j :: 0 <= i < j < |idx| ==> idx[i] < idx[j])
  {
    var front := s[..|s| - 1];
    var init, sel := Positions(front, keep), Select(front, keep);
    assert Positions(s, keep) == init;
    assert Select(s, keep) == sel;
    forall i | 0 <= i < |init|
      ensures s[init[i]] == sel[i]
    {
      assert s[init[i]] == front[init[i]];
    }
  }

  /** `r` is `s` with some elements left out: it keeps a strictly
      increasing choice of positions of `s`. */
  ghost predicate Subsequence<T>(r: seq<T>, s: seq<T>) {
    exists idx: seq<int> ::
      && |idx| == |r|
      && (forall i :: 0 <= i < |r| ==> 0 <= idx[i] < |s| && s[idx[i]] == r[i])
      && (forall i, j :: 0 <= i < j < |r| ==> idx[i] < idx[j])
  }

  lemma SelectSubsequence<T(!new)>(s: seq<T>, keep: T -> bool)
    ensures Subsequence(Select(s, keep), s)
  {
    PositionsMeaning(s, keep);
    var idx := Positions(s, keep);
    assert |idx| == |Select(s, keep)|;
  }

  /** A predicate that keeps everything keeps the list as it is. */
  lemma {:induction false} SelectAll<T(!new)>(s: seq<T>, keep: T -> bool)
    requires forall x :: x in s ==> keep(x)
    ensures Select(s, keep) == s
    decreases |s|
  {
    if |s| > 0 {
      assert s[|s| - 1] in s;
      SelectAll(s[..|s| - 1], keep);
      assert s == s[..|s| - 1] + [s[|s| - 1]];
    }
  }

  /** `s.findIndex(p)`: the first position whose element `p` accepts, or
      -1 when there is none. */
  function FirstWhere<T>(s: seq<T>, p: T -> bool): (i: int)
    ensures -1 <= i < |s|
    ensures i >= 0 ==> p(s[i])
    ensures forall j :: 0 <= j < |s| && (i < 0 || j < i) ==> !p(s[j])
  {
    if |s| == 0 then -1
    else if p(s[0]) then 0
    else
      var i := FirstWhere(s[1..], p);
      if i < 0 then -1 else i + 1
  }

  /** The sum of `f` over `s`. */
  function SumBy<T>(s: seq<T>, f: T -> int): int {
    if |s| == 0 then 0 else SumBy(s[..|s| - 1], f) + f(s[|s| - 1])
  }

  lemma SumBySingle<T>(x: T, f: T -> int)
    ensures SumBy([x], f) == f(x)
  {
    assert [x][..0] == [];
  }

  lemma {:induction false} SumByAppend<T>(a: seq<T>, b: seq<T>, f: T -> int)
    ensures SumBy(a + b, f) == SumBy(a, f) + SumBy(b, f)
    decreases |b|
  {
    if |b| == 0 {
      assert a + b == a;
    } else {
      assert (a + b)[..|a + b| - 1] == a + b[..|b| - 1];
      SumByAppend(a, b[..|b| - 1], f);
    }
  }

  lemma {:induction false} SumByRemove<T>(b: seq<T>, i: int, f: T -> int)
    requires 0 <= i < |b|
    ensures SumBy(b, f) == SumBy(b[..i] + b[i + 1..], f) + f(b[i])
    ensures multiset(b[..i] + b[i + 1..]) == multiset(b) - multiset{b[i]}
  {
    var a, x, c := b[..i], b[i], b[i + 1..];
    assert b == a + [x] + c;
    SumByAppend(a + [x], c, f);
    SumByAppend(a, [x], f);
    SumByAppend(a, c, f);
    SumBySingle(x, f);
  }

  /** A sum does not depend on the order of its terms. */
  lemma {:induction false} SumByPermutation<T>(a: seq<T>, b: seq<T>, f: T -> int)
    requires multiset(a) == multiset(b)
    ensures SumBy(a, f) == SumBy(b, f)
    decreases |a|
  {
    if |a| == 0 {
      assert |b| == |multiset(b)| == 0;
    } else {
      var front, x := a[..|a| - 1], a[|a| - 1];
      assert a == front + [x];
      assert x in multiset(b);
      var i :| 0 <= i < |b| && b[i] == x;
      var rest := b[..i] + b[i + 1..];
      SumByRemove(b, i, f);
      assert multiset(front) == multiset(rest);
      SumByPermutation(front, rest, f);
    }
  }

  /** Leaving out an element makes the selection shorter than the list. */
  lemma SelectShorter<T(!new)>(s: seq<T>, keep: T -> bool, i: int)
    requires 0 <= i < |s| && !keep(s[i])
    ensures |Select(s, keep)| < |s|
  {
    var r := Select(s, keep);
    assert multiset(r)[s[i]] == 0;
    assert multiset(r) <= multiset(s);
    assert multiset(r) != multiset(s) by {
      assert s[i] in multiset(s);
    }
    assert |multiset(r)| < |multiset(s)|;
  }
}

=== FILE: months.dfy ===
/**
 * Month and quarter resolution: `getMonthQuarter`, `getMonthNumber`, the
 * `getQuarterMonths` closure, the `Q${Math.ceil(m / 3)}` derivation and the
 * calendar order the performance views sort month names by.
 */
module Months {
  import opened Wrappers
  import opened JsValues

  // ---------------------------------------------------------------------
  // Tables, in the order the object literals list them
  // ---------------------------------------------------------------------

  /** The name-to-quarter literal of `getMonthQuarter`; a quarter is written
      by its number (the literal's values are the labels "Q1".."Q4"). */
  const QuarterTable: seq<(string, int)> := [
    ("january", 1), ("february", 1), ("march", 1),
    ("april", 2), ("may", 2), ("june", 2),
    ("july", 3), ("august", 3), ("september", 3),
    ("october", 4), ("november", 4), ("december", 4),
    ("jan", 1), ("feb", 1), ("mar", 1),
    ("apr", 2), ("jun", 2),
    ("jul", 3), ("aug", 3), ("sep", 3), ("sept", 3),
    ("oct", 4), ("nov", 4), ("dec", 4)
  ]

  /** The name-to-number literal of `getMonthNumber`, in `Object.entries` order. */
  const MonthTable: seq<(string, int)> := [
    ("january", 1), ("jan", 1),
    ("february", 2), ("feb", 2),
    ("march", 3), ("mar", 3),
    ("april", 4), ("apr", 4),
    ("may", 5),
    ("june", 6), ("jun", 6),
    ("july", 7), ("jul", 7),
    ("august", 8), ("aug", 8),
    ("september", 9), ("sep", 9), ("sept", 9),
    ("october", 10), ("oct", 10),
    ("november", 11), ("nov", 11),
    ("december", 12), ("dec", 12)
  ]

  /** The literal of the `getQuarterMonths` closures. */
  const QuarterMonthTable: seq<(string, seq<int>)> := [
    ("Q1", [1, 2, 3]), ("Q2", [4, 5, 6]), ("Q3", [7, 8, 9]), ("Q4", [10, 11, 12])
  ]

  /** The `monthOrder` array the performance views sort month names by. */
  const MonthOrder: seq<string> := [
    "january", "february", "march", "april", "may", "june",
    "july", "august", "september", "october", "november", "december"
  ]

  lemma QuarterTableRange()
    ensures forall i :: 0 <= i < |QuarterTable| ==> 1 <= QuarterTable[i].1 <= 4
  {
  }

  lemma MonthTableRange()
    ensures forall i :: 0 <= i < |MonthTable| ==> 1 <= MonthTable[i].1 <= 12
  {
  }

  // ---------------------------------------------------------------------
  // Quarter numbers and labels
  // ---------------------------------------------------------------------

  /** `Math.ceil(m / 3)` for an integer month number; month 0 gives 0. */
  function QuarterOf(m: int): (q: int)
    ensures 3 * (q - 1) < m <= 3 * q
  {
    (m + 2) / 3
  }

  /** The label `Q${k}`. */
  function QuarterLabel(k: int): string {
    if k >= 0 then "Q" + ShowNat(k) else "Q-" + ShowNat(-k)
  }

  lemma QuarterLabelTail(k: int)
    ensures |QuarterLabel(k)| >= 2
    ensures k >= 0 ==> QuarterLabel(k)[1..] == ShowNat(k)
    ensures k < 0 ==> QuarterLabel(k)[1..] == ['-'] + ShowNat(-k)
  {
  }

  lemma ParseNegativeNumeral(n: nat)
    ensures ParseInt(['-'] + ShowNat(n)) == Some(-(n as int))
  {
    var s := ShowNat(n);
    ParseUnsignedShowNat(n);
    var t := ['-'] + s;
    assert t[0] == '-' && t[1..] == s;
    assert !IsSpace(t[0]);
    assert TrimStart(t) == t;
  }

  /** `parseInt(label.substring(1))` reads a label back as its quarter
      number, negative numbers included. */
  lemma QuarterLabelReadsBack(k: int)
    ensures |QuarterLabel(k)| >= 2
    ensures ParseInt(QuarterLabel(k)[1..]) == Some(k)
  {
    QuarterLabelTail(k);
    if k >= 0 {
      ParseIntShowNat(k);
    } else {
      ParseNegativeNumeral(-k);
    }
  }

  // ---------------------------------------------------------------------
  // getMonthQuarter
  // ---------------------------------------------------------------------

  /** The key `getMonthQuarter` looks up: the lower-cased first word of the
      trimmed text. */
  function QuarterKey(s: string): string {
    Lower(FirstWord(s))
  }

  /** What `getMonthQuarter` returns as written: a quarter of the table,
      `null`, or a value inherited from `Object.prototype`, which is truthy
      and so survives the `|| null` fallback. */
  datatype QuarterResult = Quarter(k: int) | NoQuarter | PrototypeValue(name: string)

  /** `getMonthQuarter(s)` as written. */
  function MonthQuarterAsWritten(s: string): (r: QuarterResult)
    ensures r.Quarter? ==> 1 <= r.k <= 4
    ensures r.PrototypeValue? <==> !HasKey(QuarterTable, QuarterKey(s)) && QuarterKey(s) in PrototypeNames
  {
    QuarterTableRange();
    match Get(QuarterTable, QuarterKey(s))
    case Own(k) => Quarter(k)
    case Inherited(name) => PrototypeValue(name)
    case Absent => NoQuarter
  }

  /** The key looked up for a text is its first word, lower-cased. */
  lemma QuarterKeyOfWord(w: string, rest: string)
    requires |w| > 0
    requires forall i :: 0 <= i < |w| ==> !IsSpace(w[i])
    requires |rest| > 0 ==> IsSpace(rest[0]) && !IsSpace(rest[|rest| - 1])
    ensures QuarterKey(w + rest) == Lower(w)
  {
    TrimUnpadded(w + rest);
    TakeWordOfWord(w, rest);
  }

  /** A month text whose first word is "constructor" makes `getMonthQuarter`
      return the `Object` constructor instead of a quarter label or `null`. */
  lemma ConstructorLeaksThroughQuarterLookup()
    ensures MonthQuarterAsWritten("constructor 2025") == PrototypeValue("constructor")
  {
    QuarterKeyOfWord("constructor", " 2025");
    LowerOfLower("constructor");
    assert "constructor 2025" == "constructor" + " 2025";
    assert !HasKey(QuarterTable, "constructor");
  }

  /** `getMonthQuarter(s)` as intended: a quarter when the lower-cased first
      word is a key of the table itself, and `null` otherwise. */
  function MonthQuarter(s: string): (r: Option<int>)
    ensures r.Some? <==> HasKey(QuarterTable, QuarterKey(s))
    ensures r.Some? ==> 1 <= r.value <= 4
    ensures r.Some? <==> MonthQuarterAsWritten(s).Quarter?
    ensures r.Some? ==> r.value == MonthQuarterAsWritten(s).k
  {
    QuarterTableRange();
    OwnValue(QuarterTable, QuarterKey(s))
  }

  // ---------------------------------------------------------------------
  // getMonthNumber
  // ---------------------------------------------------------------------

  /** A `month` field: a number, a string, or missing. */
  datatype MonthValue = MonthNum(n: int) | MonthText(s: string) | MonthAbsent

  /** Whether the table has a key that `s` starts with. */
  predicate HasPrefixKey(table: seq<(string, int)>, s: string) {
    exists i :: 0 <= i < |table| && table[i].0 <= s
  }

  /** The value of the first key in `table` that `s` starts with. */
  function FirstPrefix(table: seq<(string, int)>, s: string): (r: Option<int>)
    ensures r.Some? <==> HasPrefixKey(table, s)
    ensures r.Some? ==> exists i :: 0 <= i < |table| && table[i].0 <= s && table[i].1 == r.value
  {
    if |table| == 0 then None
    else if table[0].0 <= s then Some(table[0].1)
    else
      var r := FirstPrefix(table[1..], s);
      assert r.Some? ==> exists i :: 1 <= i < |table| && table[i].0 <= s && table[i].1 == r.value by {
        if r.Some? {
          var i :| 0 <= i < |table[1..]| && table[1..][i].0 <= s && table[1..][i].1 == r.value;
          assert table[i + 1] == table[1..][i];
        }
      }
      assert HasPrefixKey(table, s) ==> HasPrefixKey(table[1..], s) by {
        if HasPrefixKey(table, s) {
          var i :| 0 <= i < |table| && table[i].0 <= s;
          assert i != 0;
          assert table[1..][i - 1] == table[i];
        }
      }
      r
  }

  /** `getMonthNumber` on text: the number of the first key the lower-cased,
      trimmed text starts with, else `parseInt(text) || 0`. */
  function NumberFromText(s: string): int {
    match FirstPrefix(MonthTable, Trim(Lower(s)))
    case Some(n) => n
    case None => ParseInt(s).GetOr(0)
  }

  /** `getMonthNumber(month)`. A number comes back unchanged, with no
      clamping to 1..12; a missing field is turned into the text
      "undefined" first, as `String(undefined)` does. */
  function MonthNumber(m: MonthValue): (r: int)
    ensures m.MonthNum? ==> r == m.n
    ensures m.MonthText? && HasPrefixKey(MonthTable, Trim(Lower(m.s))) ==> 1 <= r <= 12
    ensures m.MonthText? && !HasPrefixKey(MonthTable, Trim(Lower(m.s))) ==> r == ParseInt(m.s).GetOr(0)
  {
    MonthTableRange();
    match m
    case MonthNum(n) => n
    case MonthText(s) => NumberFromText(s)
    case MonthAbsent => NumberFromText("undefined")
  }

  /** The month a three-letter stem names; every key of both tables starts
      with the stem of its month, and the twelve stems differ. */
  function StemMonth(stem: string): int {
    if stem == "jan" then 1 else if stem == "feb" then 2 else if stem == "mar" then 3
    else if stem == "apr" then 4 else if stem == "may" then 5 else if stem == "jun" then 6
    else if stem == "jul" then 7 else if stem == "aug" then 8 else if stem == "sep" then 9
    else if stem == "oct" then 10 else if stem == "nov" then 11 else if stem == "dec" then 12
    else 0
  }

  lemma MonthTableStems()
    ensures forall i :: 0 <= i < |MonthTable| ==> |MonthTable[i].0| >= 3 && StemMonth(MonthTable[i].0[..3]) == MonthTable[i].1
  {
    MonthStemsHead();
    MonthStemsTail();
  }

  lemma MonthStemsHead()
    ensures forall i :: 0 <= i < 12 ==> |MonthTable[i].0| >= 3 && StemMonth(MonthTable[i].0[..3]) == MonthTable[i].1
  {
    forall i | 0 <= i < 12
      ensures |MonthTable[i].0| >= 3 && StemMonth(MonthTable[i].0[..3]) == MonthTable[i].1
    {
      var k := MonthTable[i].0;
      assert |k| >= 3;
      assert k[..3] == [k[0], k[1], k[2]];
    }
  }

  lemma MonthStemsTail()
    ensures forall i :: 12 <= i < 24 ==> |MonthTable[i].0| >= 3 && StemMonth(MonthTable[i].0[..3]) == MonthTable[i].1
  {
    forall i | 12 <= i < 24
      ensures |MonthTable[i].0| >= 3 && StemMonth(MonthTable[i].0[..3]) == MonthTable[i].1
    {
      var k := MonthTable[i].0;
      assert |k| >= 3;
      assert k[..3] == [k[0], k[1], k[2]];
    }
  }

  /** Any text whose lower-cased, trimmed form starts with a key of the
      table resolves to that key's month, whatever follows the key: two keys
      that are prefixes of one text always name the same month, so the
      first-match search cannot pick a different one. */
  lemma MonthNumberByKey(s: string, i: int)
    requires 0 <= i < |MonthTable| && MonthTable[i].0 <= Trim(Lower(s))
    ensures MonthNumber(MonthText(s)) == MonthTable[i].1
  {
    var t := Trim(Lower(s));
    var r := FirstPrefix(MonthTable, t);
    assert HasPrefixKey(MonthTable, t);
    var j :| 0 <= j < |MonthTable| && MonthTable[j].0 <= t && MonthTable[j].1 == r.value;
    SharedStem(i, j, t);
  }

  /** Two keys that are prefixes of one text name the same month. */
  lemma SharedStem(i: int, j: int, t: string)
    requires 0 <= i < |MonthTable| && MonthTable[i].0 <= t
    requires 0 <= j < |MonthTable| && MonthTable[j].0 <= t
    ensures MonthTable[i].1 == MonthTable[j].1
  {
    MonthTableStems();
    var a, b := MonthTable[i].0, MonthTable[j].0;
    assert a[..3] == t[..3];
    assert b[..3] == t[..3];
  }

  /** Every key of both tables is a non-empty word of lower-case ASCII
      letters. */
  lemma TableKeysAreLowerWords()
    ensures forall i, j :: 0 <= i < |QuarterTable| && 0 <= j < |QuarterTable[i].0| ==> 'a' <= QuarterTable[i].0[j] <= 'z'
    ensures forall i, j :: 0 <= i < |MonthTable| && 0 <= j < |MonthTable[i].0| ==> 'a' <= MonthTable[i].0[j] <= 'z'
    ensures forall i :: 0 <= i < |MonthTable| ==> |MonthTable[i].0| > 0
  {
    QuarterKeysLowerHead();
    QuarterKeysLowerTail();
    MonthKeysLowerHead();
    MonthKeysLowerTail();
  }

  lemma QuarterKeysLowerHead()
    ensures forall i, j :: 0 <= i < 12 && 0 <= j < |QuarterTable[i].0| ==> 'a' <= QuarterTable[i].0[j] <= 'z'
    ensures forall i :: 0 <= i < 12 ==> |QuarterTable[i].0| > 0
  {
  }

  lemma QuarterKeysLowerTail()
    ensures forall i, j :: 12 <= i < 24 && 0 <= j < |QuarterTable[i].0| ==> 'a' <= QuarterTable[i].0[j] <= 'z'
    ensures forall i :: 12 <= i < 24 ==> |QuarterTable[i].0| > 0
  {
  }

  lemma MonthKeysLowerHead()
    ensures forall i, j :: 0 <= i < 12 && 0 <= j < |MonthTable[i].0| ==> 'a' <= MonthTable[i].0[j] <= 'z'
    ensures forall i :: 0 <= i < 12 ==> |MonthTable[i].0| > 0
  {
  }

  lemma MonthKeysLowerTail()
    ensures forall i, j :: 12 <= i < 24 && 0 <= j < |MonthTable[i].0| ==> 'a' <= MonthTable[i].0[j] <= 'z'
    ensures forall i :: 12 <= i < 24 ==> |MonthTable[i].0| > 0
  {
  }

  /** The text lower-cased and trimmed is the key itself for a table key. */
  lemma KeyNormalisesToItself(k: string)
    requires forall j :: 0 <= j < |k| ==> 'a' <= k[j] <= 'z'
    ensures Trim(Lower(k)) == k
  {
    LowerOfLower(k);
    TrimUnpadded(k);
  }

  lemma MonthKeyIsNormal(j: int)
    requires 0 <= j < |MonthTable|
    ensures Trim(Lower(MonthTable[j].0)) == MonthTable[j].0
  {
    TableKeysAreLowerWords();
    KeyNormalisesToItself(MonthTable[j].0);
  }

  /** Position in `MonthTable` of each key of `QuarterTable`, and back: a
      proof device matching the two literals' keys one to one. */
  const QuarterToMonthIndex: seq<int> :=
    [0, 2, 4, 6, 8, 9, 11, 13, 15, 18, 20, 22, 1, 3, 5, 7, 10, 12, 14, 16, 17, 19, 21, 23]
  const MonthToQuarterIndex: seq<int> :=
    [0, 12, 1, 13, 2, 14, 3, 15, 4, 5, 16, 6, 17, 7, 18, 8, 19, 20, 9, 21, 10, 22, 11, 23]

  lemma QuarterKeysMatchHead()
    ensures forall i :: 0 <= i < 8 ==>
      0 <= QuarterToMonthIndex[i] < |MonthTable| && MonthTable[QuarterToMonthIndex[i]].0 == QuarterTable[i].0
  {
  }

  lemma QuarterKeysMatchMiddle()
    ensures forall i :: 8 <= i < 16 ==>
      0 <= QuarterToMonthIndex[i] < |MonthTable| && MonthTable[QuarterToMonthIndex[i]].0 == QuarterTable[i].0
  {
  }

  lemma QuarterKeysMatchTail()
    ensures forall i :: 16 <= i < 24 ==>
      0 <= QuarterToMonthIndex[i] < |MonthTable| && MonthTable[QuarterToMonthIndex[i]].0 == QuarterTable[i].0
  {
  }

  lemma QuarterKeysInMonthTable()
    ensures forall i :: 0 <= i < |QuarterTable| ==>
      0 <= QuarterToMonthIndex[i] < |MonthTable| && MonthTable[QuarterToMonthIndex[i]].0 == QuarterTable[i].0
  {
    QuarterKeysMatchHead();
    QuarterKeysMatchMiddle();
    QuarterKeysMatchTail();
  }

  lemma MonthKeysMatchHead()
    ensures forall i :: 0 <= i < 8 ==>
      0 <= MonthToQuarterIndex[i] < |QuarterTable| && QuarterTable[MonthToQuarterIndex[i]].0 == MonthTable[i].0
  {
  }

  lemma MonthKeysMatchMiddle()
    ensures forall i :: 8 <= i < 16 ==>
      0 <= MonthToQuarterIndex[i] < |QuarterTable| && QuarterTable[MonthToQuarterIndex[i]].0 == MonthTable[i].0
  {
  }

  lemma MonthKeysMatchTail()
    ensures forall i :: 16 <= i < 24 ==>
      0 <= MonthToQuarterIndex[i] < |QuarterTable| && QuarterTable[MonthToQuarterIndex[i]].0 == MonthTable[i].0
  {
  }

  lemma MonthKeysInQuarterTable()
    ensures forall i :: 0 <= i < |MonthTable| ==>
      0 <= MonthToQuarterIndex[i] < |QuarterTable| && QuarterTable[MonthToQuarterIndex[i]].0 == MonthTable[i].0
  {
    MonthKeysMatchHead();
    MonthKeysMatchMiddle();
    MonthKeysMatchTail();
  }

  lemma MatchedKeysShareQuarter()
    ensures forall i :: 0 <= i < |QuarterTable| ==>
      0 <= QuarterToMonthIndex[i] < |MonthTable| && QuarterOf(MonthTable[QuarterToMonthIndex[i]].1) == QuarterTable[i].1
  {
  }

  /** The two literals have the same keys. */
  lemma TablesHaveSameKeys(k: string)
    ensures HasKey(QuarterTable, k) <==> HasKey(MonthTable, k)
  {
    if HasKey(QuarterTable, k) {
      QuarterKeysInMonthTable();
      var i :| 0 <= i < |QuarterTable| && QuarterTable[i].0 == k;
      assert MonthTable[QuarterToMonthIndex[i]].0 == k;
    }
    if HasKey(MonthTable, k) {
      MonthKeysInQuarterTable();
      var i :| 0 <= i < |MonthTable| && MonthTable[i].0 == k;
      assert QuarterTable[MonthToQuarterIndex[i]].0 == k;
    }
  }

  /** Every key of the quarter literal names the quarter
      `Math.ceil(getMonthNumber(key) / 3)`. */
  lemma QuarterTableAgreesWithMonthTable(i: int)
    requires 0 <= i < |QuarterTable|
    ensures QuarterOf(MonthNumber(MonthText(QuarterTable[i].0))) == QuarterTable[i].1
  {
    var k := QuarterTable[i].0;
    QuarterKeysInMonthTable();
    MatchedKeysShareQuarter();
    MonthKeyIsNormal(QuarterToMonthIndex[i]);
    MonthNumberByKey(k, QuarterToMonthIndex[i]);
  }

  /** Whenever `getMonthQuarter` finds a quarter for a text, it is the
      quarter of the month `getMonthNumber` reads from the same text. */
  lemma ResolversAgree(s: string)
    ensures MonthQuarter(s).Some? ==> QuarterOf(MonthNumber(MonthText(s))) == MonthQuarter(s).value
  {
    var k := QuarterKey(s);
    if HasKey(QuarterTable, k) {
      var r := OwnValue(QuarterTable, k);
      var i :| 0 <= i < |QuarterTable| && QuarterTable[i] == (k, r.value);
      QuarterTableAgreesWithMonthTable(i);
      QuarterKeysInMonthTable();
      var j := QuarterToMonthIndex[i];
      assert MonthTable[j].0 == k;
      KeyPrefixOfText(s);
      MonthNumberByKey(s, j);
      MonthKeyIsNormal(j);
      MonthNumberByKey(k, j);
    }
  }

  /** The key `getMonthQuarter` looks up is a prefix of the text lower-cased
      and trimmed. */
  lemma KeyPrefixOfText(s: string)
    ensures QuarterKey(s) <= Trim(Lower(s))
  {
    LowerPrefix(TakeWord(Trim(s)), Trim(s));
    LowerTrim(s);
  }

  // ---------------------------------------------------------------------
  // Worked cases
  // ---------------------------------------------------------------------

  /** A text whose lookup key is a key of the quarter literal gets the
      quarter of the month `getMonthNumber` reads from it. */
  lemma QuarterFollowsMonth(s: string, i: int)
    requires 0 <= i < |QuarterTable| && QuarterKey(s) == QuarterTable[i].0
    ensures MonthQuarter(s) == Some(QuarterOf(MonthNumber(MonthText(s))))
  {
    ResolversAgree(s);
  }

  /** The letters the keys of the month literal begin with. */
  const MonthInitials: set<char> := {'j', 'f', 'm', 'a', 's', 'o', 'n', 'd'}

  lemma MonthKeyInitials()
    ensures forall i :: 0 <= i < |MonthTable| ==> |MonthTable[i].0| > 0 && MonthTable[i].0[0] in MonthInitials
  {
  }

  /** A text that begins with no key initial starts with no key. */
  lemma NoMonthKeyBegins(t: string)
    requires |t| > 0 && t[0] !in MonthInitials
    ensures !HasPrefixKey(MonthTable, t)
  {
    MonthKeyInitials();
  }

  /** Text already lower-cased and trimmed that begins with no key initial
      falls through to `parseInt(text) || 0`. */
  lemma UnmatchedText(s: string)
    requires Trim(Lower(s)) == s && |s| > 0 && s[0] !in MonthInitials
    ensures MonthNumber(MonthText(s)) == ParseInt(s).GetOr(0)
  {
    NoMonthKeyBegins(s);
  }

  /** Lower-case text with no space at either end is its own normal form. */
  lemma NormalText(s: string)
    requires forall i :: 0 <= i < |s| ==> !('A' <= s[i] <= 'Z')
    requires |s| > 0 ==> !IsSpace(s[0]) && !IsSpace(s[|s| - 1])
    ensures Trim(Lower(s)) == s
  {
    LowerOfLower(s);
    TrimUnpadded(s);
  }

  lemma NumeralKeys(n: nat)
    ensures Trim(Lower(ShowNat(n))) == ShowNat(n)
    ensures ShowNat(n)[0] !in MonthInitials
  {
    NormalText(ShowNat(n));
  }

  /** A decimal numeral that is not a month name falls through to
      `parseInt`: "2025" reads as month 2025, not 0 and not clamped. */
  lemma NumeralMonth(n: nat)
    ensures MonthNumber(MonthText(ShowNat(n))) == n
  {
    NumeralKeys(n);
    UnmatchedText(ShowNat(n));
    ParseIntShowNat(n);
  }

  /** A non-empty word of lower-case ASCII letters. */
  predicate IsLowerWord(w: string) {
    |w| > 0 && forall i :: 0 <= i < |w| ==> 'a' <= w[i] <= 'z'
  }

  /** A lower-case word is its own normal form and lookup key, and no number. */
  lemma LowerWordKeys(w: string)
    requires IsLowerWord(w)
    ensures Trim(Lower(w)) == w
    ensures QuarterKey(w) == w
    ensures ParseInt(w) == None
  {
    NormalText(w);
    QuarterKeyOfWord(w, "");
    assert w + "" == w;
    LowerOfLower(w);
    assert !IsSpace(w[0]);
    assert TrimStart(w) == w;
    assert DigitRun(w, 10) == [];
  }

  /** A lower-case word that starts no month name and is no key of the
      quarter literal resolves to month 0 and no quarter, without failing. */
  lemma UnknownWord(w: string)
    requires IsLowerWord(w) && w[0] !in MonthInitials && !HasKey(QuarterTable, w)
    ensures MonthNumber(MonthText(w)) == 0
    ensures MonthQuarter(w) == None
  {
    LowerWordKeys(w);
    UnmatchedText(w);
  }

  lemma UndefinedIsUnknown()
    ensures IsLowerWord("undefined") && "undefined"[0] !in MonthInitials
  {
  }

  /** A missing `month` field resolves to 0: `String(undefined)` names no
      month and is no number. */
  lemma MissingMonth()
    ensures MonthNumber(MonthAbsent) == 0
  {
    UndefinedIsUnknown();
    LowerWordKeys("undefined");
    UnmatchedText("undefined");
  }

  /** The month literal matches prefixes while the quarter literal needs the
      whole first word: a lower-case word that merely starts with a month
      key, such as "aprilis", gets that key's month but no quarter. */
  lemma PrefixMatchIsLooserThanWordMatch(w: string, j: int)
    requires IsLowerWord(w) && 0 <= j < |MonthTable| && MonthTable[j].0 <= w
    requires !HasKey(QuarterTable, w)
    ensures MonthNumber(MonthText(w)) == MonthTable[j].1
    ensures MonthQuarter(w) == None
  {
    LowerWordKeys(w);
    MonthNumberByKey(w, j);
  }

  // ---------------------------------------------------------------------
  // The stray prototype values
  // ---------------------------------------------------------------------

  predicate HasCapital(s: string) {
    exists i :: 0 <= i < |s| && 'A' <= s[i] <= 'Z'
  }

  lemma PrototypeNamesWithCapitals()
    ensures forall n :: n in PrototypeNames && n != "constructor" && n != "__proto__" ==> HasCapital(n)
  {
    forall n | n in PrototypeNames && n != "constructor" && n != "__proto__"
      ensures HasCapital(n)
    {
      if n == "hasOwnProperty" { assert n[3] == 'O'; }
      else if n == "isPrototypeOf" { assert n[2] == 'P'; }
      else if n == "propertyIsEnumerable" { assert n[8] == 'I'; }
      else if n == "toLocaleString" { assert n[2] == 'L'; }
      else if n == "toString" { assert n[2] == 'S'; }
      else if n == "valueOf" { assert n[5] == 'O'; }
      else if n == "__defineGetter__" { assert n[8] == 'G'; }
      else if n == "__defineSetter__" { assert n[8] == 'S'; }
      else if n == "__lookupGetter__" { assert n[8] == 'G'; }
      else { assert n == "__lookupSetter__"; assert n[8] == 'S'; }
    }
  }

  /** `getMonthQuarter` leaks an inherited value only for the two
      prototype names without capitals: the key is lower-cased first. */
  lemma PrototypeLeakOnlyForTwoWords(s: string)
    ensures MonthQuarterAsWritten(s).PrototypeValue? ==> QuarterKey(s) in {"constructor", "__proto__"}
  {
    if MonthQuarterAsWritten(s).PrototypeValue? {
      var k := QuarterKey(s);
      assert !HasCapital(k) by {
        LowerHasNoCapitals(FirstWord(s));
      }
      LowerPrototypeNames(k);
    }
  }

  lemma LowerPrototypeNames(k: string)
    requires k in PrototypeNames && !HasCapital(k)
    ensures k == "constructor" || k == "__proto__"
  {
    PrototypeNamesWithCapitals();
  }

  // ---------------------------------------------------------------------
  // getQuarterMonths
  // ---------------------------------------------------------------------

  lemma SmallQuarterLabels()
    ensures QuarterLabel(1) == "Q1" && QuarterLabel(2) == "Q2"
    ensures QuarterLabel(3) == "Q3" && QuarterLabel(4) == "Q4"
  {
  }

  /** `getQuarterMonths(q)` as written: `quarters[q] || []` also finds the
      values `Object.prototype` carries, which are functions and objects,
      not month lists. */
  function QuarterMonthsAsWritten(q: string): (r: Lookup<seq<int>>)
    ensures r.Inherited? <==> q in PrototypeNames
  {
    Get(QuarterMonthTable, q)
  }

  /** A quarter parameter such as "toString" reaches the inherited method
      instead of the `[]` fallback. */
  lemma ToStringLeaksThroughQuarterMonths()
    ensures QuarterMonthsAsWritten("toString") == Inherited("toString")
  {
  }

  /** Where the lookup as written finds an own list, it is the intended
      one; where it finds nothing, the intended list is empty. */
  lemma QuarterMonthsAsWrittenOwn(q: string)
    ensures QuarterMonthsAsWritten(q).Own? ==> QuarterMonthsAsWritten(q).value == QuarterMonths(q)
    ensures QuarterMonthsAsWritten(q).Absent? ==> QuarterMonths(q) == []
    ensures QuarterMonthsAsWritten(q).Inherited? ==> QuarterMonths(q) == []
  {
  }

  lemma QuarterMonthTableCases(q: string)
    ensures OwnValue(QuarterMonthTable, q) ==
      if q == "Q1" then Some([1, 2, 3]) else if q == "Q2" then Some([4, 5, 6])
      else if q == "Q3" then Some([7, 8, 9]) else if q == "Q4" then Some([10, 11, 12])
      else None
  {
  }

  lemma QuarterMonthsMembership(q: string, m: int)
    ensures m in OwnValue(QuarterMonthTable, q).GetOr([]) <==> 1 <= m <= 12 && q == QuarterLabel(QuarterOf(m))
  {
    ListedMonths(q, m);
    if 1 <= m <= 12 {
      LabelOfQuarter(m);
      MonthListed(m);
    }
  }

  lemma ListedMonths(q: string, m: int)
    ensures m in OwnValue(QuarterMonthTable, q).GetOr([]) ==> 1 <= m <= 12 && q == SmallLabel(QuarterOf(m))
  {
    QuarterMonthTableCases(q);
    if q == "Q1" {
      assert m in [1, 2, 3] ==> QuarterOf(m) == 1;
    } else if q == "Q2" {
      assert m in [4, 5, 6] ==> QuarterOf(m) == 2;
    } else if q == "Q3" {
      assert m in [7, 8, 9] ==> QuarterOf(m) == 3;
    } else if q == "Q4" {
      assert m in [10, 11, 12] ==> QuarterOf(m) == 4;
    }
  }

  lemma MonthListed(m: int)
    requires 1 <= m <= 12
    ensures m in OwnValue(QuarterMonthTable, SmallLabel(QuarterOf(m))).GetOr([])
  {
    if m <= 3 {
      assert QuarterOf(m) == 1;
      QuarterMonthTableCases("Q1");
      assert m == 1 || m == 2 || m == 3;
    } else if m <= 6 {
      assert QuarterOf(m) == 2;
      QuarterMonthTableCases("Q2");
      assert m == 4 || m == 5 || m == 6;
    } else if m <= 9 {
      assert QuarterOf(m) == 3;
      QuarterMonthTableCases("Q3");
      assert m == 7 || m == 8 || m == 9;
    } else {
      assert QuarterOf(m) == 4;
      QuarterMonthTableCases("Q4");
      assert m == 10 || m == 11 || m == 12;
    }
  }

  lemma LabelOfQuarter(m: int)
    requires 1 <= m <= 12
    ensures QuarterLabel(QuarterOf(m)) == SmallLabel(QuarterOf(m))
  {
    SmallQuarterLabels();
  }

  /** The labels of the four quarters, written out. */
  function SmallLabel(k: int): string {
    if k == 1 then "Q1" else if k == 2 then "Q2" else if k == 3 then "Q3" else "Q4"
  }

  /** `getQuarterMonths(q)` as intended: the months of the quarter labelled
      `q`, and none for any other text. */
  function QuarterMonths(q: string): (r: seq<int>)
    ensures forall m :: m in r <==> 1 <= m <= 12 && q == QuarterLabel(QuarterOf(m))
  {
    var r := OwnValue(QuarterMonthTable, q).GetOr([]);
    assert forall m :: m in r <==> 1 <= m <= 12 && q == QuarterLabel(QuarterOf(m)) by {
      forall m
        ensures m in r <==> 1 <= m <= 12 && q == QuarterLabel(QuarterOf(m))
      {
        QuarterMonthsMembership(q, m);
      }
    }
    r
  }

  // ---------------------------------------------------------------------
  // Calendar order of month names
  // ---------------------------------------------------------------------

  /** `xs.indexOf(x)`: the first position of `x`, or -1. */
  function IndexOf(xs: seq<string>, x: string): (r: int)
    ensures -1 <= r < |xs|
    ensures r == -1 <==> x !in xs
    ensures r >= 0 ==> xs[r] == x && x !in xs[..r]
  {
    if |xs| == 0 then -1
    else if xs[0] == x then 0
    else
      var r := IndexOf(xs[1..], x);
      if r == -1 then -1
      else
        assert xs[..r + 1] == [xs[0]] + xs[1..][..r];
        r + 1
  }

  /** `monthOrder.indexOf(name)`: 0 for "january" up to 11 for
      "december", -1 for anything else (abbreviations included). */
  function MonthOrderIndex(name: string): int {
    IndexOf(MonthOrder, name)
  }

  lemma FullNamesInMonthTable()
    ensures forall j :: 0 <= j < 12 ==> MonthTable[QuarterToMonthIndex[j]] == (MonthOrder[j], j + 1)
  {
  }

  lemma MonthOrderEntry(r: int)
    requires 0 <= r < 12
    ensures 0 <= QuarterToMonthIndex[r] < |MonthTable|
    ensures MonthTable[QuarterToMonthIndex[r]] == (MonthOrder[r], r + 1)
  {
    FullNamesInMonthTable();
  }

  /** The calendar order agrees with `getMonthNumber`: a full month name
      at position r of the order is month r + 1. */
  lemma MonthOrderAgreesWithMonthNumber(name: string)
    requires MonthOrderIndex(name) >= 0
    ensures MonthNumber(MonthText(name)) == MonthOrderIndex(name) + 1
  {
    var r := MonthOrderIndex(name);
    assert MonthOrder[r] == name;
    MonthOrderEntry(r);
    var j := QuarterToMonthIndex[r];
    MonthKeyIsNormal(j);
    assert name <= name;
    MonthNumberByKey(name, j);
  }
}

=== FILE: performance.dfy ===
/**
 * Performance statistics: one measured value per project and month, averaged
 * per quarter. Two read paths share the records: the dashboard (every
 * project, each year seeded with the quarters Q1 to Q4, each quarter's months
 * put in calendar order) and the summary of one project (quarters as they
 * occur, the overall average, the latest year and the latest quarter).
 */
module Performance {
  import opened Wrappers
  import opened JsValues
  import opened Months
  import opened Facts
  import opened Sorting
  import opened Lists
  import opened Grouping

  /** A `performance_statistics` row joined with its project's name. The
      value is a FLOAT column, taken here as an exact real. */
  datatype PerfRecord = PerfRecord(
    projectId: Option<int>,
    projectName: Option<string>,
    year: int,
    quarter: string,
    month: string,
    value: real)

  function YearOf(r: PerfRecord): int { r.year }

  function QuarterOfRecord(r: PerfRecord): string { r.quarter }

  // ---------------------------------------------------------------------
  // Sums and averages
  // ---------------------------------------------------------------------

  /** `values.reduce((a, b) => a + b, 0)`. */
  function Total(rs: seq<PerfRecord>): real {
    if |rs| == 0 then 0.0 else Total(rs[..|rs| - 1]) + rs[|rs| - 1].value
  }

  lemma {:induction false} TotalAppend(a: seq<PerfRecord>, b: seq<PerfRecord>)
    ensures Total(a + b) == Total(a) + Total(b)
    decreases |b|
  {
    if |b| == 0 {
      assert a + b == a;
    } else {
      assert (a + b)[..|a + b| - 1] == a + b[..|b| - 1];
      TotalAppend(a, b[..|b| - 1]);
    }
  }

  lemma {:induction false} TotalRemove(b: seq<PerfRecord>, i: int)
    requires 0 <= i < |b|
    ensures Total(b) == Total(b[..i] + b[i + 1..]) + b[i].value
  {
    var a, x, c := b[..i], b[i], b[i + 1..];
    assert b == a + [x] + c;
    TotalAppend(a + [x], c);
    TotalAppend(a, [x]);
    TotalAppend(a, c);
    assert Total([x]) == x.value by {
      assert [x][..0] == [];
    }
  }

  lemma {:induction false} MultisetRemove(b: seq<PerfRecord>, i: int)
    requires 0 <= i < |b|
    ensures multiset(b[..i] + b[i + 1..]) == multiset(b) - multiset{b[i]}
  {
    assert b == b[..i] + [b[i]] + b[i + 1..];
  }

  /** The sum does not depend on the order of the values, so sorting a
      quarter's months before averaging leaves its average as it is. */
  lemma {:induction false} TotalPermutation(a: seq<PerfRecord>, b: seq<PerfRecord>)
    requires multiset(a) == multiset(b)
    ensures Total(a) == Total(b)
    decreases |a|
  {
    if |a| == 0 {
      assert |b| == |multiset(b)| == 0;
    } else {
      var x := a[|a| - 1];
      var a' := a[..|a| - 1];
      assert a == a' + [x];
      assert x in multiset(b);
      var i :| 0 <= i < |b| && b[i] == x;
      var rest := b[..i] + b[i + 1..];
      MultisetRemove(b, i);
      assert multiset(a') == multiset(rest);
      TotalPermutation(a', rest);
      TotalRemove(b, i);
    }
  }

  /** `sum / values.length`, exactly. */
  function Mean(rs: seq<PerfRecord>): real
    requires |rs| > 0
  {
    Total(rs) / (|rs| as real)
  }

  /** `avg` is the average of `rs`: times their number, it gives their
      sum. */
  predicate AverageOf(avg: real, rs: seq<PerfRecord>) {
    avg * (|rs| as real) == Total(rs)
  }

  lemma MeanTimesCount(rs: seq<PerfRecord>)
    requires |rs| > 0
    ensures AverageOf(Mean(rs), rs)
  {
  }

  lemma {:induction false} TotalBounds(rs: seq<PerfRecord>, lo: real, hi: real)
    requires forall i :: 0 <= i < |rs| ==> lo <= rs[i].value <= hi
    ensures lo * (|rs| as real) <= Total(rs) <= hi * (|rs| as real)
    decreases |rs|
  {
    if |rs| > 0 {
      TotalBounds(rs[..|rs| - 1], lo, hi);
    }
  }

  /** An average lies between the smallest and the largest value averaged. */
  lemma MeanBounds(rs: seq<PerfRecord>, lo: real, hi: real)
    requires |rs| > 0
    requires forall i :: 0 <= i < |rs| ==> lo <= rs[i].value <= hi
    ensures lo <= Mean(rs) <= hi
  {
    TotalBounds(rs, lo, hi);
  }

  /** The average does not depend on the order of the records. */
  lemma MeanPermutation(a: seq<PerfRecord>, b: seq<PerfRecord>)
    requires |a| > 0
    requires multiset(a) == multiset(b)
    ensures |b| > 0
    ensures Mean(a) == Mean(b)
  {
    assert |a| == |multiset(a)| == |multiset(b)| == |b|;
    TotalPermutation(a, b);
  }

  function MonthsOf(rs: seq<PerfRecord>): seq<string> {
    seq(|rs|, i requires 0 <= i < |rs| => rs[i].month)
  }

  function ValuesOf(rs: seq<PerfRecord>): seq<real> {
    seq(|rs|, i requires 0 <= i < |rs| => rs[i].value)
  }

  // ---------------------------------------------------------------------
  // Where a record belongs
  // ---------------------------------------------------------------------

  /** `record.project_id || 'unassigned'`: a missing id and the id 0 both
      file the record under "unassigned". */
  datatype ProjectKey = ProjectNo(id: int) | Unassigned

  function ProjectKeyOf(r: PerfRecord): ProjectKey {
    if r.projectId.Some? && r.projectId.value != 0 then ProjectNo(r.projectId.value) else Unassigned
  }

  /** The records of one project, in input order. */
  function ProjectRecords(records: seq<PerfRecord>, key: ProjectKey): (rs: seq<PerfRecord>)
    ensures forall x :: multiset(rs)[x] == if ProjectKeyOf(x) == key then multiset(records)[x] else 0
  {
    Having(records, ProjectKeyOf, key)
  }

  /** The records of one project and year, in input order. */
  function YearRecords(records: seq<PerfRecord>, key: ProjectKey, year: int): (rs: seq<PerfRecord>)
    ensures forall x ::
      multiset(rs)[x] == (if ProjectKeyOf(x) == key && x.year == year then multiset(records)[x] else 0)
  {
    Having(ProjectRecords(records, key), YearOf, year)
  }

  /** The records of one project, year and quarter, in input order. */
  function Cell(records: seq<PerfRecord>, key: ProjectKey, year: int, quarter: string): (rs: seq<PerfRecord>)
    ensures forall x ::
      multiset(rs)[x] == (if ProjectKeyOf(x) == key && x.year == year && x.quarter == quarter then multiset(records)[x] else 0)
  {
    Having(YearRecords(records, key, year), QuarterOfRecord, quarter)
  }

  // ---------------------------------------------------------------------
  // The dashboard (server.js:1441-1508)
  // ---------------------------------------------------------------------

  /** The quarters every year of the dashboard starts with. */
  const QuarterSlots: seq<string> := ["Q1", "Q2", "Q3", "Q4"]

  /** `quarters[quarter]` on the seeded literal is undefined for any other
      label, and an inherited member for a prototype name; either way the
      `push` that follows throws. */
  predicate OutsideSlots(r: PerfRecord) {
    r.quarter !in QuarterSlots
  }

  function SlotError(quarter: string): string {
    if quarter in PrototypeNames then "Cannot read properties of undefined (reading 'push')"
    else "Cannot read properties of undefined (reading 'months')"
  }

  /** Months sort by `monthOrder.indexOf(month.toLowerCase())`; a name that
      is not a full English month name ranks -1, ahead of January. */
  function CalendarRank(r: PerfRecord): Rank {
    Rank(MonthOrderIndex(Lower(r.month)), 0)
  }

  /** One entry of a year's `allMonths`. */
  datatype MonthPoint = MonthPoint(month: string, quarter: string, value: real)

  function Points(rs: seq<PerfRecord>): seq<MonthPoint> {
    seq(|rs|, i requires 0 <= i < |rs| => MonthPoint(rs[i].month, rs[i].quarter, rs[i].value))
  }

  /** A dashboard quarter: months and values side by side, their average,
      and a count that is only set once the quarter has a value. */
  datatype QuarterAverage = QuarterAverage(months: seq<string>, values: seq<real>, average: real, count: Option<nat>)

  function DashboardQuarter(rs: seq<PerfRecord>): QuarterAverage {
    if |rs| == 0 then QuarterAverage([], [], 0.0, None)
    else
      var s := SortBy(rs, CalendarRank);
      QuarterAverage(MonthsOf(s), ValuesOf(s), Mean(s), Some(|s|))
  }

  /** What a dashboard quarter holds: nothing for a quarter without
      records; otherwise one month and one value per record, ordered by
      calendar position with ties in input order, the average of exactly
      those values, and their number. */
  lemma QuarterAverageMeaning(rs: seq<PerfRecord>)
    ensures |rs| == 0 ==> DashboardQuarter(rs) == QuarterAverage([], [], 0.0, None)
    ensures |rs| > 0 ==>
      var q := DashboardQuarter(rs);
      var s := SortBy(rs, CalendarRank);
      && q.count == Some(|rs|)
      && q.average == Mean(rs)
      && |q.months| == |q.values| == |rs|
      && (forall t :: 0 <= t < |rs| ==> q.months[t] == s[t].month && q.values[t] == s[t].value)
      && multiset(s) == multiset(rs)
      && Sorted(s, CalendarRank)
      && (forall k :: Matching(s, CalendarRank, k) == Matching(rs, CalendarRank, k))
  {
    if |rs| > 0 {
      var s := SortBy(rs, CalendarRank);
      SortByPermutes(rs, CalendarRank);
      SortBySorted(rs, CalendarRank);
      forall k
        ensures Matching(s, CalendarRank, k) == Matching(rs, CalendarRank, k)
      {
        SortByStable(rs, CalendarRank, k);
      }
      MeanPermutation(s, rs);
    }
  }

  datatype DashboardYear = DashboardYear(year: int, quarters: seq<QuarterAverage>, allMonths: seq<MonthPoint>)

  datatype DashboardProject = DashboardProject(
    key: ProjectKey,
    projectId: Option<int>,
    projectName: string,
    years: seq<DashboardYear>)

  function DashboardYearOf(year: int, rs: seq<PerfRecord>): DashboardYear {
    DashboardYear(
      year,
      seq(4, k requires 0 <= k < 4 => DashboardQuarter(Having(rs, QuarterOfRecord, QuarterSlots[k]))),
      Points(rs))
  }

  /** A project entry takes its id and name from the first record filed
      under it. */
  function DashboardProjectOf(key: ProjectKey, rs: seq<PerfRecord>): DashboardProject
    requires |rs| > 0
  {
    var ys := GroupBy(rs, YearOf);
    DashboardProject(
      key,
      rs[0].projectId,
      if Truthy(rs[0].projectName) then rs[0].projectName.value else "Unassigned",
      seq(|ys|, j requires 0 <= j < |ys| => DashboardYearOf(ys[j].0, ys[j].1)))
  }

  /** `GET /api/performance-statistics/dashboard` after the query: a 500
      naming the quarter of the first record whose quarter is outside Q1
      to Q4, otherwise one
      entry per project in the order projects are first met. */
  function Dashboard(records: seq<PerfRecord>): (r: Result<seq<DashboardProject>, Refusal>)
    ensures r.Failure? <==> exists i :: 0 <= i < |records| && records[i].quarter !in QuarterSlots
    ensures r.Failure? ==>
      exists i :: 0 <= i < |records| && records[i].quarter !in QuarterSlots
        && (forall j :: 0 <= j < i ==> records[j].quarter in QuarterSlots)
        && r.error == ServerError(SlotError(records[i].quarter))
    ensures r.Success? ==> forall i, j :: 0 <= i < j < |r.value| ==> r.value[i].key != r.value[j].key
  {
    var bad := FirstWhere(records, OutsideSlots);
    if bad >= 0 then Failure(ServerError(SlotError(records[bad].quarter)))
    else Success(DashboardEntries(records))
  }

  /** One entry per project, in the order projects are first met. */
  function DashboardEntries(records: seq<PerfRecord>): (ps: seq<DashboardProject>)
    ensures forall i, j :: 0 <= i < j < |ps| ==> ps[i].key != ps[j].key
  {
    var gs := GroupBy(records, ProjectKeyOf);
    seq(|gs|, i requires 0 <= i < |gs| => DashboardProjectOf(gs[i].0, gs[i].1))
  }

  /** Entry `i` is built from the records of its project. */
  lemma DashboardEntry(records: seq<PerfRecord>, i: int)
    requires 0 <= i < |DashboardEntries(records)|
    ensures |ProjectRecords(records, DashboardEntries(records)[i].key)| > 0
    ensures DashboardEntries(records)[i] ==
      DashboardProjectOf(DashboardEntries(records)[i].key, ProjectRecords(records, DashboardEntries(records)[i].key))
  {
    var gs := GroupBy(records, ProjectKeyOf);
    assert gs[i].1 == Having(records, ProjectKeyOf, gs[i].0) && |gs[i].1| > 0;
  }

  /** Year `j` of a project entry is built from the records of that
      year. */
  lemma DashboardYearEntry(key: ProjectKey, rs: seq<PerfRecord>, j: int)
    requires |rs| > 0
    requires 0 <= j < |DashboardProjectOf(key, rs).years|
    ensures |Having(rs, YearOf, DashboardProjectOf(key, rs).years[j].year)| > 0
    ensures DashboardProjectOf(key, rs).years[j] ==
      DashboardYearOf(DashboardProjectOf(key, rs).years[j].year, Having(rs, YearOf, DashboardProjectOf(key, rs).years[j].year))
    ensures forall j' :: 0 <= j' < |DashboardProjectOf(key, rs).years| && j' != j ==>
      DashboardProjectOf(key, rs).years[j'].year != DashboardProjectOf(key, rs).years[j].year
  {
    var ys := GroupBy(rs, YearOf);
    assert ys[j].1 == Having(rs, YearOf, ys[j].0) && |ys[j].1| > 0;
  }

  /** Every record shows up under its project, and every project shown has
      records; the entry's id and name are those of its first record, the
      name falling back to "Unassigned". */
  lemma DashboardProjects(records: seq<PerfRecord>)
    requires Dashboard(records).Success?
    ensures var ps := Dashboard(records).value;
      && (forall x :: x in records ==> exists i :: 0 <= i < |ps| && ps[i].key == ProjectKeyOf(x))
      && (forall i :: 0 <= i < |ps| ==>
            var rs := ProjectRecords(records, ps[i].key);
            && |rs| > 0
            && ps[i].projectId == rs[0].projectId
            && ps[i].projectName == (if Truthy(rs[0].projectName) then rs[0].projectName.value else "Unassigned"))
  {
    var ps := DashboardEntries(records);
    var gs := GroupBy(records, ProjectKeyOf);
    assert |ps| == |gs|;
    forall x | x in records
      ensures exists i :: 0 <= i < |ps| && ps[i].key == ProjectKeyOf(x)
    {
      GroupByPartitions(records, ProjectKeyOf, x);
      var i := GroupIndex(gs, ProjectKeyOf(x));
      assert ps[i].key == gs[i].0;
    }
    forall i | 0 <= i < |ps|
      ensures var rs := ProjectRecords(records, ps[i].key);
        && |rs| > 0
        && ps[i].projectId == rs[0].projectId
        && ps[i].projectName == (if Truthy(rs[0].projectName) then rs[0].projectName.value else "Unassigned")
    {
      DashboardEntry(records, i);
    }
  }

  /** The years of a project are the years of its records, each once; a
      year's `allMonths` lists that project's records of the year in input
      order, and its four quarters are built from exactly the records of
      the quarter. */
  lemma DashboardCell(records: seq<PerfRecord>, i: int, j: int)
    requires Dashboard(records).Success?
    requires 0 <= i < |Dashboard(records).value|
    requires 0 <= j < |Dashboard(records).value[i].years|
    ensures var p := Dashboard(records).value[i];
      var y := p.years[j];
      && |YearRecords(records, p.key, y.year)| > 0
      && (forall j' :: 0 <= j' < |p.years| && j' != j ==> p.years[j'].year != y.year)
      && y.allMonths == Points(YearRecords(records, p.key, y.year))
      && |y.quarters| == 4
      && (forall k :: 0 <= k < 4 ==> y.quarters[k] == DashboardQuarter(Cell(records, p.key, y.year, QuarterSlots[k])))
  {
    var p := DashboardEntries(records)[i];
    DashboardEntry(records, i);
    var rs := ProjectRecords(records, p.key);
    DashboardYearEntry(p.key, rs, j);
    var y := p.years[j];
    var yr := YearRecords(records, p.key, y.year);
    assert y == DashboardYearOf(y.year, yr);
    forall k | 0 <= k < 4
      ensures y.quarters[k] == DashboardQuarter(Cell(records, p.key, y.year, QuarterSlots[k]))
    {
      assert Cell(records, p.key, y.year, QuarterSlots[k]) == Having(yr, QuarterOfRecord, QuarterSlots[k]);
    }
  }

  /** No record is lost to the seeded quarters: the quarter counts of a year
      add up to the number of its points. */
  lemma DashboardCounts(records: seq<PerfRecord>, i: int, j: int)
    requires Dashboard(records).Success?
    requires 0 <= i < |Dashboard(records).value|
    requires 0 <= j < |Dashboard(records).value[i].years|
    ensures var y := Dashboard(records).value[i].years[j];
      SumBy(y.quarters, CountOf) == |y.allMonths|
  {
    var p := DashboardEntries(records)[i];
    DashboardEntry(records, i);
    var ps := ProjectRecords(records, p.key);
    DashboardYearEntry(p.key, ps, j);
    var y := p.years[j];
    var rs := Having(ps, YearOf, y.year);
    forall x | x in rs
      ensures x.quarter in QuarterSlots
    {
      assert multiset(rs)[x] > 0;
      assert multiset(ps)[x] > 0;
      assert FirstWhere(records, OutsideSlots) < 0;
      assert x in records;
    }
    YearCounts(y, rs);
  }

  /** The four seeded quarters of a year hold all of its records when every
      record names one of them. */
  lemma YearCounts(y: DashboardYear, rs: seq<PerfRecord>)
    requires y == DashboardYearOf(y.year, rs)
    requires forall x :: x in rs ==> x.quarter in QuarterSlots
    ensures SumBy(y.quarters, CountOf) == |y.allMonths|
  {
    SlotsCoverYear(rs);
    var qs := y.quarters;
    var h0, h1, h2, h3 := Having(rs, QuarterOfRecord, QuarterSlots[0]), Having(rs, QuarterOfRecord, QuarterSlots[1]),
      Having(rs, QuarterOfRecord, QuarterSlots[2]), Having(rs, QuarterOfRecord, QuarterSlots[3]);
    assert CountOf(qs[0]) == |h0| by { QuarterCount(h0); }
    assert CountOf(qs[1]) == |h1| by { QuarterCount(h1); }
    assert CountOf(qs[2]) == |h2| by { QuarterCount(h2); }
    assert CountOf(qs[3]) == |h3| by { QuarterCount(h3); }
    CountsOfFour(qs);
  }

  lemma CountsOfFour(qs: seq<QuarterAverage>)
    requires |qs| == 4
    ensures SumBy(qs, CountOf) == CountOf(qs[0]) + CountOf(qs[1]) + CountOf(qs[2]) + CountOf(qs[3])
  {
    SumOfFour(qs, CountOf);
  }

  lemma SumOfFour<T>(s: seq<T>, f: T -> int)
    requires |s| == 4
    ensures SumBy(s, f) == f(s[0]) + f(s[1]) + f(s[2]) + f(s[3])
  {
    var c := s[..3];
    var b := c[..2];
    var a := b[..1];
    assert SumBy(a, f) == f(s[0]) by {
      assert a[..0] == [];
    }
    assert SumBy(b, f) == SumBy(a, f) + f(s[1]) by {
      assert b[..1] == a;
    }
    assert SumBy(c, f) == SumBy(b, f) + f(s[2]) by {
      assert c[..2] == b;
    }
    assert s[..3] == c;
  }

  function CountOf(q: QuarterAverage): int {
    q.count.GetOr(0)
  }

  lemma QuarterCount(rs: seq<PerfRecord>)
    ensures CountOf(DashboardQuarter(rs)) == |rs|
  {
  }

  lemma {:induction false} SlotsCoverYear(rs: seq<PerfRecord>)
    requires forall x :: x in rs ==> x.quarter in QuarterSlots
    ensures |Having(rs, QuarterOfRecord, QuarterSlots[0])| + |Having(rs, QuarterOfRecord, QuarterSlots[1])|
      + |Having(rs, QuarterOfRecord, QuarterSlots[2])| + |Having(rs, QuarterOfRecord, QuarterSlots[3])| == |rs|
    decreases |rs|
  {
    if |rs| > 0 {
      var init := rs[..|rs| - 1];
      var x := rs[|rs| - 1];
      assert rs == init + [x];
      assert x in rs;
      SlotsCoverYear(init);
      HavingSnoc(init, x, QuarterOfRecord, QuarterSlots[0]);
      HavingSnoc(init, x, QuarterOfRecord, QuarterSlots[1]);
      HavingSnoc(init, x, QuarterOfRecord, QuarterSlots[2]);
      HavingSnoc(init, x, QuarterOfRecord, QuarterSlots[3]);
    }
  }

  // ---------------------------------------------------------------------
  // The latest year and quarter of one project (server.js:1674-1682)
  // ---------------------------------------------------------------------

  /** `Math.max(...records.map(r => r.year))`. */
  function LatestYear(rs: seq<PerfRecord>): (y: int)
    requires |rs| > 0
    ensures exists i :: 0 <= i < |rs| && rs[i].year == y
    ensures forall i :: 0 <= i < |rs| ==> rs[i].year <= y
  {
    if |rs| == 1 then rs[0].year
    else
      var m := LatestYear(rs[..|rs| - 1]);
      assert forall i :: 0 <= i < |rs| - 1 ==> rs[..|rs| - 1][i] == rs[i];
      if rs[|rs| - 1].year > m then rs[|rs| - 1].year else m
  }

  predicate IsQ(c: char) {
    c == 'Q'
  }

  /** `label.replace('Q', '')`: the first 'Q' taken out, the rest kept. */
  function DropFirstQ(s: string): string {
    var i := FirstWhere(s, IsQ);
    if i < 0 then s else s[..i] + s[i + 1..]
  }

  /** The number a quarter label stands for, `parseInt(label.replace('Q',
      ''))`; `None` stands for `NaN`. */
  function QuarterNumber(q: string): Option<int> {
    ParseInt(DropFirstQ(q))
  }

  predicate Positive(q: string) {
    QuarterNumber(q).Some? && QuarterNumber(q).value > 0
  }

  /** One step of the `reduce`, for a reading `number` of labels: `latest`
      starts as null, a label replaces it when its number is larger (a
      comparison with `NaN` is false), and a null or empty `latest` counts
      as 0. */
  function LatestStep(latest: Option<string>, q: string, number: string -> Option<int>): Option<string> {
    var latestNumber := if latest.Some? && latest.value != "" then number(latest.value) else Some(0);
    match number(q)
    case None => latest
    case Some(n) => if latestNumber.Some? && n > latestNumber.value then Some(q) else latest
  }

  function LatestBy(qs: seq<string>, number: string -> Option<int>): Option<string> {
    if |qs| == 0 then None else LatestStep(LatestBy(qs[..|qs| - 1], number), qs[|qs| - 1], number)
  }

  /** The `reduce` over the quarter labels of the latest year. */
  function LatestQuarter(qs: seq<string>): Option<string> {
    LatestBy(qs, QuarterNumber)
  }

  predicate PositiveBy(q: string, number: string -> Option<int>) {
    number(q).Some? && number(q).value > 0
  }

  /** Position `i` holds the first label with the largest number, and that
      number is positive. */
  predicate FirstHighest(qs: seq<string>, i: int, number: string -> Option<int>) {
    && 0 <= i < |qs|
    && PositiveBy(qs[i], number)
    && (forall j :: 0 <= j < |qs| && number(qs[j]).Some? ==> number(qs[j]).value <= number(qs[i]).value)
    && (forall j :: 0 <= j < i ==> number(qs[j]) != number(qs[i]))
  }

  /** A label with a larger number than the first highest so far becomes
      the first highest. */
  lemma TakesLead(qs: seq<string>, number: string -> Option<int>)
    requires |qs| > 0
    requires PositiveBy(qs[|qs| - 1], number)
    requires forall j :: 0 <= j < |qs| - 1 && number(qs[j]).Some? ==> number(qs[j]).value < number(qs[|qs| - 1]).value
    ensures FirstHighest(qs, |qs| - 1, number)
  {
  }

  /** A label with no larger number leaves the first highest where it is. */
  lemma KeepsLead(qs: seq<string>, i: int, number: string -> Option<int>)
    requires |qs| > 0
    requires FirstHighest(qs[..|qs| - 1], i, number)
    requires number(qs[|qs| - 1]).Some? ==> number(qs[|qs| - 1]).value <= number(qs[i]).value
    ensures FirstHighest(qs, i, number)
  {
    var init := qs[..|qs| - 1];
    assert forall j :: 0 <= j < |init| ==> init[j] == qs[j];
  }

  lemma {:induction false} LatestByIsFirstHighest(qs: seq<string>, number: string -> Option<int>)
    requires number("") == None
    ensures LatestBy(qs, number).None? <==> forall j :: 0 <= j < |qs| ==> !PositiveBy(qs[j], number)
    ensures LatestBy(qs, number).Some? ==> exists i :: FirstHighest(qs, i, number) && qs[i] == LatestBy(qs, number).value
    decreases |qs|
  {
    if |qs| > 0 {
      var init := qs[..|qs| - 1];
      var q := qs[|qs| - 1];
      LatestByIsFirstHighest(init, number);
      var prev := LatestBy(init, number);
      if prev.None? {
        assert forall j :: 0 <= j < |qs| - 1 ==> !PositiveBy(qs[j], number) by {
          assert forall j :: 0 <= j < |init| ==> init[j] == qs[j];
        }
        if PositiveBy(q, number) {
          TakesLead(qs, number);
        }
      } else {
        var i :| FirstHighest(init, i, number) && init[i] == prev.value;
        assert qs[i] == init[i];
        if PositiveBy(q, number) && number(q).value > number(prev.value).value {
          assert forall j :: 0 <= j < |init| ==> init[j] == qs[j];
          TakesLead(qs, number);
        } else {
          KeepsLead(qs, i, number);
        }
      }
    }
  }

  lemma EmptyLabelHasNoNumber()
    ensures QuarterNumber("") == None
  {
  }

  /** The latest quarter is the first label carrying the largest number,
      compared as numbers (so "Q10" is later than "Q9"); there is none
      exactly when no label carries a positive number. */
  lemma LatestQuarterIsFirstHighest(qs: seq<string>)
    ensures LatestQuarter(qs).None? <==> forall j :: 0 <= j < |qs| ==> !PositiveBy(qs[j], QuarterNumber)
    ensures LatestQuarter(qs).Some? ==>
      exists i :: FirstHighest(qs, i, QuarterNumber) && qs[i] == LatestQuarter(qs).value
  {
    EmptyLabelHasNoNumber();
    LatestByIsFirstHighest(qs, QuarterNumber);
  }

  // ---------------------------------------------------------------------
  // The summary of one project (server.js:1658-1740)
  // ---------------------------------------------------------------------

  /** A quarter of the summary: months and values in input order, their
      average and their number. */
  datatype SummaryQuarter = SummaryQuarter(quarter: string, months: seq<string>, values: seq<real>, average: real, count: nat)

  datatype SummaryYear = SummaryYear(year: int, quarters: seq<SummaryQuarter>)

  datatype Summary = Summary(
    totalDataPoints: nat,
    overallAverage: real,
    latestYear: int,
    latestQuarter: Option<string>,
    latestQuarterAverage: real,
    years: seq<SummaryYear>,
    allRecords: nat)

  function SummaryQuarterOf(q: string, rs: seq<PerfRecord>): SummaryQuarter
    requires |rs| > 0
  {
    SummaryQuarter(q, MonthsOf(rs), ValuesOf(rs), Mean(rs), |rs|)
  }

  function SummaryYearOf(y: int, rs: seq<PerfRecord>): SummaryYear {
    var qs := GroupBy(rs, QuarterOfRecord);
    SummaryYear(y, seq(|qs|, k requires 0 <= k < |qs| => SummaryQuarterOf(qs[k].0, qs[k].1)))
  }

  function QuartersOf(rs: seq<PerfRecord>): seq<string> {
    seq(|rs|, i requires 0 <= i < |rs| => rs[i].quarter)
  }

  /** The key the latest average is looked up under: a null latest quarter
      becomes the property name "null". */
  function LatestKey(latest: Option<string>): string {
    if latest.Some? then latest.value else "null"
  }

  /** `years[year].quarters[quarter]` on an empty literal finds an
      inherited member for a prototype name, so the `push` on its
      `months` throws. */
  predicate HasPrototypeQuarter(r: PerfRecord) {
    r.quarter in PrototypeNames
  }

  /** `GET /api/projects/:id/performance-statistics` after the query: no
      statistics for a project without records, a 500 when a quarter label
      is a prototype name, and otherwise the summary. */
  function ProjectSummary(records: seq<PerfRecord>): (r: Result<Option<Summary>, Refusal>)
    ensures (r.Success? && r.value.None?) <==> |records| == 0
    ensures r.Failure? <==> |records| > 0 && exists i :: 0 <= i < |records| && records[i].quarter in PrototypeNames
    ensures r.Failure? ==> r.error == ServerError("Cannot read properties of undefined (reading 'push')")
    ensures r.Success? && r.value.Some? ==> SummaryCounts(records, r.value.value)
  {
    if |records| == 0 then Success(None)
    else if FirstWhere(records, HasPrototypeQuarter) >= 0 then
      Failure(ServerError("Cannot read properties of undefined (reading 'push')"))
    else
      Success(Some(SummaryOf(records)))
  }

  /** The headline numbers of a summary: every record counted once, the
      overall average over all of them, the latest year the largest year
      any record has, and each year listed once. */
  predicate SummaryCounts(records: seq<PerfRecord>, s: Summary) {
    && s.totalDataPoints == s.allRecords == |records|
    && AverageOf(s.overallAverage, records)
    && (exists i :: 0 <= i < |records| && records[i].year == s.latestYear)
    && (forall i :: 0 <= i < |records| ==> records[i].year <= s.latestYear)
    && (forall i, j :: 0 <= i < j < |s.years| ==> s.years[i].year != s.years[j].year)
  }

  function SummaryOf(records: seq<PerfRecord>): (s: Summary)
    requires |records| > 0
    ensures SummaryCounts(records, s)
  {
    var latestYear := LatestYear(records);
    var inLatest := Having(records, YearOf, latestYear);
    var latest := LatestQuarter(QuartersOf(inLatest));
    MeanTimesCount(records);
    Summary(|records|, Mean(records), latestYear, latest, LatestAverage(inLatest, latest), SummaryYears(records), |records|)
  }

  /** `years[latestYear].quarters[latestQuarter].average`, or 0 when the
      latest year has no quarter under that key. */
  function LatestAverage(inLatest: seq<PerfRecord>, latest: Option<string>): real {
    var cell := Having(inLatest, QuarterOfRecord, LatestKey(latest));
    if |cell| > 0 then Mean(cell) else 0.0
  }

  /** One entry per year, in the order years are first met. */
  function SummaryYears(records: seq<PerfRecord>): (ys: seq<SummaryYear>)
    ensures forall i, j :: 0 <= i < j < |ys| ==> ys[i].year != ys[j].year
  {
    var gs := GroupBy(records, YearOf);
    seq(|gs|, j requires 0 <= j < |gs| => SummaryYearOf(gs[j].0, gs[j].1))
  }

  /** The records of one year and quarter, in input order. */
  function PeriodRecords(records: seq<PerfRecord>, year: int, quarter: string): (rs: seq<PerfRecord>)
    ensures forall x ::
      multiset(rs)[x] == (if x.year == year && x.quarter == quarter then multiset(records)[x] else 0)
  {
    Having(Having(records, YearOf, year), QuarterOfRecord, quarter)
  }

  lemma SummaryYearEntry(records: seq<PerfRecord>, j: int)
    requires 0 <= j < |SummaryYears(records)|
    ensures |Having(records, YearOf, SummaryYears(records)[j].year)| > 0
    ensures SummaryYears(records)[j] ==
      SummaryYearOf(SummaryYears(records)[j].year, Having(records, YearOf, SummaryYears(records)[j].year))
  {
    var gs := GroupBy(records, YearOf);
    assert gs[j].1 == Having(records, YearOf, gs[j].0) && |gs[j].1| > 0;
  }

  lemma SummaryQuarterEntry(y: int, rs: seq<PerfRecord>, k: int)
    requires 0 <= k < |SummaryYearOf(y, rs).quarters|
    ensures |Having(rs, QuarterOfRecord, SummaryYearOf(y, rs).quarters[k].quarter)| > 0
    ensures SummaryYearOf(y, rs).quarters[k] ==
      SummaryQuarterOf(SummaryYearOf(y, rs).quarters[k].quarter, Having(rs, QuarterOfRecord, SummaryYearOf(y, rs).quarters[k].quarter))
    ensures forall k' :: 0 <= k' < |SummaryYearOf(y, rs).quarters| && k' != k ==>
      SummaryYearOf(y, rs).quarters[k'].quarter != SummaryYearOf(y, rs).quarters[k].quarter
  {
    var gs := GroupBy(rs, QuarterOfRecord);
    assert gs[k].1 == Having(rs, QuarterOfRecord, gs[k].0) && |gs[k].1| > 0;
  }

  /** Each quarter of a year appears once in the summary, holding the
      months and values of exactly the records of that year and quarter in
      input order, their number and their average. */
  lemma SummaryQuarters(records: seq<PerfRecord>, j: int, k: int)
    requires ProjectSummary(records).Success? && ProjectSummary(records).value.Some?
    requires 0 <= j < |ProjectSummary(records).value.value.years|
    requires 0 <= k < |ProjectSummary(records).value.value.years[j].quarters|
    ensures var y := ProjectSummary(records).value.value.years[j];
      var q := y.quarters[k];
      var rs := PeriodRecords(records, y.year, q.quarter);
      && |rs| > 0
      && q.count == |rs|
      && q.months == MonthsOf(rs)
      && q.values == ValuesOf(rs)
      && AverageOf(q.average, rs)
      && (forall k' :: 0 <= k' < |y.quarters| && k' != k ==> y.quarters[k'].quarter != q.quarter)
  {
    var y := SummaryYears(records)[j];
    SummaryYearEntry(records, j);
    var yr := Having(records, YearOf, y.year);
    SummaryQuarterEntry(y.year, yr, k);
    MeanTimesCount(PeriodRecords(records, y.year, y.quarters[k].quarter));
  }

  /** The latest quarter, read among the records of the latest year: the
      first label carrying the largest number, or none when no label there
      carries a positive number. */
  lemma SummaryLatestQuarter(records: seq<PerfRecord>)
    requires ProjectSummary(records).Success? && ProjectSummary(records).value.Some?
    ensures var s := ProjectSummary(records).value.value;
      var qs := QuartersOf(Having(records, YearOf, s.latestYear));
      && (s.latestQuarter.None? <==> forall j :: 0 <= j < |qs| ==> !PositiveBy(qs[j], QuarterNumber))
      && (s.latestQuarter.Some? ==> exists i :: FirstHighest(qs, i, QuarterNumber) && qs[i] == s.latestQuarter.value)
  {
    var s := ProjectSummary(records).value.value;
    LatestQuarterIsFirstHighest(QuartersOf(Having(records, YearOf, s.latestYear)));
  }

  /** The latest quarter's average is looked up in the summary itself: the
      average of the entry of the latest year under the latest quarter's
      label ("null" when there is no latest quarter), and 0 when that year
      has no such entry. */
  lemma SummaryLatestAverage(records: seq<PerfRecord>)
    requires ProjectSummary(records).Success? && ProjectSummary(records).value.Some?
    ensures var s := ProjectSummary(records).value.value;
      var key := LatestKey(s.latestQuarter);
      && (|PeriodRecords(records, s.latestYear, key)| == 0 ==> s.latestQuarterAverage == 0.0)
      && (|PeriodRecords(records, s.latestYear, key)| > 0 ==>
            exists j, k :: 0 <= j < |s.years| && 0 <= k < |s.years[j].quarters|
              && s.years[j].year == s.latestYear && s.years[j].quarters[k].quarter == key
              && s.years[j].quarters[k].average == s.latestQuarterAverage)
  {
    var s := ProjectSummary(records).value.value;
    assert s == SummaryOf(records);
    var key := LatestKey(s.latestQuarter);
    var cell := PeriodRecords(records, s.latestYear, key);
    if |cell| > 0 {
      var j, k := CellListed(records, s.latestYear, key);
    }
  }

  /** Every year and quarter some record has is listed in the summary's
      years, with the mean of exactly those records. */
  lemma CellListed(records: seq<PerfRecord>, y: int, key: string) returns (j: int, k: int)
    requires |PeriodRecords(records, y, key)| > 0
    ensures 0 <= j < |SummaryYears(records)| && 0 <= k < |SummaryYears(records)[j].quarters|
    ensures SummaryYears(records)[j].year == y && SummaryYears(records)[j].quarters[k].quarter == key
    ensures SummaryYears(records)[j].quarters[k].average == Mean(PeriodRecords(records, y, key))
  {
    var yr := Having(records, YearOf, y);
    j := GroupOf(records, YearOf, y);
    assert SummaryYears(records)[j] == SummaryYearOf(y, yr);
    k := GroupOf(yr, QuarterOfRecord, key);
  }

}

=== FILE: portfolio.dfy ===
/**
 * Portfolio statistics: the performance values of every project of a
 * portfolio, summed and counted per year, per seeded quarter Q1 to Q4 and
 * per month name, with averages; portfolios without any value are dropped
 * and the rest come out in ascending id order.
 */
module Portfolio {
  import opened Wrappers
  import opened JsValues
  import opened Months
  import opened Facts
  import opened Sorting
  import opened Lists
  import opened Grouping
  import opened Performance

  /** A `portfolios` row with the number of its projects. Ids are
      auto-increment keys, so they are non-negative. */
  datatype PortfolioRow = PortfolioRow(id: nat, name: string, description: Option<string>, projectCount: nat)

  /** A performance record tagged with the portfolio of its project. */
  datatype PortfolioStat = PortfolioStat(portfolioId: nat, record: PerfRecord)

  /** One month of a quarter, as the month list of the response shows it. */
  datatype MonthAverage = MonthAverage(month: string, average: real, count: nat)

  datatype PortfolioQuarter = PortfolioQuarter(months: seq<MonthAverage>, count: nat, sum: real, average: real)

  datatype PortfolioYear = PortfolioYear(year: int, quarters: seq<PortfolioQuarter>)

  datatype PortfolioEntry = PortfolioEntry(
    id: nat,
    name: string,
    description: Option<string>,
    projectCount: nat,
    totalDataPoints: nat,
    years: seq<PortfolioYear>)

  // ---------------------------------------------------------------------
  // Month buckets of one quarter
  // ---------------------------------------------------------------------

  /** The bucket a record goes to: its month name lower-cased. */
  function MonthKey(r: PerfRecord): string {
    Lower(r.month)
  }

  function MonthAverageOf(name: string, rs: seq<PerfRecord>): MonthAverage
    requires |rs| > 0
  {
    MonthAverage(name, Mean(rs), |rs|)
  }

  /** One bucket per month name, in the order names are first met. */
  function MonthBuckets(rs: seq<PerfRecord>): seq<MonthAverage> {
    var gs := GroupBy(rs, MonthKey);
    seq(|gs|, i requires 0 <= i < |gs| => MonthAverageOf(gs[i].0, gs[i].1))
  }

  /** Month entries sort by `monthOrder.indexOf(month)`. */
  function CalendarOrder(m: MonthAverage): Rank {
    Rank(MonthOrderIndex(m.month), 0)
  }

  function Count(m: MonthAverage): int {
    m.count
  }

  /** `quarterData.months[month]` on an empty literal: for a prototype name
      the lookup finds the inherited member, so no bucket is opened and the
      `sum`/`count` updates land on that member instead. */
  predicate OwnMonth(r: PerfRecord) {
    MonthKey(r) !in PrototypeNames
  }

  /** A quarter as the handler builds it: the quarter counts every record,
      but a record whose month is a prototype name reaches no month
      bucket. */
  function QuarterAsWritten(rs: seq<PerfRecord>): PortfolioQuarter {
    if |rs| == 0 then PortfolioQuarter([], 0, 0.0, 0.0)
    else PortfolioQuarter(SortBy(MonthBuckets(Select(rs, OwnMonth)), CalendarOrder), |rs|, Total(rs), Mean(rs))
  }

  /** A quarter with a bucket for every month name met. */
  function PortfolioQuarterOf(rs: seq<PerfRecord>): PortfolioQuarter {
    if |rs| == 0 then PortfolioQuarter([], 0, 0.0, 0.0)
    else PortfolioQuarter(SortBy(MonthBuckets(rs), CalendarOrder), |rs|, Total(rs), Mean(rs))
  }

  lemma {:induction false} BucketCounts(gs: seq<(string, seq<PerfRecord>)>)
    requires forall i :: 0 <= i < |gs| ==> |gs[i].1| > 0
    ensures SumBy(seq(|gs|, i requires 0 <= i < |gs| => MonthAverageOf(gs[i].0, gs[i].1)), Count) == Sizes(gs)
    decreases |gs|
  {
    if |gs| > 0 {
      var init := gs[..|gs| - 1];
      var whole := seq(|gs|, i requires 0 <= i < |gs| => MonthAverageOf(gs[i].0, gs[i].1));
      var part := seq(|init|, i requires 0 <= i < |init| => MonthAverageOf(init[i].0, init[i].1));
      assert whole[..|gs| - 1] == part;
      BucketCounts(init);
    }
  }

  /** The month counts of a corrected quarter add up to the quarter's
      count: every record is in exactly one month bucket. */
  lemma MonthCountsAddUp(rs: seq<PerfRecord>)
    ensures SumBy(PortfolioQuarterOf(rs).months, Count) == PortfolioQuarterOf(rs).count
  {
    if |rs| > 0 {
      var bs := MonthBuckets(rs);
      SortByPermutes(bs, CalendarOrder);
      SumByPermutation(SortBy(bs, CalendarOrder), bs, Count);
      BucketCounts(GroupBy(rs, MonthKey));
      GroupBySizes(rs, MonthKey);
    }
  }

  /** As written, the month counts fall short of the quarter's count by the
      records whose lower-cased month is a prototype name: "constructor"
      or "__proto__" (`Months.PrototypeLeakOnlyForTwoWords`). */
  lemma MonthCountsAsWritten(rs: seq<PerfRecord>)
    ensures SumBy(QuarterAsWritten(rs).months, Count) == QuarterAsWritten(rs).count - (|rs| - |Select(rs, OwnMonth)|)
  {
    if |rs| > 0 {
      var own := Select(rs, OwnMonth);
      var bs := MonthBuckets(own);
      SortByPermutes(bs, CalendarOrder);
      SumByPermutation(SortBy(bs, CalendarOrder), bs, Count);
      BucketCounts(GroupBy(own, MonthKey));
      GroupBySizes(own, MonthKey);
    }
  }

  /** The discrepancy on a concrete shape of input: a quarter whose only
      records have a prototype name as month (a month called "constructor",
      say) reports a positive count and an empty month list. */
  lemma PrototypeMonthsVanish(rs: seq<PerfRecord>)
    requires |rs| > 0
    requires forall i :: 0 <= i < |rs| ==> MonthKey(rs[i]) in PrototypeNames
    ensures QuarterAsWritten(rs).count == |rs| > 0
    ensures QuarterAsWritten(rs).months == []
  {
    var own := Select(rs, OwnMonth);
    assert forall i :: 0 <= i < |own| ==> own[i] in own;
    assert |own| == 0;
  }

  /** The two agree exactly when no month is a prototype name. */
  lemma QuarterAsWrittenAgrees(rs: seq<PerfRecord>)
    ensures QuarterAsWritten(rs) == PortfolioQuarterOf(rs) <==> forall i :: 0 <= i < |rs| ==> OwnMonth(rs[i])
  {
    if forall i :: 0 <= i < |rs| ==> OwnMonth(rs[i]) {
      SelectAll(rs, OwnMonth);
    } else {
      var i :| 0 <= i < |rs| && !OwnMonth(rs[i]);
      assert rs[i] !in Select(rs, OwnMonth);
      assert |Select(rs, OwnMonth)| < |rs| by {
        assert multiset(Select(rs, OwnMonth))[rs[i]] == 0;
        SelectShorter(rs, OwnMonth, i);
      }
      MonthCountsAddUp(rs);
      MonthCountsAsWritten(rs);
    }
  }

  lemma MonthBucketAt(rs: seq<PerfRecord>, i: int)
    requires 0 <= i < |MonthBuckets(rs)|
    ensures var g := Having(rs, MonthKey, MonthBuckets(rs)[i].month);
      |g| > 0 && MonthBuckets(rs)[i].count == |g| && AverageOf(MonthBuckets(rs)[i].average, g)
  {
    var gs := GroupBy(rs, MonthKey);
    assert MonthBuckets(rs)[i] == MonthAverageOf(gs[i].0, gs[i].1);
    assert gs[i].1 == Having(rs, MonthKey, gs[i].0) && |gs[i].1| > 0;
    MeanTimesCount(gs[i].1);
  }

  lemma MonthBucketOf(rs: seq<PerfRecord>, x: PerfRecord)
    requires x in rs
    ensures exists i :: 0 <= i < |MonthBuckets(rs)| && MonthBuckets(rs)[i].month == MonthKey(x)
  {
    var gs := GroupBy(rs, MonthKey);
    GroupByPartitions(rs, MonthKey, x);
    var i := GroupIndex(gs, MonthKey(x));
    assert MonthBuckets(rs)[i].month == gs[i].0;
  }

  /** One bucket per month name met, holding the number and the average of
      exactly the records of that name. */
  lemma MonthBucketsMeaning(rs: seq<PerfRecord>)
    ensures forall i :: 0 <= i < |MonthBuckets(rs)| ==>
      var g := Having(rs, MonthKey, MonthBuckets(rs)[i].month);
      |g| > 0 && MonthBuckets(rs)[i].count == |g| && AverageOf(MonthBuckets(rs)[i].average, g)
    ensures forall i, j :: 0 <= i < j < |MonthBuckets(rs)| ==> MonthBuckets(rs)[i].month != MonthBuckets(rs)[j].month
    ensures forall x :: x in rs ==> exists i :: 0 <= i < |MonthBuckets(rs)| && MonthBuckets(rs)[i].month == MonthKey(x)
  {
    var bs := MonthBuckets(rs);
    forall i | 0 <= i < |bs|
      ensures var g := Having(rs, MonthKey, bs[i].month); |g| > 0 && bs[i].count == |g| && AverageOf(bs[i].average, g)
    {
      MonthBucketAt(rs, i);
    }
    forall x | x in rs
      ensures exists i :: 0 <= i < |bs| && bs[i].month == MonthKey(x)
    {
      MonthBucketOf(rs, x);
    }
  }

  /** What a quarter holds: its count, sum and average over all of its
      records (0 for an empty quarter), and its month buckets in calendar
      order, ties in the order the names were first met. */
  lemma QuarterMeaning(rs: seq<PerfRecord>)
    ensures PortfolioQuarterOf(rs).count == |rs| && PortfolioQuarterOf(rs).sum == Total(rs)
    ensures |rs| == 0 ==> PortfolioQuarterOf(rs).average == 0.0 && PortfolioQuarterOf(rs).months == []
    ensures |rs| > 0 ==> AverageOf(PortfolioQuarterOf(rs).average, rs)
    ensures |rs| > 0 ==> multiset(PortfolioQuarterOf(rs).months) == multiset(MonthBuckets(rs))
    ensures Sorted(PortfolioQuarterOf(rs).months, CalendarOrder)
    ensures forall k :: |rs| > 0 ==> Matching(PortfolioQuarterOf(rs).months, CalendarOrder, k) == Matching(MonthBuckets(rs), CalendarOrder, k)
  {
    if |rs| > 0 {
      MeanTimesCount(rs);
      SortByPermutes(MonthBuckets(rs), CalendarOrder);
      SortBySorted(MonthBuckets(rs), CalendarOrder);
      forall k
        ensures Matching(PortfolioQuarterOf(rs).months, CalendarOrder, k) == Matching(MonthBuckets(rs), CalendarOrder, k)
      {
        SortByStable(MonthBuckets(rs), CalendarOrder, k);
      }
    }
  }

  /** A quarter as the handler builds it counts, sums and averages all of
      its records, as the corrected quarter does, and lists the month
      buckets the corrected quarter would list for the records whose month
      is not a prototype name. */
  lemma QuarterAsWrittenMeaning(rs: seq<PerfRecord>)
    ensures QuarterAsWritten(rs).count == PortfolioQuarterOf(rs).count == |rs|
    ensures QuarterAsWritten(rs).sum == PortfolioQuarterOf(rs).sum
    ensures QuarterAsWritten(rs).average == PortfolioQuarterOf(rs).average
    ensures QuarterAsWritten(rs).months == PortfolioQuarterOf(Select(rs, OwnMonth)).months
  {
    var own := Select(rs, OwnMonth);
    if |rs| > 0 && |own| == 0 {
      assert MonthBuckets(own) == [];
    }
  }

  // ---------------------------------------------------------------------
  // Years, portfolios and the handler (server.js:1515-1640)
  // ---------------------------------------------------------------------

  function PortfolioYearOf(y: int, rs: seq<PerfRecord>): PortfolioYear {
    PortfolioYear(y, seq(4, k requires 0 <= k < 4 => QuarterAsWritten(Having(rs, QuarterOfRecord, QuarterSlots[k]))))
  }

  function RowId(p: PortfolioRow): nat {
    p.id
  }

  function StatPortfolio(s: PortfolioStat): nat {
    s.portfolioId
  }

  function Records(ss: seq<PortfolioStat>): seq<PerfRecord> {
    seq(|ss|, i requires 0 <= i < |ss| => ss[i].record)
  }

  /** Whether the handler opens an entry for `id`. */
  predicate Known(portfolios: seq<PortfolioRow>, id: nat) {
    exists i :: 0 <= i < |portfolios| && portfolios[i].id == id
  }

  /** The records of one portfolio, in input order. */
  function PortfolioRecords(allStats: seq<PortfolioStat>, id: nat): seq<PerfRecord> {
    Records(Having(allStats, StatPortfolio, id))
  }

  /** An entry carries the row's fields, the number of records filed under
      it and one year per year met, each with the quarters Q1 to Q4. */
  function EntryOf(id: nat, p: PortfolioRow, rs: seq<PerfRecord>): (e: PortfolioEntry)
    ensures e.id == id && e.totalDataPoints == |rs|
  {
    var ys := GroupBy(rs, YearOf);
    PortfolioEntry(id, p.name, p.description, p.projectCount, |rs|,
      seq(|ys|, j requires 0 <= j < |ys| => PortfolioYearOf(ys[j].0, ys[j].1)))
  }

  /** `portfolioStats[portfolio.id] = {...}` for every row: a later row with
      the same id replaces the earlier one, in place. */
  function Entries(portfolios: seq<PortfolioRow>, allStats: seq<PortfolioStat>): (es: seq<PortfolioEntry>)
    ensures forall i, j :: 0 <= i < j < |es| ==> es[i].id != es[j].id
  {
    var gs := GroupBy(portfolios, RowId);
    seq(|gs|, i requires 0 <= i < |gs| => EntryOf(gs[i].0, Last(gs[i].1), PortfolioRecords(allStats, gs[i].0)))
  }

  function Last(g: seq<PortfolioRow>): PortfolioRow {
    if |g| == 0 then PortfolioRow(0, "", None, 0) else g[|g| - 1]
  }

  predicate HasData(e: PortfolioEntry) {
    e.totalDataPoints > 0
  }

  function IdOrder(e: PortfolioEntry): Rank {
    Rank(e.id, 0)
  }

  /** A record of a known portfolio whose quarter is not one of the seeded
      ones makes `quarterData` undefined or an inherited member, and the
      access to its months throws. */
  predicate Misfiled(portfolios: seq<PortfolioRow>, s: PortfolioStat) {
    Known(portfolios, s.portfolioId) && s.record.quarter !in QuarterSlots
  }

  /** The record the `forEach` throws on, or -1. */
  function FirstMisfiled(portfolios: seq<PortfolioRow>, allStats: seq<PortfolioStat>): (i: int)
    ensures -1 <= i < |allStats|
    ensures i >= 0 ==> Misfiled(portfolios, allStats[i])
    ensures i < 0 ==> forall j :: 0 <= j < |allStats| ==> !Misfiled(portfolios, allStats[j])
  {
    FirstWhere(allStats, (s: PortfolioStat) => Misfiled(portfolios, s))
  }

  function PortfolioSlotError(r: PerfRecord): string {
    if r.quarter in PrototypeNames then "Cannot read properties of undefined (reading '" + Lower(r.month) + "')"
    else "Cannot read properties of undefined (reading 'months')"
  }

  /** `GET /api/portfolio-statistics` after the two queries: a 500 naming
      the first record of a known portfolio whose quarter is outside Q1 to
      Q4;
      otherwise the portfolios that received a record, in ascending id
      order (the order `Object.values` lists integer keys in). */
  function PortfolioStatistics(portfolios: seq<PortfolioRow>, allStats: seq<PortfolioStat>): (r: Result<seq<PortfolioEntry>, Refusal>)
    ensures r.Failure? <==> exists i :: 0 <= i < |allStats| && Misfiled(portfolios, allStats[i])
    ensures r.Failure? ==>
      exists i :: 0 <= i < |allStats| && Misfiled(portfolios, allStats[i])
        && (forall j :: 0 <= j < i ==> !Misfiled(portfolios, allStats[j]))
        && r.error == ServerError(PortfolioSlotError(allStats[i].record))
    ensures r.Success? ==> forall i, j :: 0 <= i < j < |r.value| ==> r.value[i].id < r.value[j].id
    ensures r.Success? ==> forall i :: 0 <= i < |r.value| ==> r.value[i].totalDataPoints > 0
  {
    var bad := FirstMisfiled(portfolios, allStats);
    if bad >= 0 then Failure(ServerError(PortfolioSlotError(allStats[bad].record)))
    else Success(Shown(Entries(portfolios, allStats)))
  }

  /** `Object.values(portfolioStats).filter(p => p.total_data_points > 0)`. */
  function Shown(es: seq<PortfolioEntry>): (r: seq<PortfolioEntry>)
    requires forall i, j :: 0 <= i < j < |es| ==> es[i].id != es[j].id
    ensures forall i, j :: 0 <= i < j < |r| ==> r[i].id < r[j].id
    ensures forall i :: 0 <= i < |r| ==> r[i].totalDataPoints > 0
    ensures forall e :: e in r <==> e in es && e.totalDataPoints > 0
  {
    ShownFacts(es);
    SortBy(Select(es, HasData), IdOrder)
  }

  lemma ShownFacts(es: seq<PortfolioEntry>)
    requires forall i, j :: 0 <= i < j < |es| ==> es[i].id != es[j].id
    ensures var r := SortBy(Select(es, HasData), IdOrder);
      && (forall i, j :: 0 <= i < j < |r| ==> r[i].id < r[j].id)
      && (forall e :: e in r <==> e in es && e.totalDataPoints > 0)
      && (forall i :: 0 <= i < |r| ==> r[i].totalDataPoints > 0)
  {
    var shown := Select(es, HasData);
    SelectDistinct(es, HasData);
    ShownInIdOrder(shown);
    SortedMembers(shown);
    var r := SortBy(shown, IdOrder);
    forall i | 0 <= i < |r|
      ensures r[i].totalDataPoints > 0
    {
      assert r[i] in r;
    }
  }

  /** Sorting keeps the entries it is given, and only those. */
  lemma SortedMembers(shown: seq<PortfolioEntry>)
    ensures forall e :: e in SortBy(shown, IdOrder) <==> e in shown
  {
    SortByPermutes(shown, IdOrder);
    var r := SortBy(shown, IdOrder);
    forall e
      ensures e in r <==> e in shown
    {
      assert e in r <==> e in multiset(r);
      assert e in shown <==> e in multiset(shown);
    }
  }

  lemma ShownInIdOrder(shown: seq<PortfolioEntry>)
    requires Distinct(shown, IdOrder)
    ensures forall i, j :: 0 <= i < j < |SortBy(shown, IdOrder)| ==> SortBy(shown, IdOrder)[i].id < SortBy(shown, IdOrder)[j].id
  {
    SortByDistinct(shown, IdOrder);
    var r := SortBy(shown, IdOrder);
    forall i, j | 0 <= i < j < |r|
      ensures r[i].id < r[j].id
    {
      assert RankLe(IdOrder(r[i]), IdOrder(r[j])) && IdOrder(r[i]) != IdOrder(r[j]);
    }
  }

  lemma SelectDistinct(es: seq<PortfolioEntry>, keep: PortfolioEntry -> bool)
    requires forall i, j :: 0 <= i < j < |es| ==> es[i].id != es[j].id
    ensures Distinct(Select(es, keep), IdOrder)
  {
    var r := Select(es, keep);
    var idx := Positions(es, keep);
    PositionsMeaning(es, keep);
    forall i, j | 0 <= i < j < |r|
      ensures IdOrder(r[i]) != IdOrder(r[j])
    {
      assert r[i] == es[idx[i]] && r[j] == es[idx[j]];
    }
  }

  /** The records of a portfolio are exactly the records tagged with its
      id. */
  lemma PortfolioRecordsMeaning(allStats: seq<PortfolioStat>, id: nat)
    ensures forall x :: x in PortfolioRecords(allStats, id) <==> PortfolioStat(id, x) in allStats
  {
    var h := Having(allStats, StatPortfolio, id);
    var rs := PortfolioRecords(allStats, id);
    forall x
      ensures x in rs <==> PortfolioStat(id, x) in allStats
    {
      if x in rs {
        var i :| 0 <= i < |rs| && rs[i] == x;
        assert h[i] in h;
      }
      if PortfolioStat(id, x) in allStats {
        assert PortfolioStat(id, x) in h;
        var i :| 0 <= i < |h| && h[i] == PortfolioStat(id, x);
        assert rs[i] == x;
      }
    }
  }

  lemma EntryAt(portfolios: seq<PortfolioRow>, allStats: seq<PortfolioStat>, i: int)
    requires 0 <= i < |Entries(portfolios, allStats)|
    ensures var e := Entries(portfolios, allStats)[i];
      var rows := Having(portfolios, RowId, e.id);
      |rows| > 0 && e == EntryOf(e.id, Last(rows), PortfolioRecords(allStats, e.id))
  {
    var gs := GroupBy(portfolios, RowId);
    assert gs[i].1 == Having(portfolios, RowId, gs[i].0) && |gs[i].1| > 0;
  }

  lemma StatisticsShown(portfolios: seq<PortfolioRow>, allStats: seq<PortfolioStat>)
    requires PortfolioStatistics(portfolios, allStats).Success?
    ensures PortfolioStatistics(portfolios, allStats).value == Shown(Entries(portfolios, allStats))
  {
  }

  /** Row `j` is the last row with the entry's id, and the entry shows its
      fields. */
  predicate FromLastRow(portfolios: seq<PortfolioRow>, e: PortfolioEntry, j: int) {
    && 0 <= j < |portfolios|
    && portfolios[j].id == e.id
    && e.name == portfolios[j].name
    && e.description == portfolios[j].description
    && e.projectCount == portfolios[j].projectCount
    && (forall j' :: j < j' < |portfolios| ==> portfolios[j'].id != e.id)
  }

  /** Every known portfolio that has a record is listed. */
  lemma PortfolioListed(portfolios: seq<PortfolioRow>, allStats: seq<PortfolioStat>)
    requires PortfolioStatistics(portfolios, allStats).Success?
    ensures forall s :: s in allStats && Known(portfolios, s.portfolioId) ==>
      exists e :: e in PortfolioStatistics(portfolios, allStats).value && e.id == s.portfolioId
  {
    var es := Entries(portfolios, allStats);
    StatisticsShown(portfolios, allStats);
    ShownFacts(es);
    forall s | s in allStats && Known(portfolios, s.portfolioId)
      ensures exists e :: e in Shown(es) && e.id == s.portfolioId
    {
      var i := EntryOfRecord(portfolios, allStats, s);
      assert es[i] in es;
    }
  }

  /** A record of a known portfolio gives that portfolio's entry a data
      point. */
  lemma EntryOfRecord(portfolios: seq<PortfolioRow>, allStats: seq<PortfolioStat>, s: PortfolioStat) returns (i: int)
    requires s in allStats && Known(portfolios, s.portfolioId)
    ensures 0 <= i < |Entries(portfolios, allStats)|
    ensures Entries(portfolios, allStats)[i].id == s.portfolioId && Entries(portfolios, allStats)[i].totalDataPoints > 0
  {
    var gs := GroupBy(portfolios, RowId);
    var k :| 0 <= k < |portfolios| && portfolios[k].id == s.portfolioId;
    var p := portfolios[k];
    GroupByPartitions(portfolios, RowId, p);
    i := GroupIndex(gs, p.id);
    assert Entries(portfolios, allStats)[i] == EntryOf(p.id, Last(gs[i].1), PortfolioRecords(allStats, p.id));
    assert s.record in PortfolioRecords(allStats, p.id) by {
      PortfolioRecordsMeaning(allStats, p.id);
      assert s == PortfolioStat(p.id, s.record);
    }
  }

  /** Entry `i`, before the filter, carries the fields of the last row with
      its id and counts the records tagged with that id. */
  lemma EntryFields(portfolios: seq<PortfolioRow>, allStats: seq<PortfolioStat>, i: int)
    requires 0 <= i < |Entries(portfolios, allStats)|
    ensures Entries(portfolios, allStats)[i].totalDataPoints == |PortfolioRecords(allStats, Entries(portfolios, allStats)[i].id)|
    ensures exists j :: FromLastRow(portfolios, Entries(portfolios, allStats)[i], j)
  {
    var e := Entries(portfolios, allStats)[i];
    EntryAt(portfolios, allStats, i);
    var j := HavingLast(portfolios, RowId, e.id);
    assert FromLastRow(portfolios, e, j);
  }

  /** Listed entries come from the entries built before the filter. */
  lemma ListedEntry(portfolios: seq<PortfolioRow>, allStats: seq<PortfolioStat>, e: PortfolioEntry) returns (i: int)
    requires PortfolioStatistics(portfolios, allStats).Success?
    requires e in PortfolioStatistics(portfolios, allStats).value
    ensures 0 <= i < |Entries(portfolios, allStats)| && Entries(portfolios, allStats)[i] == e
  {
    StatisticsShown(portfolios, allStats);
    var es := Entries(portfolios, allStats);
    assert e in es;
    i :| 0 <= i < |es| && es[i] == e;
  }

  /** A listed portfolio carries the fields of the last row with its id and
      counts exactly the records tagged with that id. */
  lemma PortfolioEntryFields(portfolios: seq<PortfolioRow>, allStats: seq<PortfolioStat>, e: PortfolioEntry)
    requires PortfolioStatistics(portfolios, allStats).Success?
    requires e in PortfolioStatistics(portfolios, allStats).value
    ensures e.totalDataPoints == |PortfolioRecords(allStats, e.id)|
    ensures exists j :: FromLastRow(portfolios, e, j)
  {
    var i := ListedEntry(portfolios, allStats, e);
    EntryFields(portfolios, allStats, i);
  }

  /** Year `j` of an entry, in terms of the entry's records. */
  lemma EntryYear(id: nat, p: PortfolioRow, rs: seq<PerfRecord>, j: int)
    requires 0 <= j < |EntryOf(id, p, rs).years|
    ensures var y := EntryOf(id, p, rs).years[j];
      && |Having(rs, YearOf, y.year)| > 0
      && y == PortfolioYearOf(y.year, Having(rs, YearOf, y.year))
      && (forall j' :: 0 <= j' < |EntryOf(id, p, rs).years| && j' != j ==> EntryOf(id, p, rs).years[j'].year != y.year)
  {
    var ys := GroupBy(rs, YearOf);
    assert ys[j].1 == Having(rs, YearOf, ys[j].0) && |ys[j].1| > 0;
  }

  /** Each year of a listed portfolio appears once and is built from the
      portfolio's records of that year: quarter k from those of quarter
      `QuarterSlots[k]`, and the four quarter counts add up to the year's
      records. */
  lemma PortfolioYears(portfolios: seq<PortfolioRow>, allStats: seq<PortfolioStat>, e: PortfolioEntry, j: int)
    requires PortfolioStatistics(portfolios, allStats).Success?
    requires e in PortfolioStatistics(portfolios, allStats).value
    requires 0 <= j < |e.years|
    ensures var y := e.years[j];
      var rs := PortfolioRecords(allStats, e.id);
      && |Having(rs, YearOf, y.year)| > 0
      && (forall j' :: 0 <= j' < |e.years| && j' != j ==> e.years[j'].year != y.year)
      && |y.quarters| == 4
      && (forall k :: 0 <= k < 4 ==> y.quarters[k] == QuarterAsWritten(PeriodRecords(rs, y.year, QuarterSlots[k])))
      && y.quarters[0].count + y.quarters[1].count + y.quarters[2].count + y.quarters[3].count == |Having(rs, YearOf, y.year)|
  {
    var i := ListedEntry(portfolios, allStats, e);
    EntryYears(portfolios, allStats, i, j);
    PortfolioYearSlots(e.years[j].year, PortfolioRecords(allStats, e.id));
  }

  /** Quarter k of a year holds the records of that year and of quarter
      `QuarterSlots[k]`. */
  lemma PortfolioYearSlots(y: int, rs: seq<PerfRecord>)
    ensures var py := PortfolioYearOf(y, Having(rs, YearOf, y));
      |py.quarters| == 4 && forall k :: 0 <= k < 4 ==> py.quarters[k] == QuarterAsWritten(PeriodRecords(rs, y, QuarterSlots[k]))
  {
  }

  /** A record of a known portfolio is filed in one of the four slots when
      no record is misfiled. */
  lemma FiledInSlot(portfolios: seq<PortfolioRow>, allStats: seq<PortfolioStat>, id: nat, x: PerfRecord)
    requires forall t :: 0 <= t < |allStats| ==> !Misfiled(portfolios, allStats[t])
    requires Known(portfolios, id)
    requires PortfolioStat(id, x) in allStats
    ensures x.quarter in QuarterSlots
  {
    var t :| 0 <= t < |allStats| && allStats[t] == PortfolioStat(id, x);
    assert !Misfiled(portfolios, allStats[t]);
  }

  /** The records of a listed portfolio all sit in the four slots. */
  lemma EntryRecordsFiled(portfolios: seq<PortfolioRow>, allStats: seq<PortfolioStat>, i: int)
    requires forall t :: 0 <= t < |allStats| ==> !Misfiled(portfolios, allStats[t])
    requires 0 <= i < |Entries(portfolios, allStats)|
    ensures var id := Entries(portfolios, allStats)[i].id;
      forall x :: x in PortfolioRecords(allStats, id) ==> x.quarter in QuarterSlots
  {
    var e := Entries(portfolios, allStats)[i];
    EntryAt(portfolios, allStats, i);
    var rows := Having(portfolios, RowId, e.id);
    var r := rows[0];
    assert r in rows;
    var u :| 0 <= u < |portfolios| && portfolios[u] == r;
    assert Known(portfolios, e.id);
    PortfolioRecordsMeaning(allStats, e.id);
    forall x | x in PortfolioRecords(allStats, e.id)
      ensures x.quarter in QuarterSlots
    {
      FiledInSlot(portfolios, allStats, e.id, x);
    }
  }

  /** The four quarters of a year whose records all sit in the slots
      count every record of the year once. */
  lemma PortfolioYearCounts(y: int, yr: seq<PerfRecord>)
    requires forall x :: x in yr ==> x.quarter in QuarterSlots
    ensures var py := PortfolioYearOf(y, yr);
      py.quarters[0].count + py.quarters[1].count + py.quarters[2].count + py.quarters[3].count == |yr|
  {
    SlotsCoverYear(yr);
    var py := PortfolioYearOf(y, yr);
    forall k | 0 <= k < 4
      ensures py.quarters[k].count == |Having(yr, QuarterOfRecord, QuarterSlots[k])|
    {
      QuarterAsWrittenMeaning(Having(yr, QuarterOfRecord, QuarterSlots[k]));
    }
  }

  lemma EntryYearShape(portfolios: seq<PortfolioRow>, allStats: seq<PortfolioStat>, i: int, j: int)
    requires 0 <= i < |Entries(portfolios, allStats)|
    requires 0 <= j < |Entries(portfolios, allStats)[i].years|
    ensures var e := Entries(portfolios, allStats)[i];
      var y := e.years[j];
      var rs := PortfolioRecords(allStats, e.id);
      && |Having(rs, YearOf, y.year)| > 0
      && (forall j' :: 0 <= j' < |e.years| && j' != j ==> e.years[j'].year != y.year)
      && y == PortfolioYearOf(y.year, Having(rs, YearOf, y.year))
  {
    var e := Entries(portfolios, allStats)[i];
    EntryAt(portfolios, allStats, i);
    EntryYear(e.id, Last(Having(portfolios, RowId, e.id)), PortfolioRecords(allStats, e.id), j);
  }

  lemma EntryYears(portfolios: seq<PortfolioRow>, allStats: seq<PortfolioStat>, i: int, j: int)
    requires forall t :: 0 <= t < |allStats| ==> !Misfiled(portfolios, allStats[t])
    requires 0 <= i < |Entries(portfolios, allStats)|
    requires 0 <= j < |Entries(portfolios, allStats)[i].years|
    ensures var e := Entries(portfolios, allStats)[i];
      var y := e.years[j];
      var rs := PortfolioRecords(allStats, e.id);
      && |Having(rs, YearOf, y.year)| > 0
      && (forall j' :: 0 <= j' < |e.years| && j' != j ==> e.years[j'].year != y.year)
      && y == PortfolioYearOf(y.year, Having(rs, YearOf, y.year))
      && y.quarters[0].count + y.quarters[1].count + y.quarters[2].count + y.quarters[3].count == |Having(rs, YearOf, y.year)|
  {
    var e := Entries(portfolios, allStats)[i];
    var rs := PortfolioRecords(allStats, e.id);
    var y := e.years[j];
    EntryYearShape(portfolios, allStats, i, j);
    var yr := Having(rs, YearOf, y.year);
    assert forall x :: x in yr ==> x.quarter in QuarterSlots by {
      EntryRecordsFiled(portfolios, allStats, i);
    }
    PortfolioYearCounts(y.year, yr);
  }
}

=== FILE: rollup.dfy ===
/**
 * The roll-up of `/api/project-statistics/:projectId`: one fold files every
 * fact under a year bucket, a `year-Qk` bucket and a `year-month` bucket,
 * summing the three counters; rates are then computed from each bucket's
 * own sums, and the report lists the buckets in the orders the handler
 * sorts them into, with the current year's months nested under its
 * quarters.
 */
module Rollup {
  import opened Wrappers
  import opened JsValues
  import opened Months
  import opened Facts
  import opened Sorting

  // ---------------------------------------------------------------------
  // Bucket keys
  // ---------------------------------------------------------------------

  /** The three bucket maps of the fold: `yearlyData`, `quarterlyData` and
      `monthlyData`. */
  datatype Level = ByYear | ByQuarter | ByMonth

  /** A bucket key: the year, and the quarter number or the month number
      (0 for a year bucket). The handler's string keys `${year}`,
      `${year}-Q${k}` and `${year}-${month}` are one-to-one with these. */
  datatype Key = Key(year: int, slot: int)

  function KeyOf(f: Fact<int>, level: Level): Key {
    match level
    case ByYear => Key(f.year, 0)
    case ByQuarter => Key(f.year, QuarterOf(f.month))
    case ByMonth => Key(f.year, f.month)
  }

  /** The facts filed under `k`, in fold order. */
  function Members(facts: seq<Fact<int>>, level: Level, k: Key): (r: seq<Fact<int>>)
    ensures forall f :: f in r ==> f in facts && KeyOf(f, level) == k
  {
    if |facts| == 0 then []
    else if KeyOf(facts[|facts| - 1], level) == k then Members(facts[..|facts| - 1], level, k) + [facts[|facts| - 1]]
    else Members(facts[..|facts| - 1], level, k)
  }

  lemma MembersSnoc(facts: seq<Fact<int>>, f: Fact<int>, level: Level, k: Key)
    ensures Members(facts + [f], level, k) ==
      if KeyOf(f, level) == k then Members(facts, level, k) + [f] else Members(facts, level, k)
  {
    assert (facts + [f])[..|facts|] == facts;
  }

  /** A fact is among the members of its own key. */
  lemma {:induction false} MembersContain(facts: seq<Fact<int>>, level: Level, j: int)
    requires 0 <= j < |facts|
    ensures facts[j] in Members(facts, level, KeyOf(facts[j], level))
    decreases |facts|
  {
    if j < |facts| - 1 {
      MembersContain(facts[..|facts| - 1], level, j);
    }
  }

  // ---------------------------------------------------------------------
  // The fold
  // ---------------------------------------------------------------------

  /** A bucket: its key, the display name of the first fact filed under it
      (kept by month buckets), the summed counters, the success rate, and
      the facts filed under it in fold order (the handler lists them for
      quarter buckets as `records`). */
  datatype Bucket = Bucket(key: Key, displayName: Option<string>, totals: Totals, successRate: real, members: seq<Fact<int>>)

  /** The position of the bucket keyed `k`, or -1. */
  function KeyIndex(bs: seq<Bucket>, k: Key): (i: int)
    ensures -1 <= i < |bs|
    ensures i >= 0 ==> bs[i].key == k
    ensures i == -1 ==> forall j :: 0 <= j < |bs| ==> bs[j].key != k
  {
    if |bs| == 0 then -1
    else if bs[0].key == k then 0
    else
      var i := KeyIndex(bs[1..], k);
      if i == -1 then -1 else i + 1
  }

  predicate UniqueKeys(bs: seq<Bucket>) {
    forall i, j :: 0 <= i < j < |bs| ==> bs[i].key != bs[j].key
  }

  /** `bs` is what the fold has built from `facts`: one bucket per key some
      fact reached, holding exactly the facts of that key and their sums. */
  ghost predicate Summarises(bs: seq<Bucket>, facts: seq<Fact<int>>, level: Level) {
    && UniqueKeys(bs)
    && (forall i :: 0 <= i < |bs| ==> Holds(bs[i], facts, level))
    && (forall k :: KeyIndex(bs, k) < 0 ==> Members(facts, level, k) == [])
  }

  /** Filing one fact: add its counters to the bucket of its key, or open a
      bucket for the key. The handler fills in the rates in a second pass
      over the finished buckets; a rate depends on its own bucket's sums
      only, so keeping it current at every step gives the same buckets. */
  function Upsert(bs: seq<Bucket>, level: Level, f: Fact<int>): seq<Bucket> {
    var k := KeyOf(f, level);
    var i := KeyIndex(bs, k);
    if i >= 0 then
      var t := bs[i].totals.Plus(f.totals);
      bs[i := bs[i].(totals := t, successRate := Rate(t), members := bs[i].members + [f])]
    else bs + [Bucket(k, f.displayName, f.totals, Rate(f.totals), [f])]
  }

  lemma SumOfSnoc(s: seq<Fact<int>>, f: Fact<int>)
    ensures SumOf(s + [f]) == SumOf(s).Plus(f.totals)
  {
    assert (s + [f])[..|s|] == s;
  }

  /** What a bucket holds once `facts` are filed: the facts of its key,
      their sums, the display name of the first of them, and the rate of
      its own sums. */
  predicate Holds(b: Bucket, facts: seq<Fact<int>>, level: Level) {
    && b.members == Members(facts, level, b.key)
    && |b.members| > 0
    && b.totals == SumOf(b.members)
    && b.displayName == b.members[0].displayName
    && b.successRate == Rate(b.totals)
  }

  lemma UpsertExisting(bs: seq<Bucket>, facts: seq<Fact<int>>, level: Level, f: Fact<int>)
    requires Summarises(bs, facts, level)
    requires KeyIndex(bs, KeyOf(f, level)) >= 0
    ensures Holds(Upsert(bs, level, f)[KeyIndex(bs, KeyOf(f, level))], facts + [f], level)
  {
    var i := KeyIndex(bs, KeyOf(f, level));
    assert Holds(bs[i], facts, level);
    MembersSnoc(facts, f, level, bs[i].key);
    SumOfSnoc(bs[i].members, f);
  }

  lemma UpsertNew(bs: seq<Bucket>, facts: seq<Fact<int>>, level: Level, f: Fact<int>)
    requires Summarises(bs, facts, level)
    requires KeyIndex(bs, KeyOf(f, level)) < 0
    ensures Holds(Upsert(bs, level, f)[|bs|], facts + [f], level)
  {
    var k := KeyOf(f, level);
    assert Members(facts, level, k) == [];
    assert Upsert(bs, level, f)[|bs|] == Bucket(k, f.displayName, f.totals, Rate(f.totals), [f]);
    FirstMember(facts, level, f);
  }

  /** The first fact of a key makes a bucket of its own. */
  lemma FirstMember(facts: seq<Fact<int>>, level: Level, f: Fact<int>)
    requires Members(facts, level, KeyOf(f, level)) == []
    ensures Holds(Bucket(KeyOf(f, level), f.displayName, f.totals, Rate(f.totals), [f]), facts + [f], level)
  {
    MembersSnoc(facts, f, level, KeyOf(f, level));
    assert SumOf([f]) == f.totals by {
      assert [f][..0] == [];
    }
  }

  lemma UpsertOther(bs: seq<Bucket>, facts: seq<Fact<int>>, level: Level, f: Fact<int>, t: int)
    requires Summarises(bs, facts, level)
    requires 0 <= t < |bs| && bs[t].key != KeyOf(f, level)
    ensures Holds(Upsert(bs, level, f)[t], facts + [f], level)
  {
    assert Upsert(bs, level, f)[t] == bs[t];
    assert Holds(bs[t], facts, level);
    MembersSnoc(facts, f, level, bs[t].key);
  }

  /** Each bucket after filing `f` holds exactly the facts of its key. */
  lemma UpsertBucket(bs: seq<Bucket>, facts: seq<Fact<int>>, level: Level, f: Fact<int>, t: int)
    requires Summarises(bs, facts, level)
    requires 0 <= t < |Upsert(bs, level, f)|
    ensures Holds(Upsert(bs, level, f)[t], facts + [f], level)
  {
    var i := KeyIndex(bs, KeyOf(f, level));
    if i >= 0 && t == i {
      UpsertExisting(bs, facts, level, f);
    } else if i < 0 && t == |bs| {
      UpsertNew(bs, facts, level, f);
    } else {
      UpsertOther(bs, facts, level, f, t);
    }
  }

  /** Filing keeps every bucket where it was, under the same key, and the
      key of `f` gets a bucket. */
  lemma UpsertKeepsKeys(bs: seq<Bucket>, level: Level, f: Fact<int>)
    ensures |Upsert(bs, level, f)| >= |bs|
    ensures forall j :: 0 <= j < |bs| ==> Upsert(bs, level, f)[j].key == bs[j].key
    ensures KeyIndex(Upsert(bs, level, f), KeyOf(f, level)) >= 0
  {
    var r := Upsert(bs, level, f);
    var i := KeyIndex(bs, KeyOf(f, level));
    var p := if i >= 0 then i else |bs|;
    assert r[p].key == KeyOf(f, level);
  }

  /** A key with no bucket after filing `f` had no facts and is not the
      key of `f`. */
  lemma UpsertCovers(bs: seq<Bucket>, facts: seq<Fact<int>>, level: Level, f: Fact<int>)
    requires Summarises(bs, facts, level)
    ensures forall k :: KeyIndex(Upsert(bs, level, f), k) < 0 ==> Members(facts + [f], level, k) == []
  {
    var r := Upsert(bs, level, f);
    forall k | KeyIndex(r, k) < 0
      ensures Members(facts + [f], level, k) == []
    {
      UpsertKeepsKeys(bs, level, f);
      MembersSnoc(facts, f, level, k);
    }
  }

  lemma UpsertUnique(bs: seq<Bucket>, level: Level, f: Fact<int>)
    requires UniqueKeys(bs)
    ensures UniqueKeys(Upsert(bs, level, f))
  {
  }

  lemma UpsertSummarises(bs: seq<Bucket>, facts: seq<Fact<int>>, level: Level, f: Fact<int>)
    requires Summarises(bs, facts, level)
    ensures Summarises(Upsert(bs, level, f), facts + [f], level)
  {
    UpsertUnique(bs, level, f);
    forall t | 0 <= t < |Upsert(bs, level, f)|
      ensures Holds(Upsert(bs, level, f)[t], facts + [f], level)
    {
      UpsertBucket(bs, facts, level, f, t);
    }
    UpsertCovers(bs, facts, level, f);
  }

  /** The fold over `facts` at one level, buckets in first-seen order. */
  function Group(facts: seq<Fact<int>>, level: Level): (r: seq<Bucket>)
    ensures Summarises(r, facts, level)
  {
    if |facts| == 0 then []
    else
      var init := facts[..|facts| - 1];
      var f := facts[|facts| - 1];
      var g := Group(init, level);
      UpsertSummarises(g, init, level, f);
      assert init + [f] == facts;
      Upsert(g, level, f)
  }

  /** Every fact lands in exactly one bucket of a level: the bucket of its
      key. */
  lemma FactInOneBucket(facts: seq<Fact<int>>, level: Level, j: int)
    requires 0 <= j < |facts|
    ensures exists i :: 0 <= i < |Group(facts, level)| && facts[j] in Group(facts, level)[i].members
    ensures forall i, i' ::
      (0 <= i < |Group(facts, level)| && 0 <= i' < |Group(facts, level)|
       && facts[j] in Group(facts, level)[i].members && facts[j] in Group(facts, level)[i'].members) ==> i == i'
  {
    var bs := Group(facts, level);
    var k := KeyOf(facts[j], level);
    MembersContain(facts, level, j);
    var i := KeyIndex(bs, k);
    assert Members(facts, level, k) != [];
    assert i >= 0;
    assert Holds(bs[i], facts, level);
    forall i0, i1 | 0 <= i0 < |bs| && 0 <= i1 < |bs| && facts[j] in bs[i0].members && facts[j] in bs[i1].members
      ensures i0 == i1
    {
      assert Holds(bs[i0], facts, level) && Holds(bs[i1], facts, level);
    }
  }

  // ---------------------------------------------------------------------
  // Totals over a year or a quarter
  // ---------------------------------------------------------------------

  /** A year, or one quarter of a year. */
  datatype Region = InYear(year: int) | InQuarter(year: int, quarter: int)

  predicate FactIn(f: Fact<int>, g: Region) {
    f.year == g.year && (g.InQuarter? ==> QuarterOf(f.month) == g.quarter)
  }

  /** The facts of a region, in order. */
  function Within(facts: seq<Fact<int>>, g: Region): (r: seq<Fact<int>>)
    ensures forall f :: f in r ==> f in facts && FactIn(f, g)
  {
    if |facts| == 0 then []
    else if FactIn(facts[|facts| - 1], g) then Within(facts[..|facts| - 1], g) + [facts[|facts| - 1]]
    else Within(facts[..|facts| - 1], g)
  }

  /** Whether a bucket of `level` keyed `k` lies inside region `g`. */
  predicate KeyIn(k: Key, level: Level, g: Region) {
    && k.year == g.year
    && match g
       case InYear(_) => true
       case InQuarter(_, q) =>
         match level
         case ByYear => false
         case ByQuarter => k.slot == q
         case ByMonth => QuarterOf(k.slot) == q
  }

  /** Buckets of `level` tile region `g`: year buckets tile a year, but not
      a quarter. */
  predicate Tiles(level: Level, g: Region) {
    !(level.ByYear? && g.InQuarter?)
  }

  lemma KeyInFact(f: Fact<int>, level: Level, g: Region)
    requires Tiles(level, g)
    ensures KeyIn(KeyOf(f, level), level, g) <==> FactIn(f, g)
  {
  }

  /** The summed counters of the buckets of `level` inside `g`. */
  function RegionTotal(bs: seq<Bucket>, level: Level, g: Region): Totals {
    if |bs| == 0 then Zero
    else
      var t := RegionTotal(bs[..|bs| - 1], level, g);
      if KeyIn(bs[|bs| - 1].key, level, g) then t.Plus(bs[|bs| - 1].totals) else t
  }

  /** Replacing one bucket by one of the same key changes the region total
      by the difference of the two buckets' counters. */
  lemma {:induction false} RegionTotalUpdate(bs: seq<Bucket>, i: int, b: Bucket, level: Level, g: Region)
    requires 0 <= i < |bs| && b.key == bs[i].key
    ensures KeyIn(b.key, level, g) ==> RegionTotal(bs[i := b], level, g).Plus(bs[i].totals) == RegionTotal(bs, level, g).Plus(b.totals)
    ensures !KeyIn(b.key, level, g) ==> RegionTotal(bs[i := b], level, g) == RegionTotal(bs, level, g)
    decreases |bs|
  {
    var n := |bs|;
    if i < n - 1 {
      assert bs[i := b][..n - 1] == bs[..n - 1][i := b];
      RegionTotalUpdate(bs[..n - 1], i, b, level, g);
    } else {
      assert bs[i := b][..n - 1] == bs[..n - 1];
    }
  }

  lemma RegionTotalUpsert(bs: seq<Bucket>, level: Level, f: Fact<int>, g: Region)
    requires Tiles(level, g)
    ensures FactIn(f, g) ==> RegionTotal(Upsert(bs, level, f), level, g) == RegionTotal(bs, level, g).Plus(f.totals)
    ensures !FactIn(f, g) ==> RegionTotal(Upsert(bs, level, f), level, g) == RegionTotal(bs, level, g)
  {
    KeyInFact(f, level, g);
    var i := KeyIndex(bs, KeyOf(f, level));
    var r := Upsert(bs, level, f);
    if i >= 0 {
      assert r == bs[i := r[i]];
      RegionTotalUpdate(bs, i, r[i], level, g);
    } else {
      assert r[..|bs|] == bs;
    }
  }

  /** The buckets of a level inside a region it tiles add up to the facts of
      the region: no fact is lost or counted twice. */
  lemma {:induction false} GroupRegion(facts: seq<Fact<int>>, level: Level, g: Region)
    requires Tiles(level, g)
    ensures RegionTotal(Group(facts, level), level, g) == SumOf(Within(facts, g))
    decreases |facts|
  {
    if |facts| > 0 {
      var init := facts[..|facts| - 1];
      GroupRegion(init, level, g);
      RegionTotalUpsert(Group(init, level), level, facts[|facts| - 1], g);
    }
  }

  /** The members of a year bucket are the facts of the year, and those of
      a quarter bucket the facts of the quarter. */
  lemma {:induction false} MembersAreWithin(facts: seq<Fact<int>>, level: Level, k: Key, g: Region)
    requires (level.ByYear? && k.slot == 0 && g == InYear(k.year)) || (level.ByQuarter? && g == InQuarter(k.year, k.slot))
    ensures Members(facts, level, k) == Within(facts, g)
    decreases |facts|
  {
    if |facts| > 0 {
      MembersAreWithin(facts[..|facts| - 1], level, k, g);
    }
  }

  /** A year bucket's slot is 0. */
  lemma YearBucketSlot(facts: seq<Fact<int>>, i: int)
    requires 0 <= i < |Group(facts, ByYear)|
    ensures Group(facts, ByYear)[i].key.slot == 0
  {
    var b := Group(facts, ByYear)[i];
    assert Holds(b, facts, ByYear);
    assert b.members[0] in Members(facts, ByYear, b.key);
  }

  /** Each year's total is the sum of its quarter totals and also the sum of
      its month totals, for all three counters. */
  lemma YearTotalsAddUp(facts: seq<Fact<int>>, i: int)
    requires 0 <= i < |Group(facts, ByYear)|
    ensures Group(facts, ByYear)[i].totals == RegionTotal(Group(facts, ByQuarter), ByQuarter, InYear(Group(facts, ByYear)[i].key.year))
    ensures Group(facts, ByYear)[i].totals == RegionTotal(Group(facts, ByMonth), ByMonth, InYear(Group(facts, ByYear)[i].key.year))
  {
    var b := Group(facts, ByYear)[i];
    var g := InYear(b.key.year);
    assert Holds(b, facts, ByYear);
    YearBucketSlot(facts, i);
    MembersAreWithin(facts, ByYear, b.key, g);
    GroupRegion(facts, ByQuarter, g);
    GroupRegion(facts, ByMonth, g);
  }

  /** Each quarter's total is the sum of the totals of its months. */
  lemma QuarterTotalsAddUp(facts: seq<Fact<int>>, i: int)
    requires 0 <= i < |Group(facts, ByQuarter)|
    ensures Group(facts, ByQuarter)[i].totals ==
      RegionTotal(Group(facts, ByMonth), ByMonth, InQuarter(Group(facts, ByQuarter)[i].key.year, Group(facts, ByQuarter)[i].key.slot))
  {
    var b := Group(facts, ByQuarter)[i];
    var g := InQuarter(b.key.year, b.key.slot);
    assert Holds(b, facts, ByQuarter);
    MembersAreWithin(facts, ByQuarter, b.key, g);
    GroupRegion(facts, ByMonth, g);
  }

  // ---------------------------------------------------------------------
  // The report
  // ---------------------------------------------------------------------

  /** The year the report is for: the `year` parameter read by `parseInt`
      when it is present and non-empty, else the current year (a parameter
      of the model, since it comes from the clock). `None` is `NaN`, which
      equals no year. */
  function SelectedYear(param: Option<string>, today: int): Option<int> {
    if Truthy(param) then ParseInt(param.value) else Some(today)
  }

  /** Without the parameter the report is for the current year, and a
      year written as a numeral is read back as that year. */
  lemma SelectedYearReadsNumerals(n: nat, today: int)
    ensures SelectedYear(None, today) == Some(today)
    ensures SelectedYear(Some(ShowNat(n)), today) == Some(n)
  {
    ParseIntShowNat(n);
  }

  /** `yearlyData[year] || zero`: the counters of the selected year's
      bucket, or zeros when there is none. */
  function CurrentTotals(years: seq<Bucket>, year: Option<int>): Totals {
    if year.None? then Zero
    else
      var i := KeyIndex(years, Key(year.value, 0));
      if i >= 0 then years[i].totals else Zero
  }

  /** The current-year row is the sum of that year's facts, and zero for a
      year with none. */
  lemma CurrentYearIsYearSum(facts: seq<Fact<int>>, year: int)
    ensures CurrentTotals(Group(facts, ByYear), Some(year)) == SumOf(Within(facts, InYear(year)))
  {
    var bs := Group(facts, ByYear);
    var i := KeyIndex(bs, Key(year, 0));
    MembersAreWithin(facts, ByYear, Key(year, 0), InYear(year));
    if i >= 0 {
      assert Holds(bs[i], facts, ByYear);
    }
  }

  /** The buckets of one year, in order; `NaN` selects none. */
  function OfYear(bs: seq<Bucket>, year: Option<int>): (r: seq<Bucket>)
    ensures forall b :: b in r <==> b in bs && year == Some(b.key.year)
    ensures UniqueKeys(bs) ==> UniqueKeys(r)
  {
    if |bs| == 0 then []
    else
      var init := OfYear(bs[..|bs| - 1], year);
      var b := bs[|bs| - 1];
      if year == Some(b.key.year) then
        assert UniqueKeys(bs) ==> forall c :: c in init ==> c.key != b.key by {
          if UniqueKeys(bs) {
            forall c | c in init
              ensures c.key != b.key
            {
              var p :| 0 <= p < |bs| - 1 && bs[p] == c;
            }
          }
        }
        init + [b]
      else init
  }

  /** Ascending by slot: `a.month - b.month` for months, and
      `parseInt(a.quarter.substring(1)) - parseInt(b.quarter.substring(1))`
      for quarters, whose labels read back as their quarter numbers
      (`Months.QuarterLabelReadsBack`). */
  function SlotRank(b: Bucket): Rank {
    Rank(b.key.slot, 0)
  }

  /** Newest first: `b.year - a.year`, then `b.quarter - a.quarter` or
      `b.month - a.month` within a year. */
  function NewestRank(b: Bucket): Rank {
    Rank(-b.key.year, -b.key.slot)
  }

  /** Buckets of one year with distinct keys have distinct slots. */
  lemma OneYearDistinctSlots(bs: seq<Bucket>, year: int)
    requires UniqueKeys(bs)
    requires forall b :: b in bs ==> b.key.year == year
    ensures Distinct(bs, SlotRank)
  {
    forall i, j | 0 <= i < j < |bs|
      ensures SlotRank(bs[i]) != SlotRank(bs[j])
    {
      assert bs[i] in bs && bs[j] in bs;
    }
  }

  lemma SortedYearRows(bs: seq<Bucket>, year: Option<int>)
    requires UniqueKeys(bs)
    ensures forall b :: b in SortBy(OfYear(bs, year), SlotRank) <==> b in bs && year == Some(b.key.year)
    ensures forall i, j :: 0 <= i < j < |SortBy(OfYear(bs, year), SlotRank)| ==>
      SortBy(OfYear(bs, year), SlotRank)[i].key.slot < SortBy(OfYear(bs, year), SlotRank)[j].key.slot
  {
    var s := OfYear(bs, year);
    SortByPermutes(s, SlotRank);
    if year.Some? {
      OneYearDistinctSlots(s, year.value);
      SortByDistinct(s, SlotRank);
    } else {
      assert forall i :: 0 <= i < |s| ==> s[i] in s;
      assert s == [];
    }
    assert forall b :: b in SortBy(s, SlotRank) <==> b in multiset(s);
  }

  /** The current year's month (or quarter) rows, ascending by number. */
  function CurrentRows(bs: seq<Bucket>, year: Option<int>): (r: seq<Bucket>)
    requires UniqueKeys(bs)
    ensures forall b :: b in r <==> b in bs && year == Some(b.key.year)
    ensures forall i, j :: 0 <= i < j < |r| ==> r[i].key.slot < r[j].key.slot
  {
    SortedYearRows(bs, year);
    SortBy(OfYear(bs, year), SlotRank)
  }

  /** A `NaN` year selects no row. */
  lemma NoRowsForNaN(bs: seq<Bucket>)
    requires UniqueKeys(bs)
    ensures CurrentRows(bs, None) == []
  {
    var r := CurrentRows(bs, None);
    assert r == [];
  }

  /** Newest first: by year descending, then by slot descending. */
  ghost predicate NewestFirst(bs: seq<Bucket>) {
    forall i, j :: 0 <= i < j < |bs| ==>
      bs[i].key.year > bs[j].key.year || (bs[i].key.year == bs[j].key.year && bs[i].key.slot > bs[j].key.slot)
  }

  /** `allYears`, `allQuarters` and `allMonths`: every bucket of a level,
      newest first. */
  function Newest(bs: seq<Bucket>): (r: seq<Bucket>)
    requires UniqueKeys(bs)
    ensures multiset(r) == multiset(bs)
    ensures NewestFirst(r)
  {
    SortByPermutes(bs, NewestRank);
    assert Distinct(bs, NewestRank);
    SortByDistinct(bs, NewestRank);
    SortBy(bs, NewestRank)
  }

  /** Every bucket of one level, newest first. */
  function AllBuckets(facts: seq<Fact<int>>, level: Level): (r: seq<Bucket>)
    ensures multiset(r) == multiset(Group(facts, level))
    ensures NewestFirst(r)
  {
    Newest(Group(facts, level))
  }

  // ---------------------------------------------------------------------
  // Months nested under the current year's quarters
  // ---------------------------------------------------------------------

  /** The property name `month.displayName` becomes: a missing name is
      written "undefined". */
  function NameKey(d: Option<string>): string {
    if d.Some? then d.value else "undefined"
  }

  /** The value stored under `name` in an object's entries. */
  function Find(entries: seq<(string, Bucket)>, name: string): Option<Bucket> {
    if |entries| == 0 then None
    else if entries[0].0 == name then Some(entries[0].1)
    else Find(entries[1..], name)
  }

  /** `object[name] = b` on an object literal: an existing entry is
      overwritten in place and a new one is added at the end; assigning to
      `__proto__` replaces the prototype instead and adds no entry. */
  function Put(entries: seq<(string, Bucket)>, name: string, b: Bucket): (r: seq<(string, Bucket)>)
    ensures forall e :: e in r ==> e in entries || (e == (name, b) && name != "__proto__")
  {
    if name == "__proto__" then entries
    else if |entries| == 0 then [(name, b)]
    else if entries[0].0 == name then [(name, b)] + entries[1..]
    else [entries[0]] + Put(entries[1..], name, b)
  }

  /** After the assignment, the name holds `b` and every other name holds
      what it held before. */
  lemma {:induction false} FindPut(entries: seq<(string, Bucket)>, name: string, b: Bucket, x: string)
    ensures Find(Put(entries, name, b), x) == if x == name && name != "__proto__" then Some(b) else Find(entries, x)
    decreases |entries|
  {
    if name != "__proto__" && |entries| > 0 && entries[0].0 != name {
      FindPut(entries[1..], name, b, x);
      assert Put(entries, name, b)[1..] == Put(entries[1..], name, b);
    } else if name != "__proto__" && |entries| > 0 {
      assert Put(entries, name, b)[1..] == entries[1..];
    }
  }

  /** The `months` object of a current quarter: every current month of that
      quarter, in ascending month order, stored under its display name. */
  function Nest(months: seq<Bucket>, q: int): (r: seq<(string, Bucket)>)
    ensures forall e :: e in r ==>
      e.1 in months && QuarterOf(e.1.key.slot) == q && e.0 == NameKey(e.1.displayName) && e.0 != "__proto__"
  {
    if |months| == 0 then []
    else
      var acc := Nest(months[..|months| - 1], q);
      var m := months[|months| - 1];
      if QuarterOf(m.key.slot) == q then Put(acc, NameKey(m.displayName), m) else acc
  }

  /** The last month of quarter `q` whose display name is `name`. */
  function LastNamed(months: seq<Bucket>, q: int, name: string): Option<Bucket> {
    if |months| == 0 then None
    else
      var m := months[|months| - 1];
      if QuarterOf(m.key.slot) == q && NameKey(m.displayName) == name then Some(m)
      else LastNamed(months[..|months| - 1], q, name)
  }

  /** Each name of the nested object holds the last month of the quarter
      carrying that name (later months overwrite earlier ones of the same
      name), and `__proto__` holds nothing. */
  lemma {:induction false} NestContents(months: seq<Bucket>, q: int, name: string)
    ensures Find(Nest(months, q), name) == if name == "__proto__" then None else LastNamed(months, q, name)
    decreases |months|
  {
    if |months| > 0 {
      var m := months[|months| - 1];
      NestContents(months[..|months| - 1], q, name);
      if QuarterOf(m.key.slot) == q {
        FindPut(Nest(months[..|months| - 1], q), NameKey(m.displayName), m, name);
      }
    } else {
      assert Find([], name) == None;
    }
  }

  /** A current quarter with the months nested under it. */
  datatype QuarterView = QuarterView(quarter: Bucket, months: seq<(string, Bucket)>)

  /** The quarter buckets of a list of views, in order. */
  function Quarters(vs: seq<QuarterView>): seq<Bucket> {
    seq(|vs|, i requires 0 <= i < |vs| => vs[i].quarter)
  }

  /** `currentQuarters.map(...)`: every current quarter, in order, with a
      `months` object in which each name holds the last current month of
      that quarter with that display name, and `__proto__` holds nothing. */
  function Views(quarters: seq<Bucket>, months: seq<Bucket>): (r: seq<QuarterView>)
    ensures Quarters(r) == quarters
    ensures forall i :: 0 <= i < |r| ==> r[i].quarter == quarters[i]
    ensures forall i :: 0 <= i < |r| ==> r[i].months == Nest(months, quarters[i].key.slot)
    ensures forall i, name :: 0 <= i < |r| ==>
      Find(r[i].months, name) == if name == "__proto__" then None else LastNamed(months, quarters[i].key.slot, name)
    ensures forall i, e :: 0 <= i < |r| && e in r[i].months ==>
      e.1 in months && QuarterOf(e.1.key.slot) == quarters[i].key.slot && e.0 == NameKey(e.1.displayName)
  {
    var r := seq(|quarters|, i requires 0 <= i < |quarters| => QuarterView(quarters[i], Nest(months, quarters[i].key.slot)));
    forall i, name | 0 <= i < |r|
      ensures Find(r[i].months, name) == if name == "__proto__" then None else LastNamed(months, quarters[i].key.slot, name)
    {
      NestContents(months, quarters[i].key.slot, name);
    }
    r
  }

  /** The body of the response: the selected year, its row, its quarters
      with their months nested, its months, and every bucket of each level
      newest first. The `quartersObject` copy of `quarters` keyed by label
      and the `project` header are not modelled. */
  datatype Report = Report(
    year: Option<int>,
    current: Totals,
    currentRate: real,
    quarters: seq<QuarterView>,
    months: seq<Bucket>,
    allYears: seq<Bucket>,
    allQuarters: seq<Bucket>,
    allMonths: seq<Bucket>)

  /** `GET /api/project-statistics/:projectId` on the rows of the project. */
  function ProjectStatistics(rows: seq<AnalysisRow>, parse: EntryParser, yearParam: Option<string>, today: int): (r: Report)
    ensures r.year == SelectedYear(yearParam, today)
    ensures r.year.Some? ==> r.current == SumOf(Within(Flatten(ForStatistics, rows, parse), InYear(r.year.value)))
    ensures r.year.None? ==> r.current == Zero && r.quarters == [] && r.months == []
    ensures r.currentRate == Rate(r.current)
    ensures forall b :: b in r.months <==> b in Group(Flatten(ForStatistics, rows, parse), ByMonth) && r.year == Some(b.key.year)
    ensures forall i, j :: 0 <= i < j < |r.months| ==> r.months[i].key.slot < r.months[j].key.slot
    ensures forall b :: b in Quarters(r.quarters) <==> b in Group(Flatten(ForStatistics, rows, parse), ByQuarter) && r.year == Some(b.key.year)
    ensures forall i, j :: 0 <= i < j < |r.quarters| ==> r.quarters[i].quarter.key.slot < r.quarters[j].quarter.key.slot
    ensures forall i :: 0 <= i < |r.quarters| ==> r.quarters[i].months == Nest(r.months, r.quarters[i].quarter.key.slot)
    ensures forall i, name :: 0 <= i < |r.quarters| ==>
      Find(r.quarters[i].months, name) == if name == "__proto__" then None else LastNamed(r.months, r.quarters[i].quarter.key.slot, name)
    ensures multiset(r.allYears) == multiset(Group(Flatten(ForStatistics, rows, parse), ByYear))
    ensures multiset(r.allQuarters) == multiset(Group(Flatten(ForStatistics, rows, parse), ByQuarter))
    ensures multiset(r.allMonths) == multiset(Group(Flatten(ForStatistics, rows, parse), ByMonth))
    ensures NewestFirst(r.allYears) && NewestFirst(r.allQuarters) && NewestFirst(r.allMonths)
  {
    var facts := Flatten(ForStatistics, rows, parse);
    var years := Group(facts, ByYear);
    var months := Group(facts, ByMonth);
    var year := SelectedYear(yearParam, today);
    var current := CurrentTotals(years, year);
    var currentMonths := CurrentRows(months, year);
    CurrentYear(facts, year);
    Report(year, current, Rate(current), CurrentViews(facts, year), currentMonths,
      AllBuckets(facts, ByYear), AllBuckets(facts, ByQuarter), AllBuckets(facts, ByMonth))
  }

  /** The selected year's quarters, ascending, each with the selected
      year's months of that quarter nested under their display names. */
  function CurrentViews(facts: seq<Fact<int>>, year: Option<int>): (vs: seq<QuarterView>)
    ensures forall b :: b in Quarters(vs) <==> b in Group(facts, ByQuarter) && year == Some(b.key.year)
    ensures forall i, j :: 0 <= i < j < |vs| ==> vs[i].quarter.key.slot < vs[j].quarter.key.slot
    ensures forall i :: 0 <= i < |vs| ==> vs[i].months == Nest(CurrentRows(Group(facts, ByMonth), year), vs[i].quarter.key.slot)
    ensures forall i, name :: 0 <= i < |vs| ==>
      Find(vs[i].months, name) == if name == "__proto__" then None else LastNamed(CurrentRows(Group(facts, ByMonth), year), vs[i].quarter.key.slot, name)
  {
    var ms := CurrentRows(Group(facts, ByMonth), year);
    var vs := Views(CurrentRows(Group(facts, ByQuarter), year), ms);
    NestedViews(vs, ms);
    vs
  }

  /** What the nesting of `Views` means for a caller that knows only the
      views and the months. */
  lemma NestedViews(vs: seq<QuarterView>, ms: seq<Bucket>)
    requires forall i :: 0 <= i < |vs| ==> vs[i].months == Nest(ms, vs[i].quarter.key.slot)
    ensures forall i, name :: 0 <= i < |vs| ==>
      Find(vs[i].months, name) == if name == "__proto__" then None else LastNamed(ms, vs[i].quarter.key.slot, name)
  {
    forall i, name | 0 <= i < |vs|
      ensures Find(vs[i].months, name) == if name == "__proto__" then None else LastNamed(ms, vs[i].quarter.key.slot, name)
    {
      NestContents(ms, vs[i].quarter.key.slot, name);
    }
  }

  /** The selected year's row and rows: its sum for a year, nothing for
      `NaN`. */
  lemma CurrentYear(facts: seq<Fact<int>>, year: Option<int>)
    ensures year.Some? ==> CurrentTotals(Group(facts, ByYear), year) == SumOf(Within(facts, InYear(year.value)))
    ensures year.None? ==> CurrentTotals(Group(facts, ByYear), year) == Zero
    ensures year.None? ==> CurrentRows(Group(facts, ByMonth), year) == [] && CurrentRows(Group(facts, ByQuarter), year) == []
  {
    if year.Some? {
      CurrentYearIsYearSum(facts, year.value);
    } else {
      NoRowsForNaN(Group(facts, ByMonth));
      NoRowsForNaN(Group(facts, ByQuarter));
    }
  }
}

=== FILE: sorting.dfy ===
/**
 * The stable sort behind `Array.prototype.sort` with a comparator that
 * subtracts numeric keys: elements are ordered by a rank (a pair compared
 * lexicographically), and elements of equal rank keep their input order.
 */
module Sorting {

  /** A sort key; `major` decides first, `minor` breaks ties. A descending
      order on a field is an ascending order on its negation. */
  datatype Rank = Rank(major: int, minor: int)

  predicate RankLe(a: Rank, b: Rank) {
    a.major < b.major || (a.major == b.major && a.minor <= b.minor)
  }

  predicate Sorted<T>(s: seq<T>, rank: T -> Rank) {
    forall i, j :: 0 <= i < j < |s| ==> RankLe(rank(s[i]), rank(s[j]))
  }

  /** The elements of `s` whose rank is `k`, in order. */
  function Matching<T>(s: seq<T>, rank: T -> Rank, k: Rank): (r: seq<T>)
    ensures |r| <= |s|
    ensures forall x :: x in r ==> x in s && rank(x) == k
  {
    if |s| == 0 then []
    else if rank(s[|s| - 1]) == k then Matching(s[..|s| - 1], rank, k) + [s[|s| - 1]]
    else Matching(s[..|s| - 1], rank, k)
  }

  lemma {:induction false} MatchingAppend<T>(a: seq<T>, b: seq<T>, rank: T -> Rank, k: Rank)
    ensures Matching(a + b, rank, k) == Matching(a, rank, k) + Matching(b, rank, k)
    decreases |b|
  {
    if |b| == 0 {
      assert a + b == a;
    } else {
      assert (a + b)[..|a + b| - 1] == a + b[..|b| - 1];
      MatchingAppend(a, b[..|b| - 1], rank, k);
    }
  }

  lemma {:induction false} MatchingNone<T>(s: seq<T>, rank: T -> Rank, k: Rank)
    requires forall i :: 0 <= i < |s| ==> rank(s[i]) != k
    ensures Matching(s, rank, k) == []
    decreases |s|
  {
    if |s| > 0 {
      MatchingNone(s[..|s| - 1], rank, k);
    }
  }

  /** Where `x` goes in sorted `s`: after every element ranked at most
      `x`. */
  function InsertAt<T>(s: seq<T>, rank: T -> Rank, x: T): (p: nat)
    ensures p <= |s|
    ensures forall i :: 0 <= i < p ==> RankLe(rank(s[i]), rank(x))
    ensures p < |s| ==> !RankLe(rank(s[p]), rank(x))
  {
    if |s| == 0 || !RankLe(rank(s[0]), rank(x)) then 0
    else 1 + InsertAt(s[1..], rank, x)
  }

  function Insert<T>(s: seq<T>, rank: T -> Rank, x: T): (r: seq<T>)
    ensures r == s[..InsertAt(s, rank, x)] + [x] + s[InsertAt(s, rank, x)..]
  {
    var p := InsertAt(s, rank, x);
    s[..p] + [x] + s[p..]
  }

  /** Insertion sort, taking the elements in input order. */
  function SortBy<T>(s: seq<T>, rank: T -> Rank): (r: seq<T>)
    ensures |r| == |s|
  {
    if |s| == 0 then [] else Insert(SortBy(s[..|s| - 1], rank), rank, s[|s| - 1])
  }

  lemma InsertSorted<T>(s: seq<T>, rank: T -> Rank, x: T)
    requires Sorted(s, rank)
    ensures Sorted(Insert(s, rank, x), rank)
  {
    var p := InsertAt(s, rank, x);
    var r := Insert(s, rank, x);
    forall i, j | 0 <= i < j < |r|
      ensures RankLe(rank(r[i]), rank(r[j]))
    {
      if j == p {
        assert r[i] == s[i];
      } else if i == p {
        assert r[j] == s[j - 1];
        assert !RankLe(rank(s[p]), rank(x));
        assert RankLe(rank(s[p]), rank(s[j - 1])) || p == j - 1;
      } else {
        var i' := if i < p then i else i - 1;
        var j' := if j < p then j else j - 1;
        assert r[i] == s[i'] && r[j] == s[j'];
      }
    }
  }

  /** The sort's result is ordered by rank. */
  lemma {:induction false} SortBySorted<T>(s: seq<T>, rank: T -> Rank)
    ensures Sorted(SortBy(s, rank), rank)
    decreases |s|
  {
    if |s| > 0 {
      SortBySorted(s[..|s| - 1], rank);
      InsertSorted(SortBy(s[..|s| - 1], rank), rank, s[|s| - 1]);
    }
  }

  /** The sort rearranges its input: same elements, same multiplicities. */
  lemma {:induction false} SortByPermutes<T>(s: seq<T>, rank: T -> Rank)
    ensures multiset(SortBy(s, rank)) == multiset(s)
    decreases |s|
  {
    if |s| > 0 {
      var init := s[..|s| - 1];
      SortByPermutes(init, rank);
      var t := SortBy(init, rank);
      InsertPermutes(t, rank, s[|s| - 1]);
      assert s == init + [s[|s| - 1]];
    }
  }

  lemma {:induction false} InsertPermutes<T>(s: seq<T>, rank: T -> Rank, x: T)
    ensures multiset(Insert(s, rank, x)) == multiset(s) + multiset{x}
  {
    var p := InsertAt(s, rank, x);
    assert s == s[..p] + s[p..];
  }

  /** Nothing after the insertion point shares the rank of `x`. */
  lemma {:induction false} AfterInsertAt<T>(s: seq<T>, rank: T -> Rank, x: T)
    requires Sorted(s, rank)
    ensures Matching(s[InsertAt(s, rank, x)..], rank, rank(x)) == []
  {
    var p := InsertAt(s, rank, x);
    var c := s[p..];
    forall i | 0 <= i < |c|
      ensures rank(c[i]) != rank(x)
    {
      assert c[i] == s[p + i];
      assert !RankLe(rank(s[p]), rank(x));
      assert i == 0 || RankLe(rank(s[p]), rank(s[p + i]));
    }
    MatchingNone(c, rank, rank(x));
  }

  lemma {:induction false} InsertStable<T>(s: seq<T>, rank: T -> Rank, x: T, k: Rank)
    requires Sorted(s, rank)
    ensures Matching(Insert(s, rank, x), rank, k) ==
      if rank(x) == k then Matching(s, rank, k) + [x] else Matching(s, rank, k)
  {
    var p := InsertAt(s, rank, x);
    var a := s[..p];
    var c := s[p..];
    assert s == a + c;
    assert Insert(s, rank, x) == (a + [x]) + c;
    var ma, mc := Matching(a, rank, k), Matching(c, rank, k);
    MatchingAppend(a, c, rank, k);
    MatchingAppend(a + [x], c, rank, k);
    MatchingAppend(a, [x], rank, k);
    assert Matching([x], rank, k) == (if rank(x) == k then [x] else []) by {
      assert [x][..0] == [];
    }
    assert Matching(s, rank, k) == ma + mc;
    assert Matching(Insert(s, rank, x), rank, k) == ma + Matching([x], rank, k) + mc;
    if rank(x) == k {
      AfterInsertAt(s, rank, x);
      assert mc == [];
      assert ma + mc == ma;
      assert ma + [x] + mc == ma + [x];
    } else {
      assert ma + [] + mc == ma + mc;
    }
  }

  /** The sort is stable: the elements of any one rank come out in the
      order they went in. */
  lemma {:induction false} SortByStable<T>(s: seq<T>, rank: T -> Rank, k: Rank)
    ensures Matching(SortBy(s, rank), rank, k) == Matching(s, rank, k)
    decreases |s|
  {
    if |s| > 0 {
      var init := s[..|s| - 1];
      SortByStable(init, rank, k);
      SortBySorted(init, rank);
      InsertStable(SortBy(init, rank), rank, s[|s| - 1], k);
    }
  }

  /** A list already in order is returned unchanged. */
  lemma {:induction false} SortBySortedInput<T>(s: seq<T>, rank: T -> Rank)
    requires Sorted(s, rank)
    ensures SortBy(s, rank) == s
    decreases |s|
  {
    if |s| > 0 {
      var init := s[..|s| - 1];
      SortBySortedInput(init, rank);
      assert InsertAt(init, rank, s[|s| - 1]) == |init|;
    }
  }

  /** No two elements share a rank. */
  predicate Distinct<T>(s: seq<T>, rank: T -> Rank) {
    forall i, j :: 0 <= i < j < |s| ==> rank(s[i]) != rank(s[j])
  }

  lemma InsertDistinct<T>(s: seq<T>, rank: T -> Rank, x: T)
    requires Distinct(s, rank)
    requires forall y :: y in s ==> rank(y) != rank(x)
    ensures Distinct(Insert(s, rank, x), rank)
  {
    var p := InsertAt(s, rank, x);
    var r := Insert(s, rank, x);
    forall i, j | 0 <= i < j < |r|
      ensures rank(r[i]) != rank(r[j])
    {
      var i' := if i < p then i else i - 1;
      var j' := if j < p then j else j - 1;
      if i == p {
        assert r[j] == s[j'];
      } else if j == p {
        assert r[i] == s[i'];
      } else {
        assert r[i] == s[i'] && r[j] == s[j'];
      }
    }
  }

  /** Ranks that are distinct going in are distinct coming out, so the
      result is strictly ordered and no tie is left to the sort's
      stability. */
  lemma {:induction false} SortByDistinct<T>(s: seq<T>, rank: T -> Rank)
    requires Distinct(s, rank)
    ensures Distinct(SortBy(s, rank), rank)
    ensures forall i, j :: 0 <= i < j < |SortBy(s, rank)| ==>
      RankLe(rank(SortBy(s, rank)[i]), rank(SortBy(s, rank)[j])) && rank(SortBy(s, rank)[i]) != rank(SortBy(s, rank)[j])
    decreases |s|
  {
    SortBySorted(s, rank);
    if |s| > 0 {
      var init := s[..|s| - 1];
      var x := s[|s| - 1];
      SortByDistinct(init, rank);
      SortByPermutes(init, rank);
      var t := SortBy(init, rank);
      forall y | y in t
        ensures rank(y) != rank(x)
      {
        assert y in multiset(init);
        var i :| 0 <= i < |init| && init[i] == y;
        assert s[i] == y;
      }
      InsertDistinct(t, rank, x);
    }
  }
}

=== FILE: wrappers.dfy ===
/** Failure-carrying values shared by every module of the model. */
module Wrappers {

  /** A value that may be absent: a JavaScript `undefined`/`null` field, or a parse that failed. */
  datatype Option<+T> = None | Some(value: T) {

    /** The carried value, or `default` when there is none. */
    function GetOr(default: T): T {
      match this
      case Some(v) => v
      case None => default
    }
  }

  /** The outcome of a handler body: a value, or the error that aborts the request. */
  datatype Result<+T, +E> = Success(value: T) | Failure(error: E)
}
